=== FILE: README.md ===
# bounty-hive: audit, attestation and scope-safety core in Dafny

This project models the pure core of bounty-hive, a passive-only bug-bounty assistant, and proves properties of that model:

- **Canonical JSON.** Sorted keys and compact separators, as used by every hash of the system. The `ensure_ascii` flag is modelled explicitly.
- **`audit_chain`.** Self-hashing audit records.
- **`audit_store`.** The append-only ledger of those records.
- **`audit_verify`.** The collect-all chain verifier.
- **`audit_log`.** The second layout: a JSONL chain starting from `"GENESIS"`, with a fail-fast verifier.
- **Attestations.** Ed25519-signed scope receipts with their base 64 signatures, and validation of finalised disclosure packages.
- **Gates.** The role table `can`, and the safety guard: keyword ban, action categories, tool whitelist and domain-suffix scope matching.
- **Policy preparation.**
  - Override merging.
  - Target classification, rule excerpts and constraint detection.
  - The adapter registry and the generic adapter.
- **The findings pipeline.**
  - Deduplication, severity filtering and grouping.
  - The action plan.
  - Bandit normalisation.
  - The SARIF 2.1.0 export.
- **From the GUI.** The policy fingerprint and the scope-line filter.

SHA-256 is a parameter `H: string -> string`. Collision-freeness is assumed only for the one pair of texts a tamper-detection lemma needs, as the requirement `NoCollision(H, a, b)`. Ed25519 is a `SigScheme` with `derive`, `sign` and `verify` functions. `Sound(s)` states that a signature made with a private key verifies under its derived public key.

Each module follows one source file. The shared pieces are:

- `Json` (values, `get`/`pop`/item assignment, the encoder);
- `Text` (strip, case, `splitlines`, join);
- `Sorting` (stable insertion sort by key);
- `Dedupe` (keep the first of each key).

## Model

| member | source | states |
|---|---|---|
| Json.EncodeOrderIndependent | bounty_hive/reporting/hash_utils.py:8-18 | two dicts holding the same key/value pairs, inserted in any order, encode to the same text |
| Json.EquivEncode | bounty_hive/reporting/hash_utils.py:8-18 | two values equal as Python compares them (same keys and equal values at every dict level, lists item by item) encode to the same text, because keys are sorted at every level |
| Json.NestedOrderIndependent | bounty_hive/reporting/hash_utils.py:8-18 | for instance, a dict inside a dict may have been filled in either order |
| Json.ObjKeysAscending | bounty_hive/reporting/hash_utils.py:13-15 | the members of an encoded object are exactly its pairs, written with keys in strictly ascending order |
| Json.EncodeNoWhitespace | bounty_hive/reporting/hash_utils.py:16 | with `,` and `:` as separators, the encoding adds no whitespace of its own |
| Json.EncodeAsciiOnly | bounty_hive/gui_app.py:21 | with the default `ensure_ascii`, the encoding is pure ASCII whatever the value holds |
| Json.EncodeKeepsNonAscii | bounty_hive/reporting/hash_utils.py:17 | with `ensure_ascii=False`, every non-ASCII character of a key or string appears raw in the encoding |
| Json.AsciiModesDiffer | bounty_hive/reporting/hash_utils.py:17 | a string holding a non-ASCII character encodes differently in the two modes |
| Json.EncodeStrDistinct | bounty_hive/reporting/hash_utils.py:8-18 | different strings have different encodings, so the encoding loses nothing |
| Json.GetPermutation | bounty_hive/reporting/hash_utils.py:8-18 | `get` on a dict does not depend on the insertion order of its keys |
| HashUtils.CanonicalKeysSorted | bounty_hive/reporting/hash_utils.py:8-18 | `canonical_json` of a dict is `{`, its members with keys strictly ascending and joined by `,`, then `}` |
| HashUtils.CanonicalDeterministic | bounty_hive/reporting/hash_utils.py:8-26 | equal values, with their dicts filled in any order at any depth, give the same canonical text and the same `sha256_canonical` digest |
| HashUtils.CanonicalCompact | bounty_hive/reporting/hash_utils.py:16 | the canonical text of a value without whitespace holds no whitespace |
| HashUtils.CanonicalRawUnicode | bounty_hive/reporting/hash_utils.py:17 | a string with no character that must be escaped is written raw between quotes, non-ASCII included |
| HashUtils.Sha256CanonicalCommits | bounty_hive/reporting/hash_utils.py:21-26 | changing one value of a dict to one with a different encoding changes the digest, given no collision on the two texts |
| AuditChain.Create | bounty_hive/audit_chain.py:40-79 | the record is sealed: its hash is `H` of the seven-field material, and `record_id` is the first 16 characters of the hash; every other field is the argument unchanged; a missing or empty timestamp is replaced by the clock value |
| AuditChain.Prefix | bounty_hive/audit_chain.py:70 | `s[:n]`: a prefix of `s` of length `min(n, len(s))` |
| AuditChain.MaterialUnique | bounty_hive/audit_chain.py:53-65 | the material dict names each of its seven fields once |
| AuditChain.MaterialCommits | bounty_hive/audit_chain.py:53-67 | changing any one field of the material to a value with a different encoding changes the record hash, given no collision |
| AuditChain.PayloadCommitted | bounty_hive/audit_chain.py:23-27 | two sealed records that differ only in `payload_hash` have different record hashes |
| AuditChain.PreviousCommitted | bounty_hive/audit_chain.py:23-27 | two sealed records that differ only in `previous_hash` have different record hashes, `None` included |
| AuditChain.OptStrDistinct | bounty_hive/audit_chain.py:48-55 | `None` and every string have different encodings in the material |
| AuditStore.Open | bounty_hive/audit_store.py:18-22 | a new store starts as the empty list; an existing ledger is kept as it is |
| AuditStore.LastHash | bounty_hive/audit_store.py:33-37 | an empty ledger has no last hash; otherwise it is the last record's `record_hash`; a last entry without one raises |
| AuditStore.Append | bounty_hive/audit_store.py:39-42 | exactly one record dict is added at the end, and the earlier entries are unchanged |
| AuditStore.AppendThenLastHash | bounty_hive/audit_store.py:37-41 | after appending a record, `last_hash` is that record's hash |
| AuditStore.DictFields | bounty_hive/audit_store.py:41 | the stored dict holds each field of the record under its own name |
| AuditLedger.BuildChain | tests/test_audit_verify.py:11-40 | chaining records with `previous_hash = store.last_hash()` gives one record per entry |
| AuditLedger.BuildChainSealed | tests/test_audit_verify.py:11-40 | such a chain is linked, every record in it is sealed, and each record carries its entry's payload |
| AuditLedger.ChainFollowsStore | tests/test_audit_verify.py:26-35 | at each step, `last_hash` of the store so far is the previous record's hash, and appending gives the next store |
| AuditLedger.ChainVerifies | bounty_hive/audit_verify.py:25-84 | a linked chain of sealed records verifies with no issues, the right count and the last hash |
| AuditLedger.BuiltChainVerifies | tests/test_audit_verify.py:11-40 | a ledger built through the store verifies as ok |
| AuditLedger.VerifyLedger | bounty_hive/audit_verify.py:87-116 | the file check of any stored ledger is the chain verdict on its records |
| AuditLedger.TamperedPayloadDetected | tests/test_audit_verify.py:43-76 | rewriting one stored `payload_hash` gives exactly one "record_hash mismatch" issue, at that index |
| AuditLedger.OverwrittenPreviousDetected | tests/test_audit_verify.py:79-112 | overwriting one stored `previous_hash` gives a linkage issue followed by a hash issue, both at that index |
| AuditLedger.TamperedPayloadIssues | bounty_hive/audit_verify.py:57-80 | the issue list of a chain with one payload rewritten is exactly the hash issue at that index |
| AuditLedger.OverwrittenPreviousIssues | bounty_hive/audit_verify.py:57-80 | the issue list of a chain with one link overwritten is exactly the link issue and then the hash issue at that index |
| AuditLedger.DictsLink | bounty_hive/audit_verify.py:51-66 | a stored chain breaks at a record exactly when the record's `previous_hash` is not the prior record's hash |
| AuditLedger.DictsHash | bounty_hive/audit_verify.py:68-78 | the recomputed hash of a stored record is its hash as created, so the check fails exactly when the record is not sealed |
| AuditLedger.DictMaterial | bounty_hive/audit_verify.py:25-42 | the verifier rebuilds exactly the material `create` hashed |
| AuditVerify.FirstMissing | bounty_hive/audit_verify.py:32-37 | the first required field the record lacks, or none when it has them all |
| AuditVerify.ComputeRecordHash | bounty_hive/audit_verify.py:25-42 | succeeds exactly when the six indexed fields are present; otherwise it raises a `KeyError` naming the first one missing |
| AuditVerify.Carried | bounty_hive/audit_verify.py:80 | the hash carried to the next record is the stored `record_hash` when that is a string, else `None` |
| AuditVerify.VerifyRecords | bounty_hive/audit_verify.py:45-84 | an empty list is ok with count 0; `count` is the number of records; `ok` holds iff there are no issues; `last_hash` is the last stored `record_hash` |
| AuditVerify.VerifyRecordsSpec | bounty_hive/audit_verify.py:45-84 | the scan raises exactly when some record lacks a field, with the error of the first such record; otherwise the issues are all the issues of all the records |
| AuditVerify.VerifyRecordsIssues | bounty_hive/audit_verify.py:53-80 | no early exit: a record has a link issue iff it is unlinked and a hash issue iff its hash is wrong, and issues are ordered by index with the link issue first |
| AuditVerify.ScanRaises | bounty_hive/audit_verify.py:53-80 | the loop raises exactly at the first incomplete record |
| AuditVerify.AllIssuesReported | bounty_hive/audit_verify.py:56-78 | every reported issue belongs to a record from the given index on and is that record's link issue or hash issue |
| AuditVerify.AllIssuesOrdered | bounty_hive/audit_verify.py:53-80 | issues come in record order, and within a record the link issue comes before the hash issue |
| AuditVerify.IssuesOfRecord | bounty_hive/audit_verify.py:56-78 | one record's link issue is reported iff its link is broken, and its hash issue iff its hash is wrong |
| AuditVerify.AllIssuesExact | bounty_hive/audit_verify.py:56-78 | every broken link and every wrong hash from an index onwards is reported, and nothing else |
| AuditVerify.VerifyAuditFile | bounty_hive/audit_verify.py:87-116 | a missing file is ok and empty; a non-list is one issue at -1; the first non-dict at `i` is one issue at `i`; otherwise the result is `verify_records` |
| AuditLog.HasherOrderIndependent | bounty_hive/audit_log.py:25-27 | `_hash_payload` does not depend on insertion order, at the top level or inside the nested `details` dict |
| AuditLog.Payload | bounty_hive/audit_log.py:41-48 | the hashed payload has five fields and no `hash` |
| AuditLog.LastHash | bounty_hive/audit_log.py:57-65 | `"GENESIS"` for a missing or empty file, an unparsable last line or a missing `hash`; otherwise the last line's `hash` |
| AuditLog.Append | bounty_hive/audit_log.py:37-55 | the record links to `last_hash()`, stores `details=None` as `{}`, and is hashed without its own hash; exactly one line is added at the end |
| AuditLog.AppendThenLastHash | bounty_hive/audit_log.py:52-65 | after `append` to a file whose last line ends with a newline, `last_hash` is the hash just written |
| AuditLog.Verify | bounty_hive/audit_log.py:67-89 | a missing file gives `(True, "No log file.")` and an empty one `(True, "OK")` |
| AuditLog.VerifyIffSound | bounty_hive/audit_log.py:71-89 | `verify` answers `(True, "OK")` iff every line links to the previous line's hash (`"GENESIS"` first) and carries its own payload hash |
| AuditLog.ScanSkipsSound | bounty_hive/audit_log.py:72-85 | the loop passes over sound lines, each handing its stored hash to the next, and reaches a later line as a scan started there would |
| AuditLog.VerifyReportsFirstFault | bounty_hive/audit_log.py:75-85 | fail-fast: the verdict names the first faulty line, checking linkage before the hash |
| AuditLog.VerifyStopsAtFault | bounty_hive/audit_log.py:72-85 | lines after the first fault have no effect on the verdict |
| AuditLog.AppendAllSound | bounty_hive/audit_log.py:37-55 | appending to a sound log keeps every line sound |
| AuditLog.AppendedLogVerifies | bounty_hive/audit_log.py:67-89 | a log built only by `append` verifies as `(True, "OK")`, or `(True, "No log file.")` when nothing was appended |
| Base64.Encode | bounty_hive/receipts.py:18-19 | the text has four characters for every started group of three bytes, all ASCII |
| Base64.DecodeEncode | bounty_hive/receipts.py:18-23 | decoding undoes encoding, per section 4 of RFC 4648 |
| Receipts.Unb64B64 | bounty_hive/receipts.py:18-23 | `_unb64(_b64(b)) == b` |
| Receipts.SignedFields | bounty_hive/receipts.py:104-114 | the signed payload has nine fields |
| Receipts.ToJson | bounty_hive/receipts.py:39-51 | ten fields, with the signature under `signature_b64` |
| Receipts.ToJsonWithoutSignature | bounty_hive/receipts.py:39-51 | `to_json()` with `signature_b64` popped is exactly the signed payload |
| Receipts.GenerateKeypair | bounty_hive/receipts.py:54-77 | existing keys are kept unchanged; otherwise a fresh matching pair is made |
| Receipts.GenerateKeypairIdempotent | bounty_hive/receipts.py:59-60 | a second call changes nothing |
| Receipts.GenerateKeypairMatching | bounty_hive/receipts.py:54-77 | a matching key pair stays matching |
| Receipts.ReceiptFileName | bounty_hive/receipts.py:131-134 | `scope_receipt_` + the timestamp with every `:` and then every `-` removed, the other characters kept in order, + `.json` |
| Receipts.ReceiptFileNameExample | bounty_hive/receipts.py:131-134 | a confirmation time `2026-01-01T00:00:00Z` gives `scope_receipt_20260101T000000Z.json` |
| Text.RemoveCharOne | bounty_hive/receipts.py:133 | `replace(c, '')` drops a single character exactly when it is `c` |
| Text.RemoveCharConcat | bounty_hive/receipts.py:133 | `replace(c, '')` works piece by piece: on two joined texts it gives the two results joined, so order is kept |
| Text.RemoveCharAbsent | bounty_hive/receipts.py:133 | a text without `c` is unchanged by `replace(c, '')` |
| Receipts.SignScopeReceipt | bounty_hive/receipts.py:88-138 | the receipt carries the arguments with schema `scope_receipt/1`; its signature decodes to the signature of the canonical nine-field payload; the written file minus its signature is that payload; the public key is copied |
| Receipts.VerifyScopeReceipt | bounty_hive/receipts.py:141-154 | `(True, "OK")` exactly when the signature decodes and verifies over the document minus `signature_b64`; a failed check returns `(False, "FAIL: …")` without raising |
| Receipts.SignThenVerify | bounty_hive/receipts.py:141-154 | a receipt signed and then verified with the co-issued public key gives `(True, "OK")` |
| DisclosurePackage.SchemaView | bounty_hive/validation/disclosure_package.py:69-72 | the package with exactly `_canonical_sha256` removed and every other member kept |
| DisclosurePackage.Validate | bounty_hive/validation/disclosure_package.py:42-85 | the refusals come in the source's order: a non-dict, then a missing `package_id`, then a missing `_canonical_sha256`, then a missing schema, then the schema validator's error |
| DisclosurePackage.ValidateAccepts | bounty_hive/validation/disclosure_package.py:42-85 | accepted iff it is a dict with `package_id`, its view passes the schema, and the stored hash is the canonical hash of the view |
| DisclosurePackage.SchemaBeforeHash | bounty_hive/validation/disclosure_package.py:74-85 | a schema failure is reported before any hash check; otherwise a mismatch is reported exactly when the hash differs |
| DisclosurePackage.PackageIdFirst | bounty_hive/validation/disclosure_package.py:58-62 | a missing `package_id` is reported even when the hash is present and correct |
| DisclosurePackage.FinalizedAccepted | bounty_hive/validation/disclosure_package.py:33-39 | a package finalised with the canonical hash of its body is accepted |
| DisclosurePackage.TamperDetected | bounty_hive/validation/disclosure_package.py:79-85 | changing any non-hash field of an accepted package makes it rejected, given no collision |
| Auth.PermissionsOf | bounty_hive/auth.py:29 | an unknown role has no permissions |
| Auth.UnknownRoleCannot | bounty_hive/auth.py:28-30 | a user with an unknown role may do nothing |
| Auth.AdminCanAll | bounty_hive/auth.py:24-30 | admin holds `*` and so may do everything |
| Auth.ViewerOnlyReads | bounty_hive/auth.py:14 | viewer may do exactly `read` |
| Auth.ComplianceExactly | bounty_hive/auth.py:23 | compliance may do exactly `read`, `export` and `audit` |
| Auth.ConfirmScopeHolders | bounty_hive/auth.py:13-25 | only lead and admin may `confirm_scope` |
| Auth.EveryRoleReads | bounty_hive/auth.py:13-25 | every known role may `read` |
| Safety.CheckText | bounty_hive/safety.py:51-54 | blocked iff some banned keyword occurs in the lower-cased text, with the fixed reason; `None` is `""` |
| Safety.EmptyTextAllowed | bounty_hive/safety.py:51-52 | `None` or empty text is allowed |
| Safety.KeywordBlocked | bounty_hive/safety.py:8-36 | any text containing a word whose lower-cased form is a banned keyword is blocked, whatever its case |
| Safety.NmapBlocked | bounty_hive/safety.py:8-9 | for instance, `NMAP` anywhere in a text blocks it |
| Safety.FirstKeywordIn | bounty_hive/safety.py:36 | the alternation regex finds a match iff some keyword occurs |
| Safety.CheckAction | bounty_hive/safety.py:56-73 | `policy_fetch` is always allowed; an unknown category is blocked by name; planning and reporting are allowed; a passive step is allowed iff there is a confirmed policy, a whitelisted tool, and an empty or in-scope target |
| Safety.PassiveRefusalReason | bounty_hive/safety.py:62-71 | the refusal reason names the first check that fails, in the source's order |
| Safety.UnconfirmedBlocksPassive | bounty_hive/safety.py:65-66 | an unconfirmed scope blocks every passive step |
| Safety.IsInScope | bounty_hive/safety.py:75-90 | without a policy nothing is in scope; otherwise a target is in scope iff some entry covers its stripped, lower-cased form |
| Safety.ScanScope | bounty_hive/safety.py:79-90 | the loop returns true iff some entry covers the target |
| Safety.SubdomainCovered | bounty_hive/safety.py:83-89 | an entry that covers a host also covers each of its subdomains |
| Safety.SubdomainMatches | bounty_hive/safety.py:84 | `t == v or t.endswith("." + v)` is kept under adding a label |
| Safety.LabelBoundary | bounty_hive/safety.py:84 | the suffix match respects label boundaries: `notexample.com` is not in `example.com` |
| Overrides.MergeNotes | bounty_hive/overrides.py:27-31 | the old notes are kept as a prefix; each string note is present after the merge; each added note is new and added once |
| Overrides.MergeNotesAgain | bounty_hive/overrides.py:30 | notes already present are not added again |
| Overrides.Admit | bounty_hive/overrides.py:33-47 | a well-formed item becomes a target with its value and kind, and a source that defaults to `override`; a malformed item is skipped |
| Overrides.Admitted | bounty_hive/overrides.py:33-47 | every well-formed item is added, and nothing else |
| Overrides.ApplyOne | bounty_hive/overrides.py:21-49 | a non-matching override changes nothing; a matching one merges notes, appends its targets, appends the applied note and leaves the other settings alone |
| Overrides.ApplyOverrides | bounty_hive/overrides.py:20-64 | neither scope list holds two entries with the same `(type, lower(value))`, and every key of the merged lists is kept |
| Overrides.ApplyOverridesKeepsFirsts | bounty_hive/overrides.py:51-63 | the dedupe keeps the first entry of each key, in order |
| Overrides.NoMatchOnlyDedupes | bounty_hive/overrides.py:51-63 | with no matching override, the lists are still deduplicated and nothing else changes |
| Overrides.OthersIgnored | bounty_hive/overrides.py:22-24 | overrides for other programs are ignored |
| Overrides.ApplyAllExtends | bounty_hive/overrides.py:21-49 | notes and scope lists only grow at the end |
| Overrides.ApplyAllKeepsOthers | bounty_hive/overrides.py:21-49 | no setting other than notes and scope lists changes |
| Overrides.AppliedNotes | bounty_hive/overrides.py:49 | each matching override adds one applied note, even when it repeats |
| Overrides.LoadOverrides | bounty_hive/overrides.py:10-17 | a missing or unparsable file, a non-dict or no `overrides` key gives `[]`; otherwise it is the list under `overrides` |
| ParseCommon.ClassifyTarget | bounty_hive/parse_common.py:21-31 | the value is the cleaned input, the source is kept, and the kind is the class of the cleaned value (each class chosen exactly when its pattern matches, by `ParseCommon.KindOfExact`) |
| ParseCommon.KindOfExact | bounty_hive/parse_common.py:23-31 | URL first, then contract, then domain (wildcard or not), else unknown, each branch iff its test holds |
| ParseCommon.ClassesDisjoint | bounty_hive/parse_common.py:9-11 | no string is two of URL, contract and domain, so the order of the tests decides nothing |
| ParseCommon.WildcardLost | bounty_hive/parse_common.py:22-29 | as written, `*.example.com` loses its `*` and is classified unknown |
| ParseCommon.WildcardBranchReachable | bounty_hive/parse_common.py:22-29 | the wildcard branch is still reachable, for instance by `*` TAB `*.example.com`: `*` TAB `*.` followed by any domain gives a `wildcard_domain` with the `*.` kept |
| ParseCommon.BulletKept | bounty_hive/parse_common.py:22 | as written, a `•` bullet is not stripped, and the entry is unknown |
| ParseCommon.ClassifyTargetFixed | bounty_hive/parse_common.py:21-31 | the corrected classifier: the value is the cleaned input and the kind is the class of that value |
| ParseCommon.FixedKeepsWildcard | bounty_hive/parse_common.py:27-29 | corrected: `*.example.com` is a wildcard domain |
| ParseCommon.FixedStripsBullet | bounty_hive/parse_common.py:22 | corrected: a `•` bullet is stripped and the domain is classified |
| ParseCommon.FixedAgrees | bounty_hive/parse_common.py:21-31 | on text in the domain alphabet, the corrected and as-written classifiers agree |
| ParseCommon.ExcerptLines | bounty_hive/parse_common.py:50-56 | the excerpt is a prefix of the stripped, non-blank lines that mention a key, of length `limit_lines` when there are that many |
| ParseCommon.RelevantLinesMembers | bounty_hive/parse_common.py:50-55 | a line is kept iff it is a stripped, non-blank line that mentions a key |
| ParseCommon.ExtractRulesExcerpt | bounty_hive/parse_common.py:39-56 | nothing gives `""`; one line is itself |
| ParseCommon.ExcerptSplitsBack | bounty_hive/parse_common.py:56 | splitting the excerpt at `\n` gives back its lines |
| ParseCommon.DetectConstraints | bounty_hive/parse_common.py:59-66 | no-automated-scanning iff one of the four phrases occurs in the lower-cased text; safe harbor iff `safe harbor` or `safe-harbor` does |
| ParseCommon.DetectIgnoresCase | bounty_hive/parse_common.py:60 | detection ignores case |
| ParseCommon.DetectNothingInEmpty | bounty_hive/parse_common.py:60 | `None` text detects nothing |
| ParseCommon.TakePrefix | bounty_hive/adapters/generic.py:58 | Python's `xs[:n]` for any `n` |
| Adapters.Register | bounty_hive/adapters/base.py:17-18 | appends one adapter and keeps the earlier ones in order |
| Adapters.Pick | bounty_hive/adapters/base.py:20-24 | the first registered adapter that supports the URL; `None` iff none does |
| Adapters.PickAfterRegister | bounty_hive/adapters/base.py:17-24 | registering later never changes an earlier answer |
| Adapters.GenericCatchesAll | bounty_hive/adapters/generic.py:17-18 | once the generic adapter is registered, every URL gets an adapter |
| Adapters.Hint | bounty_hive/adapters/generic.py:75-83 | hackerone, then bugcrowd, then yeswehack on the lower-cased URL, else private |
| Adapters.HintIgnoresCase | bounty_hive/adapters/generic.py:76 | the hint ignores case |
| Adapters.ScopeEntry | bounty_hive/adapters/generic.py:46-56 | a `*.` token is a parsed wildcard domain, kept as it is; anything else is classified by `classify_target` as written |
| Adapters.ScopeEntries | bounty_hive/adapters/generic.py:46-56 | one entry per token, in order |
| Adapters.Normalize | bounty_hive/adapters/generic.py:20-73 | the fields come from the arguments; in-scope is the first 250 entries; the flags follow detection; active scanning is off and human confirmation is always required |
| Adapters.NormalizedBlocksPassive | bounty_hive/adapters/generic.py:70-71 | the guard blocks every passive step on a freshly normalised policy |
| Adapters.ScopeEntryFixed | bounty_hive/adapters/generic.py:56 | on domain-alphabet tokens, the corrected classifier would give the same entry as the `classify_target` the source calls |
| Adapters.DomainTokenEntry | bounty_hive/adapters/generic.py:56 | a plain domain token is a parsed domain |
| Adapters.FixedDomainToken | bounty_hive/parse_common.py:21-31 | the corrected classifier keeps a plain domain as it is and classifies it as a domain |
| Dedupe.DedupeSpec | bounty_hive/cli.py:22-32 | keys are distinct, every input key is kept, and exactly the first finding of each key is kept |
| Dedupe.DedupeIsFirsts | bounty_hive/cli.py:22-32 | the output is the input at the first positions of the keys, in order |
| Dedupe.DedupeIdempotent | bounty_hive/cli.py:22-32 | deduplicating twice is deduplicating once |
| Dedupe.DedupeLoop | bounty_hive/cli.py:22-32 | the loop with a `seen` set computes the deduplication |
| Cli.DedupeFindings | bounty_hive/cli.py:22-32 | no two findings share `(tool, rule_id, file_path, line)`, every input key is kept, and each kept finding is the first of its key |
| Cli.DedupeFindingsOrder | bounty_hive/cli.py:26-30 | findings are kept in first-occurrence order |
| Cli.SeverityRanksIncrease | bounty_hive/cli.py:35-41 | ranks increase strictly from INFO to CRITICAL |
| Cli.FilterBySeverity | bounty_hive/cli.py:44-46 | every kept finding ranks at least the minimum |
| Cli.FilterMembers | bounty_hive/cli.py:44-46 | a finding is kept iff it is in the input and passes |
| Cli.FilterKeepsAll | bounty_hive/cli.py:46 | order is preserved: when all pass, the output is the input |
| Cli.UnknownSeverityFiltered | bounty_hive/cli.py:46 | an unknown severity ranks 0, so it is kept only when the minimum is INFO |
| Cli.UnknownMinimumIsLow | bounty_hive/cli.py:45 | an unknown minimum behaves as LOW |
| Cli.FilterIgnoresCase | bounty_hive/cli.py:45 | the minimum is read case-insensitively |
| Cli.GroupByRuleSpec | bounty_hive/cli.py:49-53 | each group holds exactly the findings of its rule, in input order; the group sizes sum to the input length |
| Cli.GroupByRuleOrder | bounty_hive/cli.py:49-53 | the groups come in the order their rules first appear among the findings, as a `defaultdict` keeps its keys, and every group's rule does appear |
| Orchestrator.BuildPlan | bounty_hive/orchestrator.py:74-124 | appends only; review and confirm first, report last; passive steps only from the first ten in-scope entries |
| Orchestrator.PairsShape | bounty_hive/orchestrator.py:96-115 | one DNS step then one WHOIS step per target, in order |
| Orchestrator.TargetsMembers | bounty_hive/orchestrator.py:93-95 | a target is planned iff it comes from a domain or wildcard entry with every `*.` removed |
| Orchestrator.PlanToolsWhitelisted | bounty_hive/orchestrator.py:96-115 | each passive step needs approval and names a tool in the guard's whitelist |
| Orchestrator.StepToolsWhitelisted | bounty_hive/orchestrator.py:96-115 | the DNS and WHOIS steps both need approval and name `resolve_a_records` and `whois`, the two whitelisted tools |
| Orchestrator.PlannedStepGate | bounty_hive/safety.py:62-72 | on a confirmed policy, the guard allows a planned step iff its target is empty or in scope |
| Orchestrator.PlanBounded | bounty_hive/orchestrator.py:93-115 | at most twenty passive steps are planned |
| Orchestrator.SeenIsDedupe | bounty_hive/orchestrator.py:321-327 | the `seen` dict holds each first finding under its own key |
| Orchestrator.DeduplicateFindings | bounty_hive/orchestrator.py:321-327 | the first finding of each key, in first-occurrence order |
| Orchestrator.DeduplicateAgrees | bounty_hive/orchestrator.py:321-327 | the dict-based and the set-based deduplication agree |
| Sorting.SortPermutes | bounty_hive/reporting/sarif.py:90-98 | sorting permutes its input |
| Sorting.SortSorted | bounty_hive/reporting/sarif.py:90-98 | the result is in key order |
| Sorting.SortStable | bounty_hive/reporting/sarif.py:92-98 | entries with equal keys keep their input order, as Python's `sorted` is stable |
| Sarif.SarifLevel | bounty_hive/reporting/sarif.py:15-27 | LOW is note, HIGH and CRITICAL are error, anything else is warning, all case-insensitive; the level is a SARIF level (section 3.27.10 of SARIF 2.1.0) |
| Sarif.SarifLevelIgnoresCase | bounty_hive/reporting/sarif.py:27 | the level ignores case |
| Sarif.FingerprintAmbiguous | bounty_hive/reporting/sarif.py:30-35 | the path and the line are hashed with no separator, so `a1` with no line and `a` at line 1 collide |
| Sarif.Uri | bounty_hive/reporting/sarif.py:65 | `file_path or "N/A"` |
| Sarif.ResultFrom | bounty_hive/reporting/sarif.py:64-85 | the result carries the rule, level, URI and line of its finding, and the fingerprint depends only on path and line |
| Sarif.FirstRules | bounty_hive/reporting/sarif.py:55-61 | one rule per first occurrence of each rule id, in that order |
| Sarif.FirstRulesDistinct | bounty_hive/reporting/sarif.py:55 | rule ids are distinct |
| Sarif.RulesAscending | bounty_hive/reporting/sarif.py:90 | the rules come in strictly ascending id order |
| Sarif.RulesCover | bounty_hive/reporting/sarif.py:55-61 | every finding's rule id has a rule |
| Sarif.RulesFrom | bounty_hive/reporting/sarif.py:55-61 | each rule is made from the first finding with its id |
| Sarif.ResultsInOrder | bounty_hive/reporting/sarif.py:77-85 | one result per finding, in input order |
| Sarif.PairLtOrder | bounty_hive/reporting/sarif.py:94-97 | the `(ruleId, uri)` order is a strict total order |
| Sarif.ResultsSpec | bounty_hive/reporting/sarif.py:92-98 | the results are a permutation of one per finding, sorted by `(ruleId, uri)`, and stable for equal keys |
| Sarif.FindingsToSarif | bounty_hive/reporting/sarif.py:100-117 | version 2.1.0, a `$schema`, and exactly one run holding the sorted rules and results |
| Sarif.DocumentResults | bounty_hive/reporting/sarif.py:100-117 | the run's results array has one entry per finding |
| Sarif.LocationShape | bounty_hive/reporting/sarif.py:64-69 | `artifactLocation` holds the URI, and a region is present iff the finding has a line |
| PassiveTools.ItemFinding | bounty_hive/passive_tools.py:104-118 | a `bandit` finding whose rule, severity, text, path and line are the item's fields with their defaults; title and description are both the issue text; evidence is the item |
| PassiveTools.Traverse | bounty_hive/passive_tools.py:104-116 | one result per element, in order; fails iff some element fails |
| PassiveTools.NormalizeBandit | bounty_hive/passive_tools.py:98-118 | a missing `results` gives no findings; a list gives one finding per element |
| PassiveTools.BanditPerItem | bounty_hive/passive_tools.py:104-114 | the i-th finding comes from the i-th element |
| PassiveTools.ItemRoundTrip | bounty_hive/passive_tools.py:105-114 | reading an element written from a finding's fields gives those fields back |
| Gui.FingerprintDeterministic | bounty_hive/gui_app.py:17-22 | equal policies, with their dicts filled in any order at any depth, give the same fingerprint |
| Gui.PolicyTextAscii | bounty_hive/gui_app.py:21 | the fingerprinted text is ASCII |
| Gui.PolicyTextNotCanonical | bounty_hive/gui_app.py:21 | on non-ASCII input, the fingerprinted text is not `canonical_json` |
| Gui.FingerprintNotCanonical | bounty_hive/gui_app.py:17-22 | on non-ASCII input, the fingerprint differs from `sha256_canonical`, given no collision |
| Gui.ParseScopeSource | bounty_hive/gui_app.py:25-70 | raw text and a file fill only the allow list with their filtered lines; in a directory, each list holds the filtered lines of its file, or is empty when that file is missing |
| Gui.RawScopeAllowsOnly | bounty_hive/gui_app.py:62-70 | for raw text, the deny list is empty, and an allow entry is exactly a stripped line that is neither blank nor a comment |
| Gui.ScopeLinesMembers | bounty_hive/gui_app.py:64-68 | a line is kept iff its stripped form is neither blank nor a `#` comment |
| Gui.ScopeLinesConcat | bounty_hive/gui_app.py:64-68 | the filter works line by line |

## Left out

- **SHA-256 and Ed25519.** They are parameters. No property of the real functions is used beyond a per-pair non-collision requirement and the sign/verify soundness of `Sound`.
- **Files, the clock and randomness.** File reads and writes, PEM key loading, the clock (`_utc_now`) and key generation are all modelled by the values they produce, which are passed in as parameters. This includes the `path.exists()` checks and the directory reads of `parse_scope_source`.
- **Racing writers.** The store's read-modify-write is not protected by a lock, so concurrent writers can race. This is not modelled.
- **The JSON parser.** Files are read as already-parsed `Json` values, or as a parse error. Floats and Python's `True == 1` equality are not modelled: JSON integers and booleans are distinct.
- **Python `str()` of a non-string hash.** This is a parameter `repr`; it is needed only by `AuditLog.LastHash`.
- **The truncated last line.** A JSONL log whose last line is cut off is an `Unparsable` line. The model does not split a write in two, and it does not record whether the file ends with a newline.
- **Case folding.** Case is folded on ASCII letters only.
- **The disclosure schema.** The JSON-schema validator is a parameter `SchemaCheck`, as are the schema file loading and its errors.
- **Shape of a scope target.** Scope targets follow the call sites as `(value, type, source)`. The separate model class, which does not match them, is not modelled.
- **Overrides input.** Overrides are typed records. The crash paths of decoding an arbitrary JSON override are left out, and the `value or ""` of a missing value is taken as a string.
- **`soup_text` and `find_domains_loose`.** Their HTML parsing and regular expression are not modelled. Their outputs (title, text, domain tokens) are parameters of `Adapters.Normalize`.
- **Policy fetching, the network and tool runs.** The fetch, the network, Bandit and pip-audit runs, `resolve_a_records`, `whois` and `scan_python_repo` are not modelled. The Bandit report is the input.
- **The interactive layers.** The tkinter window, the interactive orchestrator steps and the command-line `main` are not modelled.
- AuditLog.Append: the model takes every existing line to end with a newline, so an appended record is always a line of its own. The source opens the file in append mode and writes `json.dumps(...) + "\n"`. After a cut-off last line with no newline, the new record is glued onto that fragment, the merged line fails `json.loads`, and `last_hash` then gives `GENESIS`. `AuditLog.AppendThenLastHash` therefore holds only for files whose last line ends with a newline, which includes every file the model itself writes.
- Adapters.Normalize: the model follows the call site in `adapters/generic.py` and builds the policy the adapter evidently means to build. Under `models.py` as written, the constructor call at generic.py:31-38 raises `TypeError`: six required fields, from `raw_text_fingerprint` to `requires_human_scope_confirmation`, have no defaults and are not passed. The assignment to `pol.allowances` at lines 67-70 would fail as well, since that attribute is not declared. The model gives `out_of_scope` and the human notes the empty value.
- HashUtils.CanonicalJson: a Dafny `char` is a Unicode scalar value, so a Python string holding a lone surrogate (which `json.loads` accepts from `"\ud800"`) cannot be expressed. The `UnicodeEncodeError` that `.encode("utf-8")` raises on such a string at hash_utils.py:13-18 is not modelled.
- Receipts.VerifyScopeReceipt: the failure message is `"FAIL: "`, without the exception text the library appends. Decoding assumes ASCII base 64 with correct padding, and malformed text is an error. This is stricter than `b64decode`'s non-validating mode.
- PassiveTools.ItemFinding: a field holding a JSON value other than the one the `Finding` record types (a number as `test_id`, a string as `line_number`) is an error in the model. So is a `null` `test_id`, `issue_severity` or `issue_text`. Python would store any value, including `None` as the title and description.
- PassiveTools.NormalizeBandit: a `results` that is a non-empty dict or string is an error, because iterating it gives keys or characters that have no `.get`. A number or `null` is not iterable and is an error too.
- Sarif.FindingsToSarif: SARIF's `informationUri`, `semanticVersion` and `invocations` members are written but not stated by a lemma. The one-run structure and the result entries are stated.
- Sarif.ResultsSpec: stability is stated per sort key. Combining it with the per-rule facts into one statement proved too costly for the verifier, so those facts are stated separately by `Sarif.RulesCover` and `Sarif.RulesFrom`.

## Findings

| source | as written | input that shows it | evidently intended | confidence | as-written member | corrected member |
|---|---|---|---|---|---|---|
| bounty_hive/parse_common.py:22 | `lstrip("-â€¢* ")` strips every leading `*`, so `*.example.com` becomes `.example.com` and is classified `unknown`; the wildcard branch at lines 28-29 is still reachable, for instance by `*` TAB `*.example.com` | `classify_target("*.example.com")` | a leading `*.` is kept and the entry is a `wildcard_domain` | high, not executed | ParseCommon.WildcardLost | ParseCommon.FixedKeepsWildcard |
| bounty_hive/parse_common.py:22 | the strip set is the mojibake of `•` (`â`, `€`, `¢`), so a real bullet is not stripped | `classify_target("• example.com")` is `unknown` with value `• example.com` | the `•` bullet and the space after it are stripped, giving the domain `example.com` | high, not executed | ParseCommon.BulletKept | ParseCommon.FixedStripsBullet |

The adapter model (`Adapters.ScopeEntry`) calls `classify_target` as written, like the source. On domain-alphabet tokens, the corrected classifier would give the same entries (`ParseCommon.FixedAgrees`, `Adapters.ScopeEntryFixed`). The adapter handles `*.` tokens itself, so neither finding affects such tokens.

=== FILE: adapters.dfy ===
/** `adapters/base.py` and `adapters/generic.py`: the registry that picks a
    policy adapter for a program URL, and the generic adapter that turns a
    page's text into a `NormalizedPolicy`. Parsing the HTML (`soup_text`)
    and finding the domain-like tokens (`find_domains_loose`) are left to
    the caller: their results are parameters here. */
module Adapters {
  import opened Wrappers
  import opened Text
  import opened Policy
  import opened ParseCommon
  import Safety

  // ---------------------------------------------------------------------
  // AdapterRegistry
  // ---------------------------------------------------------------------

  /** An adapter as the registry sees it: a name and its `supports` test. */
  datatype Adapter = Adapter(name: string, supports: string -> bool)

  /** `register(adapter)`: the list grows at the end. */
  function Register(reg: seq<Adapter>, a: Adapter): (r: seq<Adapter>)
    ensures |r| == |reg| + 1 && r[..|reg|] == reg && r[|reg|] == a
  {
    reg + [a]
  }

  /** `pick(url)`: the first registered adapter that supports `url`. */
  function Pick(reg: seq<Adapter>, url: string): (r: Option<Adapter>)
    ensures r.None? <==> forall i | 0 <= i < |reg| :: !reg[i].supports(url)
    ensures r.Some? ==> exists i | 0 <= i < |reg| ::
      && r == Some(reg[i]) && reg[i].supports(url)
      && forall j | 0 <= j < i :: !reg[j].supports(url)
    decreases |reg|
  {
    if |reg| == 0 then None
    else if reg[0].supports(url) then Some(reg[0])
    else
      var r := Pick(reg[1..], url);
      assert forall i | 1 <= i < |reg| :: reg[i] == reg[1..][i - 1];
      r
  }

  /** Registering one more adapter changes no answer the registry already
      gave; it only answers URLs nobody supported before. */
  lemma {:induction false} PickAfterRegister(reg: seq<Adapter>, a: Adapter, url: string)
    ensures Pick(Register(reg, a), url)
         == if Pick(reg, url).Some? then Pick(reg, url)
            else if a.supports(url) then Some(a) else None
    decreases |reg|
  {
    if |reg| > 0 {
      assert Register(reg, a)[1..] == Register(reg[1..], a);
      PickAfterRegister(reg[1..], a, url);
    }
  }

  // ---------------------------------------------------------------------
  // GenericAdapter
  // ---------------------------------------------------------------------

  /** The generic adapter accepts every URL. */
  const Generic: Adapter := Adapter("generic", _ => true)

  /** With the generic adapter registered, every URL gets an adapter. */
  lemma GenericCatchesAll(reg: seq<Adapter>, url: string)
    ensures Pick(Register(reg, Generic), url).Some?
  {
    PickAfterRegister(reg, Generic, url);
  }

  /** `_hint(url)`: the platform named in the lower-cased URL, looked for in
      a fixed order. */
  function Hint(url: string): (h: string)
    ensures h in {"hackerone", "bugcrowd", "yeswehack", "private"}
    ensures h == "hackerone" <==> Contains(Lower(url), "hackerone.com")
    ensures h == "bugcrowd" <==> !Contains(Lower(url), "hackerone.com") && Contains(Lower(url), "bugcrowd.com")
    ensures h == "yeswehack" <==>
      !Contains(Lower(url), "hackerone.com") && !Contains(Lower(url), "bugcrowd.com")
      && Contains(Lower(url), "yeswehack.com")
  {
    var u := Lower(url);
    if Contains(u, "hackerone.com") then "hackerone"
    else if Contains(u, "bugcrowd.com") then "bugcrowd"
    else if Contains(u, "yeswehack.com") then "yeswehack"
    else "private"
  }

  /** The hint does not depend on letter case. */
  lemma HintIgnoresCase(url: string)
    ensures Hint(Lower(url)) == Hint(url)
  {
    LowerIdempotent(url);
  }

  /** The scope entry made from one token of the page: a `*.` token is a
      wildcard as it stands, anything else is classified. */
  function ScopeEntry(d: string): (t: ScopeTarget)
    ensures t.source == "parsed"
    ensures StartsWith(d, "*.") ==> t.value == d && t.kind == "wildcard_domain"
    ensures !StartsWith(d, "*.") ==> t == ClassifyTarget(d, "parsed")
  {
    if StartsWith(d, "*.") then ScopeTarget(d, "wildcard_domain", "parsed")
    else ClassifyTarget(d, "parsed")
  }

  /** The entries made from the tokens, one per token, in order. */
  function ScopeEntries(domains: seq<string>): (r: seq<ScopeTarget>)
    ensures |r| == |domains|
    ensures forall i | 0 <= i < |r| :: r[i] == ScopeEntry(domains[i])
  {
    seq(|domains|, i requires 0 <= i < |domains| => ScopeEntry(domains[i]))
  }

  /** The most entries `normalize` keeps. */
  const MaxInScope: nat := 250

  /** The rule excerpt's default line limit. */
  const ExcerptLimit: int := 120

  /** `GenericAdapter().normalize(...)` after parsing: `title` and `text`
      are what `soup_text` extracted, `domains` what `find_domains_loose`
      found, and `H` the hash behind `fingerprint_text`. */
  function Normalize(H: string -> string, url: string, title: string, text: string,
                     fetchedAtUtc: string, cachePath: string, domains: seq<string>): (p: NormalizedPolicy)
    ensures p.programUrl == url && p.programTitle == title && p.fetchedAtUtc == fetchedAtUtc
    ensures p.sourceHtmlCachePath == cachePath && p.adapterUsed == Generic.name
    ensures p.platformHint == Hint(url)
    ensures p.rawTextFingerprint == H(text)
    ensures p.rulesExcerpt == ExtractRulesExcerpt(Some(text), ExcerptLimit)
    ensures |p.inScope| == if |domains| < MaxInScope then |domains| else MaxInScope
    ensures forall i | 0 <= i < |p.inScope| :: p.inScope[i] == ScopeEntry(domains[i])
    ensures p.outOfScope == [] && p.humanNotes == []
    ensures p.prohibitsAutomatedScanning == DetectConstraints(Some(text)).noAutomatedScanning
    ensures p.requiresSafeHarbor == DetectConstraints(Some(text)).safeHarbor
    ensures p.automatedTestingAllowed == !p.prohibitsAutomatedScanning
    ensures !p.activeScanningAllowed && p.requiresHumanScopeConfirmation
  {
    var det := DetectConstraints(Some(text));
    NormalizedPolicy(
      programUrl := url,
      platformHint := Hint(url),
      programTitle := title,
      fetchedAtUtc := fetchedAtUtc,
      adapterUsed := Generic.name,
      sourceHtmlCachePath := cachePath,
      rawTextFingerprint := H(text),
      rulesExcerpt := ExtractRulesExcerpt(Some(text), ExcerptLimit),
      inScope := TakePrefix(ScopeEntries(domains), MaxInScope),
      outOfScope := [],
      prohibitsAutomatedScanning := det.noAutomatedScanning,
      requiresSafeHarbor := det.safeHarbor,
      automatedTestingAllowed := !det.noAutomatedScanning,
      activeScanningAllowed := false,
      requiresHumanScopeConfirmation := true,
      humanNotes := [])
  }

  /** A freshly normalised policy refuses every passive action until a human
      confirms its scope. */
  lemma NormalizedBlocksPassive(H: string -> string, url: string, title: string, text: string,
                                fetchedAtUtc: string, cachePath: string, domains: seq<string>, a: Action)
    requires a.category == "passive_intel"
    ensures !Safety.CheckAction(Some(Normalize(H, url, title, text, fetchedAtUtc, cachePath, domains)), a).allowed
  {
    var p := Normalize(H, url, title, text, fetchedAtUtc, cachePath, domains);
    Safety.UnconfirmedBlocksPassive(p, a);
  }

  /** The corrected classifier keeps a plain domain as it is. */
  lemma FixedDomainToken(d: string)
    requires DomainBody(d) && d[0] != '-'
    ensures ClassifyTargetFixed(d, "parsed") == ScopeTarget(d, "domain", "parsed")
  {
    DomainBodyEnds(d);
    NotSpace(d[0]);
    NotSpace(d[|d| - 1]);
    assert !StartsWith(d, "*.");
    StripIdentity(d);
    LStripBulletsStop(d);
    KindDomain(d);
  }

  /** A plain domain token becomes a `domain` entry, value unchanged. */
  lemma DomainTokenEntry(d: string)
    requires DomainBody(d) && d[0] != '-'
    ensures ScopeEntry(d) == ScopeTarget(d, "domain", "parsed")
  {
    DomainBodyEnds(d);
    assert !StartsWith(d, "*.");
    DomainBodyAlphabet(d);
    FixedDomainToken(d);
    FixedAgrees(d, "parsed");
    assert ScopeEntry(d) == ClassifyTarget(d, "parsed");
  }

  /** A wildcard token becomes a `wildcard_domain` entry, value unchanged. */
  lemma WildcardTokenEntry(b: string)
    ensures ScopeEntry("*." + b) == ScopeTarget("*." + b, "wildcard_domain", "parsed")
  {
    assert StartsWith("*." + b, "*.");
  }

  /** On the tokens the page scan produces, the corrected strip set would
      give the same entry as the one the code writes. */
  lemma ScopeEntryFixed(d: string)
    requires !StartsWith(d, "*.") && DomainAlphabet(d)
    ensures ScopeEntry(d) == ClassifyTargetFixed(d, "parsed")
  {
    FixedAgrees(d, "parsed");
  }
}

=== FILE: audit_chain.dfy ===
/** `audit_chain.py`: an immutable audit record whose `record_hash` commits
    to the previous record's hash, the record's metadata and its payload
    hash. */
module AuditChain {
  import opened Wrappers
  import opened Json
  import opened Crypto

  /** `AuditRecord`, field for field. */
  datatype AuditRecord = AuditRecord(
    recordId: string,
    recordType: string,
    subjectId: string,
    schemaVersion: int,
    actor: string,
    timestampUtc: string,
    payloadHash: string,
    previousHash: Option<string>,
    recordHash: string)

  /** An `Optional[str]` as a JSON value. */
  function OptStr(o: Option<string>): Json {
    match o
    case None => Null
    case Some(s) => Str(s)
  }

  /** The seven fields the record hash covers, in the order the source builds
      the dict (the encoding sorts them). */
  function Material(previousHash: Json, recordType: Json, subjectId: Json, schemaVersion: Json,
                    actor: Json, timestampUtc: Json, payloadHash: Json): seq<Member>
  {
    [Member("previous_hash", previousHash),
     Member("record_type", recordType),
     Member("subject_id", subjectId),
     Member("schema_version", schemaVersion),
     Member("actor", actor),
     Member("timestamp_utc", timestampUtc),
     Member("payload_hash", payloadHash)]
  }

  /** The seven material keys are distinct. */
  lemma MaterialUnique(previousHash: Json, recordType: Json, subjectId: Json, schemaVersion: Json,
                       actor: Json, timestampUtc: Json, payloadHash: Json)
    ensures UniqueKeys(Material(previousHash, recordType, subjectId, schemaVersion, actor, timestampUtc, payloadHash))
  {
  }

  /** The text that is hashed: compact, key-sorted, `ensure_ascii` left at
      its default. */
  function MaterialText(m: seq<Member>): string {
    Encode(true, Obj(m))
  }

  function MaterialHash(H: Hash, m: seq<Member>): string {
    H(MaterialText(m))
  }

  /** The material a record's own fields give. */
  function RecordMaterial(r: AuditRecord): seq<Member> {
    Material(OptStr(r.previousHash), Str(r.recordType), Str(r.subjectId), Int(r.schemaVersion),
             Str(r.actor), Str(r.timestampUtc), Str(r.payloadHash))
  }

  /** `s[:n]` */
  function Prefix(s: string, n: nat): (r: string)
    ensures r <= s
    ensures |r| == if |s| < n then |s| else n
  {
    if |s| <= n then s else s[..n]
  }

  /** A record is sealed when its hash is the hash of its own fields and its
      id is the first sixteen characters of that hash. */
  predicate Sealed(H: Hash, r: AuditRecord) {
    && r.recordHash == MaterialHash(H, RecordMaterial(r))
    && r.recordId == Prefix(r.recordHash, 16)
  }

  /** `AuditRecord.create`. An absent or empty `timestamp_utc` is replaced by
      the clock's reading `now`. */
  function Create(H: Hash, recordType: string, subjectId: string, schemaVersion: int,
                  actor: string, payloadHash: string, previousHash: Option<string>,
                  timestampUtc: Option<string>, now: string): (r: AuditRecord)
    ensures Sealed(H, r)
    ensures r.recordType == recordType && r.subjectId == subjectId
    ensures r.schemaVersion == schemaVersion && r.actor == actor
    ensures r.payloadHash == payloadHash && r.previousHash == previousHash
    ensures r.timestampUtc == if timestampUtc.Some? && timestampUtc.value != "" then timestampUtc.value else now
  {
    var ts := if timestampUtc.Some? && timestampUtc.value != "" then timestampUtc.value else now;
    var h := MaterialHash(H, Material(OptStr(previousHash), Str(recordType), Str(subjectId),
                                      Int(schemaVersion), Str(actor), Str(ts), Str(payloadHash)));
    AuditRecord(Prefix(h, 16), recordType, subjectId, schemaVersion, actor, ts, payloadHash,
                previousHash, h)
  }

  /** Changing one material value to one with a different encoding changes
      the record hash, unless the hash collides on exactly these two texts. */
  lemma MaterialCommits(H: Hash, m: seq<Member>, k: nat, v: Json, w: Json)
    requires UniqueKeys(m) && k < |m|
    requires Encode(true, v) != Encode(true, w)
    requires NoCollision(H, MaterialText(m[k := Member(m[k].key, v)]), MaterialText(m[k := Member(m[k].key, w)]))
    ensures MaterialHash(H, m[k := Member(m[k].key, v)]) != MaterialHash(H, m[k := Member(m[k].key, w)])
  {
    EncodeMemberChange(true, m, k, v, w);
  }

  /** The record hash commits to the payload hash: two sealed records that
      differ only in their payload hash have different record hashes. */
  lemma PayloadCommitted(H: Hash, r: AuditRecord, s: AuditRecord)
    requires Sealed(H, r) && Sealed(H, s)
    requires s.previousHash == r.previousHash && s.recordType == r.recordType
    requires s.subjectId == r.subjectId && s.schemaVersion == r.schemaVersion
    requires s.actor == r.actor && s.timestampUtc == r.timestampUtc
    requires s.payloadHash != r.payloadHash
    requires NoCollision(H, MaterialText(RecordMaterial(r)), MaterialText(RecordMaterial(s)))
    ensures r.recordHash != s.recordHash
  {
    var m := RecordMaterial(r);
    MaterialUnique(OptStr(r.previousHash), Str(r.recordType), Str(r.subjectId), Int(r.schemaVersion),
                   Str(r.actor), Str(r.timestampUtc), Str(r.payloadHash));
    EncodeStrDistinct(true, r.payloadHash, s.payloadHash);
    assert m[6 := Member(m[6].key, Str(r.payloadHash))] == m;
    assert m[6 := Member(m[6].key, Str(s.payloadHash))] == RecordMaterial(s);
    MaterialCommits(H, m, 6, Str(r.payloadHash), Str(s.payloadHash));
  }

  /** Distinct optional hashes have distinct encodings. */
  lemma OptStrDistinct(a: Option<string>, b: Option<string>)
    requires a != b
    ensures Encode(true, OptStr(a)) != Encode(true, OptStr(b))
  {
    match (a, b)
    case (Some(x), Some(y)) => EncodeStrDistinct(true, x, y);
    case (None, Some(y)) => EncodeNullNotStr(true, y);
    case (Some(x), None) => EncodeNullNotStr(true, x);
  }

  /** Replacing the link in otherwise equal material changes the hash. */
  lemma LinkChange(H: Hash, p: Json, q: Json, a: Json, b: Json, c: Json, d: Json, e: Json, f: Json)
    requires Encode(true, p) != Encode(true, q)
    requires NoCollision(H, MaterialText(Material(p, a, b, c, d, e, f)), MaterialText(Material(q, a, b, c, d, e, f)))
    ensures MaterialHash(H, Material(p, a, b, c, d, e, f)) != MaterialHash(H, Material(q, a, b, c, d, e, f))
  {
    var m := Material(p, a, b, c, d, e, f);
    MaterialUnique(p, a, b, c, d, e, f);
    var n := Material(q, a, b, c, d, e, f);
    var m2 := m[0 := Member(m[0].key, q)];
    assert m2[1..] == m[1..] == n[1..];
    assert m2 == [m2[0]] + m2[1..];
    assert n == [n[0]] + n[1..];
    assert m[0 := Member(m[0].key, p)] == m;
    MaterialCommits(H, m, 0, p, q);
  }

  /** The record hash commits to the link: two sealed records that differ
      only in their previous hash have different record hashes. */
  lemma PreviousCommitted(H: Hash, r: AuditRecord, s: AuditRecord)
    requires Sealed(H, r) && Sealed(H, s)
    requires s.payloadHash == r.payloadHash && s.recordType == r.recordType
    requires s.subjectId == r.subjectId && s.schemaVersion == r.schemaVersion
    requires s.actor == r.actor && s.timestampUtc == r.timestampUtc
    requires s.previousHash != r.previousHash
    requires NoCollision(H, MaterialText(RecordMaterial(r)), MaterialText(RecordMaterial(s)))
    ensures r.recordHash != s.recordHash
  {
    OptStrDistinct(r.previousHash, s.previousHash);
    LinkChange(H, OptStr(r.previousHash), OptStr(s.previousHash), Str(r.recordType), Str(r.subjectId),
               Int(r.schemaVersion), Str(r.actor), Str(r.timestampUtc), Str(r.payloadHash));
  }
}

=== FILE: audit_ledger.dfy ===
/** Ledgers written through `AuditStore` and read back by
    `verify_audit_file`: a chain built by `AuditRecord.create` and
    `AuditStore.append` verifies, and the two edits the test suite makes to
    a stored record are each reported exactly. */
module AuditLedger {
  import opened Wrappers
  import opened Json
  import opened Crypto
  import opened AuditChain
  import opened AuditStore
  import opened AuditVerify

  /** The ledger file holding the dicts of `rs`, in order. */
  function StoreOf(rs: seq<AuditRecord>): (c: Json)
    ensures c.Arr? && |c.items| == |rs|
    ensures forall i | 0 <= i < |rs| :: c.items[i] == Obj(ToDict(rs[i]))
  {
    Arr(seq(|rs|, i requires 0 <= i < |rs| => Obj(ToDict(rs[i]))))
  }

  /** The dicts of `rs`, as `verify_records` receives them. */
  function RecordDicts(rs: seq<AuditRecord>): (ds: seq<seq<Member>>)
    ensures |ds| == |rs| && forall i | 0 <= i < |rs| :: ds[i] == ToDict(rs[i])
  {
    seq(|rs|, i requires 0 <= i < |rs| => ToDict(rs[i]))
  }

  /** Each record links to the one before it, the first to nothing. */
  predicate Linked(rs: seq<AuditRecord>) {
    && (|rs| > 0 ==> rs[0].previousHash.None?)
    && forall i | 0 < i < |rs| :: rs[i].previousHash == Some(rs[i - 1].recordHash)
  }

  /** The arguments of one `AuditRecord.create` call. */
  datatype Entry = Entry(recordType: string, subjectId: string, schemaVersion: int, actor: string,
                         payloadHash: string, timestampUtc: Option<string>, now: string)

  /** Records created one after another, each with `previous_hash` set to
      the last hash of the store it is appended to. */
  function BuildChain(H: Hash, es: seq<Entry>): (rs: seq<AuditRecord>)
    ensures |rs| == |es|
    decreases |es|
  {
    if |es| == 0 then []
    else
      var init := BuildChain(H, es[..|es| - 1]);
      var e := es[|es| - 1];
      var prev := if |init| == 0 then None else Some(init[|init| - 1].recordHash);
      init + [Create(H, e.recordType, e.subjectId, e.schemaVersion, e.actor, e.payloadHash, prev, e.timestampUtc, e.now)]
  }

  /** The last record of a built chain: sealed, linked to the chain before
      it, and carrying its entry's subject and payload hash. */
  lemma BuildChainLast(H: Hash, es: seq<Entry>)
    requires |es| > 0
    ensures var init := BuildChain(H, es[..|es| - 1]);
      var r := BuildChain(H, es)[|es| - 1];
      && BuildChain(H, es) == init + [r]
      && Sealed(H, r)
      && r.previousHash == (if |init| == 0 then None else Some(init[|init| - 1].recordHash))
      && r.payloadHash == es[|es| - 1].payloadHash && r.subjectId == es[|es| - 1].subjectId
  {
  }

  /** Appending a sealed record that links to the last one keeps a chain
      sealed and linked. */
  lemma ExtendChain(H: Hash, init: seq<AuditRecord>, r: AuditRecord)
    requires Linked(init) && forall i | 0 <= i < |init| :: Sealed(H, init[i])
    requires Sealed(H, r) && r.previousHash == (if |init| == 0 then None else Some(init[|init| - 1].recordHash))
    ensures Linked(init + [r]) && forall i | 0 <= i < |init| + 1 :: Sealed(H, (init + [r])[i])
  {
    var rs := init + [r];
    forall i | 0 < i < |rs| ensures rs[i].previousHash == Some(rs[i - 1].recordHash) {
      if i < |init| {
        assert rs[i] == init[i] && rs[i - 1] == init[i - 1];
      }
    }
  }

  /** A built chain is sealed and linked, and each record carries its
      entry's subject and payload hash. */
  lemma {:induction false} BuildChainSealed(H: Hash, es: seq<Entry>)
    ensures var rs := BuildChain(H, es);
      && Linked(rs) && (forall i | 0 <= i < |rs| :: Sealed(H, rs[i]))
      && forall i | 0 <= i < |rs| :: rs[i].payloadHash == es[i].payloadHash && rs[i].subjectId == es[i].subjectId
    decreases |es|
  {
    if |es| > 0 {
      var init := BuildChain(H, es[..|es| - 1]);
      BuildChainSealed(H, es[..|es| - 1]);
      BuildChainLast(H, es);
      var r := BuildChain(H, es)[|es| - 1];
      ExtendChain(H, init, r);
    }
  }

  /** The `previous_hash` a linked record carries is what the store's
      `last_hash()` returns just before that record is appended, and
      appending the records one by one writes the ledger `StoreOf(rs)`. */
  lemma ChainFollowsStore(rs: seq<AuditRecord>)
    requires Linked(rs)
    ensures forall i | 0 <= i < |rs| ::
      LastHash(StoreOf(rs[..i])) == Ok(if i == 0 then None else Some(Str(rs[i - 1].recordHash)))
    ensures forall i | 0 <= i < |rs| :: Append(StoreOf(rs[..i]), rs[i]) == Ok(StoreOf(rs[..i + 1]))
  {
    forall i | 0 <= i < |rs|
      ensures Append(StoreOf(rs[..i]), rs[i]) == Ok(StoreOf(rs[..i + 1]))
    {
      assert StoreOf(rs[..i]).items + [Obj(ToDict(rs[i]))] == StoreOf(rs[..i + 1]).items;
    }
    forall i | 0 < i < |rs|
      ensures LastHash(StoreOf(rs[..i])) == Ok(Some(Str(rs[i - 1].recordHash)))
    {
      assert StoreOf(rs[..i]) == Append(StoreOf(rs[..i - 1]), rs[i - 1]).value by {
        assert StoreOf(rs[..i - 1]).items + [Obj(ToDict(rs[i - 1]))] == StoreOf(rs[..i]).items;
      }
      AppendThenLastHash(StoreOf(rs[..i - 1]), rs[i - 1]);
    }
  }

  // ---------------------------------------------------------------------
  // Stored dicts
  // ---------------------------------------------------------------------

  lemma DictComplete(r: AuditRecord)
    ensures Complete(ToDict(r))
  {
    var d := ToDict(r);
    assert d[1].key == "record_type" && d[2].key == "subject_id" && d[3].key == "schema_version";
    assert d[4].key == "actor" && d[5].key == "timestamp_utc" && d[6].key == "payload_hash";
  }

  /** The material rebuilt from a stored dict is the record's own. */
  lemma DictMaterial(r: AuditRecord)
    ensures StoredMaterial(ToDict(r)) == RecordMaterial(r)
  {
    DictFields(r, Null);
  }

  /** A record's link is broken in the stored ledger exactly when its
      `previous_hash` is not the previous record's hash. */
  lemma DictsLink(rs: seq<AuditRecord>, j: nat)
    requires j < |rs|
    ensures LinkBroken(RecordDicts(rs), j) <==>
      rs[j].previousHash != if j == 0 then None else Some(rs[j - 1].recordHash)
    ensures ExpectedPrev(RecordDicts(rs), j) == OptStr(if j == 0 then None else Some(rs[j - 1].recordHash))
  {
    DictFields(rs[j], Null);
    if j > 0 {
      DictFields(rs[j - 1], Null);
    }
  }

  /** A record's hash is wrong in the stored ledger exactly when it is not
      the hash of the record's own fields. */
  lemma DictsHash(H: Hash, rs: seq<AuditRecord>, j: nat)
    requires j < |rs|
    ensures HashBroken(H, RecordDicts(rs), j) <==> rs[j].recordHash != MaterialHash(H, RecordMaterial(rs[j]))
  {
    DictFields(rs[j], Null);
    DictMaterial(rs[j]);
  }

  /** The issues of a stored ledger in which only record `i` has any. */
  lemma {:induction false} AllIssuesOnly(H: Hash, recs: seq<seq<Member>>, from: nat, i: nat, x: seq<Issue>)
    requires from <= |recs| && i < |recs|
    requires forall j | from <= j < |recs| :: RecordIssues(H, recs, j) == if j == i then x else []
    ensures AllIssues(H, recs, from) == if from <= i then x else []
    decreases |recs| - from
  {
    if from < |recs| {
      AllIssuesOnly(H, recs, from + 1, i, x);
    }
  }

  /** Verifying a ledger of stored dicts reports the reference issues,
      counts every record and ends at the last record's hash. */
  lemma VerifyLedger(H: Hash, rs: seq<AuditRecord>)
    ensures var iss := AllIssues(H, RecordDicts(rs), 0);
      VerifyAuditFile(H, Parsed(StoreOf(rs)))
      == Ok(VerificationResult(iss == [], |rs|, if |rs| == 0 then Null else Str(rs[|rs| - 1].recordHash), iss))
  {
    assert FirstNonDict(StoreOf(rs).items, 0).None?;
    assert Dicts(StoreOf(rs).items) == RecordDicts(rs);
    forall j | 0 <= j < |rs| ensures Complete(RecordDicts(rs)[j]) {
      DictComplete(rs[j]);
    }
    VerifyRecordsSpec(H, RecordDicts(rs));
    if |rs| > 0 {
      DictFields(rs[|rs| - 1], Null);
    }
  }

  /** Replacing one stored dict by the dict of another record is storing
      the edited record list. */
  lemma StoreEdit(rs: seq<AuditRecord>, i: nat, s: AuditRecord)
    requires i < |rs|
    ensures StoreOf(rs[i := s]) == Arr(StoreOf(rs).items[i := Obj(ToDict(s))])
  {
  }

  // ---------------------------------------------------------------------
  // The three ledger scenarios
  // ---------------------------------------------------------------------

  /** A ledger of sealed, linked records verifies with no issue, whatever
      the hash function. */
  lemma ChainVerifies(H: Hash, rs: seq<AuditRecord>)
    requires Linked(rs) && forall i | 0 <= i < |rs| :: Sealed(H, rs[i])
    ensures VerifyAuditFile(H, Parsed(StoreOf(rs)))
         == Ok(VerificationResult(true, |rs|, if |rs| == 0 then Null else Str(rs[|rs| - 1].recordHash), []))
  {
    ChainIssues(H, rs);
    VerifyLedger(H, rs);
  }

  /** No record of a sealed, linked ledger has an issue. */
  lemma ChainIssues(H: Hash, rs: seq<AuditRecord>)
    requires Linked(rs) && forall i | 0 <= i < |rs| :: Sealed(H, rs[i])
    ensures AllIssues(H, RecordDicts(rs), 0) == []
  {
    var recs := RecordDicts(rs);
    if |rs| > 0 {
      forall j | 0 <= j < |rs| ensures RecordIssues(H, recs, j) == [] {
        DictsLink(rs, j);
        DictsHash(H, rs, j);
      }
      AllIssuesOnly(H, recs, 0, 0, []);
    }
  }

  /** A chain built record by record through the store verifies. */
  lemma BuiltChainVerifies(H: Hash, es: seq<Entry>)
    ensures var rs := BuildChain(H, es);
      VerifyAuditFile(H, Parsed(StoreOf(rs)))
      == Ok(VerificationResult(true, |es|, if |es| == 0 then Null else Str(rs[|rs| - 1].recordHash), []))
  {
    BuildChainSealed(H, es);
    ChainVerifies(H, BuildChain(H, es));
  }

  /** `d["payload_hash"] = x` on a stored dict gives the dict of the record
      with that payload hash. */
  lemma PutPayload(r: AuditRecord, x: string)
    ensures Put(ToDict(r), "payload_hash", Str(x)) == ToDict(r.(payloadHash := x))
  {
    ToDictUnique(r);
    assert ToDict(r)[6].key == "payload_hash";
    PutInPlace(ToDict(r), "payload_hash", Str(x));
  }

  /** `d["previous_hash"] = z` on a stored dict gives the dict of the record
      with that link. */
  lemma PutPrevious(r: AuditRecord, z: string)
    ensures Put(ToDict(r), "previous_hash", Str(z)) == ToDict(r.(previousHash := Some(z)))
  {
    ToDictUnique(r);
    assert ToDict(r)[7].key == "previous_hash";
    PutInPlace(ToDict(r), "previous_hash", Str(z));
  }

  /** Editing a stored record's `payload_hash` without updating its
      `record_hash` is reported as exactly one hash issue, at that record,
      unless the hash collides on the two materials. */
  lemma TamperedPayloadDetected(H: Hash, rs: seq<AuditRecord>, i: nat, x: string)
    requires Linked(rs) && forall j | 0 <= j < |rs| :: Sealed(H, rs[j])
    requires i < |rs| && x != rs[i].payloadHash
    requires NoCollision(H, MaterialText(RecordMaterial(rs[i])), MaterialText(RecordMaterial(rs[i].(payloadHash := x))))
    ensures var stored := StoreOf(rs).items[i := Obj(Put(ToDict(rs[i]), "payload_hash", Str(x)))];
      VerifyAuditFile(H, Parsed(Arr(stored)))
      == Ok(VerificationResult(false, |rs|, Str(rs[|rs| - 1].recordHash), [Issue(i, Str(rs[i].recordId), HashMismatch)]))
  {
    TamperedStore(rs, i, x);
    TamperedPayloadIssues(H, rs, i, x);
    EditedVerdict(H, rs, i, rs[i].(payloadHash := x),
                  StoreOf(rs).items[i := Obj(Put(ToDict(rs[i]), "payload_hash", Str(x)))]);
  }

  /** The verdict on a file holding the ledger `rs` with record `i`
      replaced by `s`, which keeps its hash. */
  lemma EditedVerdict(H: Hash, rs: seq<AuditRecord>, i: nat, s: AuditRecord, stored: seq<Json>)
    requires i < |rs| && s.recordHash == rs[i].recordHash
    requires Arr(stored) == StoreOf(rs[i := s])
    ensures var iss := AllIssues(H, RecordDicts(rs[i := s]), 0);
      VerifyAuditFile(H, Parsed(Arr(stored)))
      == Ok(VerificationResult(iss == [], |rs|, Str(rs[|rs| - 1].recordHash), iss))
  {
    var t := rs[i := s];
    assert |t| == |rs|;
    assert t[|t| - 1].recordHash == rs[|rs| - 1].recordHash by {
      EditKeepsLastHash(rs, i, s);
    }
    VerifyLedger(H, t);
  }

  /** Editing a record other than in its hash keeps the ledger's last hash. */
  lemma EditKeepsLastHash(rs: seq<AuditRecord>, i: nat, s: AuditRecord)
    requires i < |rs| && s.recordHash == rs[i].recordHash
    ensures rs[i := s][|rs| - 1].recordHash == rs[|rs| - 1].recordHash
  {
  }

  /** The edited file is the ledger of the edited records. */
  lemma TamperedStore(rs: seq<AuditRecord>, i: nat, x: string)
    requires i < |rs|
    ensures Arr(StoreOf(rs).items[i := Obj(Put(ToDict(rs[i]), "payload_hash", Str(x)))])
         == StoreOf(rs[i := rs[i].(payloadHash := x)])
  {
    PutPayload(rs[i], x);
    StoreEdit(rs, i, rs[i].(payloadHash := x));
  }

  /** The record issues of a ledger whose record `i` has a changed payload
      hash. */
  lemma TamperedPayloadIssues(H: Hash, rs: seq<AuditRecord>, i: nat, x: string)
    requires Linked(rs) && forall j | 0 <= j < |rs| :: Sealed(H, rs[j])
    requires i < |rs| && x != rs[i].payloadHash
    requires NoCollision(H, MaterialText(RecordMaterial(rs[i])), MaterialText(RecordMaterial(rs[i].(payloadHash := x))))
    ensures var t := rs[i := rs[i].(payloadHash := x)];
      AllIssues(H, RecordDicts(t), 0) == [Issue(i, Str(rs[i].recordId), HashMismatch)]
  {
    var t := rs[i := rs[i].(payloadHash := x)];
    var recs := RecordDicts(t);
    var r, s := rs[i], t[i];
    PayloadChanged(H, r, x);
    forall j | 0 <= j < |t|
      ensures RecordIssues(H, recs, j) == if j == i then [HashIssue(recs, i)] else []
    {
      DictsLink(t, j);
      DictsHash(H, t, j);
    }
    AllIssuesOnly(H, recs, 0, i, [HashIssue(recs, i)]);
    DictFields(s, Null);
  }

  /** A sealed record's hash is not the hash of its fields once its payload
      hash is changed. */
  lemma PayloadChanged(H: Hash, r: AuditRecord, x: string)
    requires Sealed(H, r) && x != r.payloadHash
    requires NoCollision(H, MaterialText(RecordMaterial(r)), MaterialText(RecordMaterial(r.(payloadHash := x))))
    ensures r.recordHash != MaterialHash(H, RecordMaterial(r.(payloadHash := x)))
  {
    var m := RecordMaterial(r);
    MaterialUnique(OptStr(r.previousHash), Str(r.recordType), Str(r.subjectId), Int(r.schemaVersion),
                   Str(r.actor), Str(r.timestampUtc), Str(r.payloadHash));
    EncodeStrDistinct(true, r.payloadHash, x);
    assert m[6 := Member(m[6].key, Str(r.payloadHash))] == m;
    assert m[6 := Member(m[6].key, Str(x))] == RecordMaterial(r.(payloadHash := x));
    MaterialCommits(H, m, 6, Str(r.payloadHash), Str(x));
  }

  /** A sealed record's hash is not the hash of its fields once its link is
      changed. */
  lemma PreviousChanged(H: Hash, r: AuditRecord, z: string)
    requires Sealed(H, r) && Some(z) != r.previousHash
    requires NoCollision(H, MaterialText(RecordMaterial(r)), MaterialText(RecordMaterial(r.(previousHash := Some(z)))))
    ensures r.recordHash != MaterialHash(H, RecordMaterial(r.(previousHash := Some(z))))
  {
    OptStrDistinct(r.previousHash, Some(z));
    LinkChange(H, OptStr(r.previousHash), Str(z), Str(r.recordType), Str(r.subjectId),
               Int(r.schemaVersion), Str(r.actor), Str(r.timestampUtc), Str(r.payloadHash));
  }

  /** The record issues of a ledger whose record `i` links to a hash it did
      not link to when sealed. */
  lemma OverwrittenPreviousIssues(H: Hash, rs: seq<AuditRecord>, i: nat, z: string)
    requires Linked(rs) && forall j | 0 <= j < |rs| :: Sealed(H, rs[j])
    requires i < |rs| && Some(z) != rs[i].previousHash
    requires NoCollision(H, MaterialText(RecordMaterial(rs[i])), MaterialText(RecordMaterial(rs[i].(previousHash := Some(z)))))
    ensures var t := rs[i := rs[i].(previousHash := Some(z))];
      AllIssues(H, RecordDicts(t), 0)
      == [Issue(i, Str(rs[i].recordId), LinkMismatch(OptStr(rs[i].previousHash), Str(z))),
          Issue(i, Str(rs[i].recordId), HashMismatch)]
  {
    var t := rs[i := rs[i].(previousHash := Some(z))];
    var recs := RecordDicts(t);
    var r, s := rs[i], t[i];
    PreviousChanged(H, r, z);
    forall j | 0 <= j < |t|
      ensures RecordIssues(H, recs, j) == if j == i then [LinkIssue(recs, i), HashIssue(recs, i)] else []
    {
      DictsLink(t, j);
      DictsHash(H, t, j);
    }
    AllIssuesOnly(H, recs, 0, i, [LinkIssue(recs, i), HashIssue(recs, i)]);
    OverwrittenLinkIssue(rs, i, z);
    DictFields(s, Null);
  }

  /** The link issue of the overwritten record names the hash it was sealed
      with and the one written over it. */
  lemma OverwrittenLinkIssue(rs: seq<AuditRecord>, i: nat, z: string)
    requires Linked(rs) && i < |rs|
    ensures var recs := RecordDicts(rs[i := rs[i].(previousHash := Some(z))]);
      LinkIssue(recs, i) == Issue(i, Str(rs[i].recordId), LinkMismatch(OptStr(rs[i].previousHash), Str(z)))
  {
    var t := rs[i := rs[i].(previousHash := Some(z))];
    DictsLink(t, i);
    if i > 0 {
      assert t[i - 1] == rs[i - 1];
    }
    DictFields(t[i], Null);
  }

  /** The edited file is the ledger of the edited records. */
  lemma OverwrittenStore(rs: seq<AuditRecord>, i: nat, z: string)
    requires i < |rs|
    ensures Arr(StoreOf(rs).items[i := Obj(Put(ToDict(rs[i]), "previous_hash", Str(z)))])
         == StoreOf(rs[i := rs[i].(previousHash := Some(z))])
  {
    PutPrevious(rs[i], z);
    StoreEdit(rs, i, rs[i].(previousHash := Some(z)));
  }

  /** Overwriting a stored record's `previous_hash` is reported at that
      record twice: as a broken link naming the hash it should have carried
      and the one it carries, then as a hash mismatch, since the link is part
      of what the record hash covers. No other record is reported. */
  lemma OverwrittenPreviousDetected(H: Hash, rs: seq<AuditRecord>, i: nat, z: string)
    requires Linked(rs) && forall j | 0 <= j < |rs| :: Sealed(H, rs[j])
    requires i < |rs| && Some(z) != rs[i].previousHash
    requires NoCollision(H, MaterialText(RecordMaterial(rs[i])), MaterialText(RecordMaterial(rs[i].(previousHash := Some(z)))))
    ensures var stored := StoreOf(rs).items[i := Obj(Put(ToDict(rs[i]), "previous_hash", Str(z)))];
      VerifyAuditFile(H, Parsed(Arr(stored)))
      == Ok(VerificationResult(false, |rs|, Str(rs[|rs| - 1].recordHash),
              [Issue(i, Str(rs[i].recordId), LinkMismatch(OptStr(rs[i].previousHash), Str(z))),
               Issue(i, Str(rs[i].recordId), HashMismatch)]))
  {
    OverwrittenStore(rs, i, z);
    OverwrittenPreviousIssues(H, rs, i, z);
    EditedVerdict(H, rs, i, rs[i].(previousHash := Some(z)),
                  StoreOf(rs).items[i := Obj(Put(ToDict(rs[i]), "previous_hash", Str(z)))]);
  }
}

=== FILE: audit_log.dfy ===
/** `audit_log.py`: the second ledger layout, an append-only JSONL file in
    which every line is a JSON object carrying the hash of the line before
    it, starting from the sentinel "GENESIS", and the fail-fast verifier
    that walks it.

    A line is modelled by what `json.loads` gives back for it: a value, or
    a parse error. Lines are written with `sort_keys=True`, so an object
    read back has its keys in sorted order; the model keeps the members in
    the order they were built, which changes no `get` (`Json.GetPermutation`)
    and no hash (`Json.EquivEncode`). */
module AuditLog {
  import opened Wrappers
  import opened Text
  import opened Json
  import opened Crypto

  const Genesis: string := "GENESIS"

  /** The record `append` returns; it shares only its name with the
      ledger record of `audit_chain.py`. */
  datatype AuditRecord = AuditRecord(event: string, actor: string, timestampUtc: string,
                                     details: seq<Member>, prevHash: string, hash: string)

  /** One line of the file, as `json.loads` reads it. */
  datatype Line = Value(value: Json) | Unparsable

  /** The log file: absent, or its lines (`splitlines()`); an empty file has
      no lines. */
  type LogFile = Option<seq<Line>>

  /** A payload hash: what `_hash_payload` computes. The operations below
      take it as a parameter, so their lemmas hold for any such function;
      `Hasher(H)` is the one the source uses. */
  type PayloadHasher = seq<Member> -> string

  /** `_hash_payload`: the hash of the compact, key-sorted, ASCII-escaped
      encoding of the payload. */
  function Hasher(H: Hash): PayloadHasher {
    p => H(Encode(true, Obj(p)))
  }

  /** The payload hash ignores the order in which the members, and the
      members of the nested `details`, were inserted, so a line re-read with
      sorted keys hashes as it was written. */
  lemma HasherOrderIndependent(H: Hash, s: seq<Member>, t: seq<Member>)
    requires Equiv(Obj(s), Obj(t))
    ensures Hasher(H)(s) == Hasher(H)(t)
  {
    EquivEncode(true, Obj(s), Obj(t));
  }

  /** The five fields of a line that its hash covers, in the order
      `append` builds them. */
  function Payload(event: string, actor: string, timestampUtc: string, details: seq<Member>,
                   prevHash: string): (p: seq<Member>)
    ensures |p| == 5 && !HasKey(p, "hash")
  {
    [Member("event", Str(event)),
     Member("actor", Str(actor)),
     Member("timestamp_utc", Str(timestampUtc)),
     Member("details", Obj(details)),
     Member("prev_hash", Str(prevHash))]
  }

  /** The line `append` writes for a record: its payload and then its hash. */
  function RecordLine(r: AuditRecord): Line {
    Value(Obj(Payload(r.event, r.actor, r.timestampUtc, r.details, r.prevHash) + [Member("hash", Str(r.hash))]))
  }

  /** The members of the last line, when it parses to an object. */
  function LastObject(f: LogFile): Option<seq<Member>> {
    if f.None? || |f.value| == 0 then None
    else match f.value[|f.value| - 1]
      case Value(Obj(ms)) => Some(ms)
      case _ => None
  }

  /** `last_hash()`: the `hash` of the last line, through `str()`; the
      sentinel for a missing or empty file, an unparsable last line, a last
      line that is not an object, or one without `hash`. */
  function LastHash(f: LogFile, repr: Json -> string): (h: string)
    ensures f.None? || f.value == [] ==> h == Genesis
    ensures LastObject(f).None? ==> h == Genesis
    ensures LastObject(f).Some? && !HasKey(LastObject(f).value, "hash") ==> h == Genesis
    ensures LastObject(f).Some? && Get(LastObject(f).value, "hash", Str(Genesis)).Str?
            ==> h == Get(LastObject(f).value, "hash", Str(Genesis)).s
  {
    match f
    case None => Genesis
    case Some(lines) =>
      if |lines| == 0 then Genesis
      else match lines[|lines| - 1]
        case Unparsable => Genesis
        case Value(v) =>
          if v.Obj? then PyStr(Get(v.members, "hash", Str(Genesis)), repr) else Genesis
  }

  /** `append(event, actor, details)` at time `now`: the record links to the
      current last hash, its hash covers the five payload fields, and its
      line goes after every existing line. A missing file is created. */
  function Append(hp: PayloadHasher, repr: Json -> string, f: LogFile, event: string, actor: string,
                  details: Option<seq<Member>>, now: string): (res: (AuditRecord, LogFile))
    ensures var (r, g) := res;
      && r.event == event && r.actor == actor && r.timestampUtc == now
      && r.details == details.GetOr([])
      && r.prevHash == LastHash(f, repr)
      && r.hash == hp(Payload(event, actor, now, details.GetOr([]), r.prevHash))
      && g == Some(f.GetOr([]) + [RecordLine(r)])
  {
    var d := details.GetOr([]);
    var prev := LastHash(f, repr);
    var r := AuditRecord(event, actor, now, d, prev, hp(Payload(event, actor, now, d, prev)));
    (r, Some(f.GetOr([]) + [RecordLine(r)]))
  }

  /** After an append, `last_hash()` is the appended record's hash. */
  lemma AppendThenLastHash(hp: PayloadHasher, repr: Json -> string, f: LogFile, event: string, actor: string,
                           details: Option<seq<Member>>, now: string)
    ensures var (r, g) := Append(hp, repr, f, event, actor, details, now);
      LastHash(g, repr) == r.hash
  {
    var (r, g) := Append(hp, repr, f, event, actor, details, now);
    var ms := Payload(r.event, r.actor, r.timestampUtc, r.details, r.prevHash) + [Member("hash", Str(r.hash))];
    assert ms[5] == Member("hash", Str(r.hash));
    assert Get(ms, "hash", Str(Genesis)) == Str(r.hash) by {
      assert forall k | 0 <= k < 5 :: ms[k].key != "hash";
      assert HasKey(ms, "hash");
    }
  }

  // ---------------------------------------------------------------------
  // verify(): fail-fast
  // ---------------------------------------------------------------------

  /** `(ok, message)` as `verify` returns it. */
  type Verdict = (bool, string)

  function ChainBreak(idx: nat): Verdict {
    (false, "Chain break at line " + NatToString(idx) + ": prev_hash mismatch")
  }

  function HashMismatch(idx: nat): Verdict {
    (false, "Hash mismatch at line " + NatToString(idx))
  }

  /** The hash a line stores (`obj.get("hash", "")`). */
  function StoredHash(ms: seq<Member>): Json {
    Get(ms, "hash", Str(""))
  }

  /** The line's hash recomputed over every member but `hash`. */
  function Recomputed(hp: PayloadHasher, ms: seq<Member>): Json {
    Str(hp(Without(ms, "hash")))
  }

  /** The loop of `verify` from line number `idx` on, with `prev` the hash
      the next line must link to. A line that does not parse, or parses to
      something other than an object, raises. */
  function Scan(hp: PayloadHasher, lines: seq<Line>, idx: nat, prev: Json): Result<Verdict, string>
    decreases |lines|
  {
    if |lines| == 0 then Ok((true, "OK"))
    else match lines[0]
      case Unparsable => Err("JSONDecodeError")
      case Value(v) =>
        if !v.Obj? then Err("AttributeError: object has no attribute 'get'")
        else if Get(v.members, "prev_hash", Str("")) != prev then Ok(ChainBreak(idx))
        else if Recomputed(hp, v.members) != StoredHash(v.members) then Ok(HashMismatch(idx))
        else Scan(hp, lines[1..], idx + 1, StoredHash(v.members))
  }

  /** `verify()`. */
  function Verify(hp: PayloadHasher, f: LogFile): (r: Result<Verdict, string>)
    ensures f.None? ==> r == Ok((true, "No log file."))
    ensures f == Some([]) ==> r == Ok((true, "OK"))
  {
    match f
    case None => Ok((true, "No log file."))
    case Some(lines) => Scan(hp, lines, 1, Str(Genesis))
  }

  // ---------------------------------------------------------------------
  // Reference: line by line
  // ---------------------------------------------------------------------

  /** The hash line `k` must link to: the sentinel for the first line, else
      the `hash` stored on the line before. */
  function ExpectedPrev(lines: seq<Line>, k: nat): Json
    requires k <= |lines|
  {
    if k == 0 then Str(Genesis)
    else match lines[k - 1]
      case Value(Obj(ms)) => StoredHash(ms)
      case _ => Null
  }

  /** Line `k` is an object that links to the line before it and whose hash
      is right. */
  predicate LineSound(hp: PayloadHasher, lines: seq<Line>, k: nat)
    requires k < |lines|
  {
    match lines[k]
    case Value(Obj(ms)) =>
      Get(ms, "prev_hash", Str("")) == ExpectedPrev(lines, k) && Recomputed(hp, ms) == StoredHash(ms)
    case _ => false
  }

  /** What `verify` reports about an unsound line `k` (its line number is
      `k + 1`). */
  function Fault(lines: seq<Line>, k: nat): Result<Verdict, string>
    requires k < |lines|
  {
    match lines[k]
    case Unparsable => Err("JSONDecodeError")
    case Value(v) =>
      if !v.Obj? then Err("AttributeError: object has no attribute 'get'")
      else if Get(v.members, "prev_hash", Str("")) != ExpectedPrev(lines, k) then Ok(ChainBreak(k + 1))
      else Ok(HashMismatch(k + 1))
  }

  /** Lines `k` up to `q` are sound. */
  predicate SoundBetween(hp: PayloadHasher, lines: seq<Line>, k: nat, q: nat)
    requires k <= q <= |lines|
  {
    forall j | k <= j < q :: LineSound(hp, lines, j)
  }

  /** The scan as it stands when it reaches line `k` of a log whose earlier
      lines are sound. */
  function ScanFrom(hp: PayloadHasher, lines: seq<Line>, k: nat): Result<Verdict, string>
    requires k <= |lines|
  {
    Scan(hp, lines[k..], k + 1, ExpectedPrev(lines, k))
  }

  /** One step of the scan: a sound line hands on its stored hash... */
  lemma ScanSoundStep(hp: PayloadHasher, lines: seq<Line>, k: nat, q: nat)
    requires k < q <= |lines| && SoundBetween(hp, lines, k, q)
    ensures ScanFrom(hp, lines, k) == ScanFrom(hp, lines, k + 1)
  {
    assert LineSound(hp, lines, k);
    assert lines[k..][0] == lines[k];
    assert lines[k..][1..] == lines[k + 1..];
  }

  /** ... and an unsound one is reported. */
  lemma ScanUnsoundStep(hp: PayloadHasher, lines: seq<Line>, k: nat)
    requires k < |lines| && !LineSound(hp, lines, k)
    ensures ScanFrom(hp, lines, k) == Fault(lines, k)
  {
    assert lines[k..][0] == lines[k];
  }

  /** The scan passes over sound lines: from line `k` it reaches line `q`
      in the same state as a scan started there. */
  lemma {:induction false} ScanSkipsSound(hp: PayloadHasher, lines: seq<Line>, k: nat, q: nat)
    requires k <= q <= |lines| && SoundBetween(hp, lines, k, q)
    ensures ScanFrom(hp, lines, k) == ScanFrom(hp, lines, q)
    decreases q - k
  {
    if k < q {
      ScanSoundStep(hp, lines, k, q);
      ScanSkipsSound(hp, lines, k + 1, q);
    }
  }

  /** The log verifies exactly when every line is sound. */
  lemma VerifyIffSound(hp: PayloadHasher, lines: seq<Line>)
    ensures Verify(hp, Some(lines)) == Ok((true, "OK")) <==> forall k | 0 <= k < |lines| :: LineSound(hp, lines, k)
  {
    assert lines[0..] == lines;
    if forall k | 0 <= k < |lines| :: LineSound(hp, lines, k) {
      ScanSkipsSound(hp, lines, 0, |lines|);
    } else {
      var q := FirstUnsound(hp, lines, 0);
      ScanSkipsSound(hp, lines, 0, q);
      ScanUnsoundStep(hp, lines, q);
      assert Fault(lines, q) != Ok((true, "OK"));
    }
  }

  /** Fail-fast: `verify` reports the first unsound line. */
  lemma VerifyReportsFirstFault(hp: PayloadHasher, lines: seq<Line>, q: nat)
    requires q < |lines|
    requires forall j | 0 <= j < q :: LineSound(hp, lines, j)
    requires !LineSound(hp, lines, q)
    ensures Verify(hp, Some(lines)) == Fault(lines, q)
  {
    ScanSkipsSound(hp, lines, 0, q);
    ScanUnsoundStep(hp, lines, q);
    assert lines[0..] == lines;
  }

  /** Whether a line is sound, and what is reported about it, depends only
      on the lines up to it. */
  lemma SoundOnPrefix(hp: PayloadHasher, lines: seq<Line>, n: nat, j: nat)
    requires j < n <= |lines|
    ensures LineSound(hp, lines[..n], j) == LineSound(hp, lines, j)
    ensures Fault(lines[..n], j) == Fault(lines, j)
  {
    assert lines[..n][j] == lines[j];
    if j > 0 {
      assert lines[..n][j - 1] == lines[j - 1];
    }
  }

  /** `verify` looks at nothing after the first unsound line: the lines
      after it can be anything. */
  lemma VerifyStopsAtFault(hp: PayloadHasher, lines: seq<Line>, q: nat)
    requires q < |lines|
    requires forall j | 0 <= j < q :: LineSound(hp, lines, j)
    requires !LineSound(hp, lines, q)
    ensures Verify(hp, Some(lines)) == Verify(hp, Some(lines[..q + 1]))
  {
    var pre := lines[..q + 1];
    forall j | 0 <= j < q ensures LineSound(hp, pre, j) {
      SoundOnPrefix(hp, lines, q + 1, j);
    }
    SoundOnPrefix(hp, lines, q + 1, q);
    VerifyReportsFirstFault(hp, lines, q);
    VerifyReportsFirstFault(hp, pre, q);
  }

  /** The first unsound line at or after `k`. */
  lemma FirstUnsound(hp: PayloadHasher, lines: seq<Line>, k: nat) returns (q: nat)
    requires k <= |lines|
    requires exists j | k <= j < |lines| :: !LineSound(hp, lines, j)
    ensures k <= q < |lines| && !LineSound(hp, lines, q)
    ensures forall j | k <= j < q :: LineSound(hp, lines, j)
    decreases |lines| - k
  {
    if !LineSound(hp, lines, k) {
      q := k;
    } else {
      var w :| k <= w < |lines| && !LineSound(hp, lines, w);
      assert k + 1 <= w;
      q := FirstUnsound(hp, lines, k + 1);
    }
  }

  // ---------------------------------------------------------------------
  // A log written by append verifies
  // ---------------------------------------------------------------------

  /** The arguments of one `append` call and the clock reading it gets. */
  datatype Entry = Entry(event: string, actor: string, details: Option<seq<Member>>, now: string)

  /** The file after appending `es` in order to `f`. */
  function AppendAll(hp: PayloadHasher, repr: Json -> string, f: LogFile, es: seq<Entry>): (g: LogFile)
    decreases |es|
  {
    if |es| == 0 then f
    else
      var e := es[0];
      AppendAll(hp, repr, Append(hp, repr, f, e.event, e.actor, e.details, e.now).1, es[1..])
  }

  /** A line as `append` writes it is sound wherever it links to the line
      before it. */
  lemma RecordLineSound(hp: PayloadHasher, lines: seq<Line>, r: AuditRecord)
    requires r.hash == hp(Payload(r.event, r.actor, r.timestampUtc, r.details, r.prevHash))
    requires Str(r.prevHash) == ExpectedPrev(lines, |lines|)
    ensures LineSound(hp, lines + [RecordLine(r)], |lines|)
    ensures ExpectedPrev(lines + [RecordLine(r)], |lines| + 1) == Str(r.hash)
  {
    var p := Payload(r.event, r.actor, r.timestampUtc, r.details, r.prevHash);
    var ms := p + [Member("hash", Str(r.hash))];
    var t := lines + [RecordLine(r)];
    assert t[|lines|] == RecordLine(r);
    assert forall k | 0 <= k < 5 :: ms[k].key != "hash" && ms[k] == p[k];
    assert ms[5] == Member("hash", Str(r.hash));
    assert HasKey(ms, "hash");
    assert Get(ms, "hash", Str("")) == Str(r.hash);
    assert Get(ms, "prev_hash", Str("")) == Str(r.prevHash) by {
      assert ms[4] == Member("prev_hash", Str(r.prevHash));
    }
    WithoutLast(p, "hash", Str(r.hash));
    if |lines| > 0 {
      assert t[|lines| - 1] == lines[|lines| - 1];
    }
  }

  /** Appending to a log whose last line is a record line of `append`
      links the new line to it. */
  lemma AppendLinks(hp: PayloadHasher, repr: Json -> string, lines: seq<Line>, e: Entry)
    requires |lines| == 0 || exists r: AuditRecord :: lines[|lines| - 1] == RecordLine(r)
    ensures var (r, g) := Append(hp, repr, Some(lines), e.event, e.actor, e.details, e.now);
      Str(r.prevHash) == ExpectedPrev(lines, |lines|)
  {
    var (r, g) := Append(hp, repr, Some(lines), e.event, e.actor, e.details, e.now);
    if |lines| > 0 {
      var q: AuditRecord :| lines[|lines| - 1] == RecordLine(q);
      var ms := Payload(q.event, q.actor, q.timestampUtc, q.details, q.prevHash) + [Member("hash", Str(q.hash))];
      assert forall k | 0 <= k < 5 :: ms[k].key != "hash";
      assert ms[5] == Member("hash", Str(q.hash));
      assert HasKey(ms, "hash");
      assert Get(ms, "hash", Str("")) == Str(q.hash);
      assert Get(ms, "hash", Str(Genesis)) == Str(q.hash);
    }
  }

  /** Appending a line that is sound where it lands keeps every earlier
      line sound. */
  lemma ExtendSound(hp: PayloadHasher, lines: seq<Line>, l: Line)
    requires forall k | 0 <= k < |lines| :: LineSound(hp, lines, k)
    requires LineSound(hp, lines + [l], |lines|)
    ensures forall k | 0 <= k < |lines| + 1 :: LineSound(hp, lines + [l], k)
  {
    forall k | 0 <= k < |lines| ensures LineSound(hp, lines + [l], k) {
      SoundOnPrefix(hp, lines + [l], |lines|, k);
      assert (lines + [l])[..|lines|] == lines;
    }
  }

  /** Every line of a log that only `append` ever wrote is sound, and its
      last line is a record line. */
  lemma {:induction false} AppendAllSound(hp: PayloadHasher, repr: Json -> string, lines: seq<Line>, es: seq<Entry>)
    requires forall k | 0 <= k < |lines| :: LineSound(hp, lines, k)
    requires |lines| == 0 || exists r: AuditRecord :: lines[|lines| - 1] == RecordLine(r)
    ensures AppendAll(hp, repr, Some(lines), es).Some?
    ensures var out := AppendAll(hp, repr, Some(lines), es).value;
      forall k | 0 <= k < |out| :: LineSound(hp, out, k)
    decreases |es|
  {
    if |es| > 0 {
      var e := es[0];
      var (r, g) := Append(hp, repr, Some(lines), e.event, e.actor, e.details, e.now);
      AppendLinks(hp, repr, lines, e);
      RecordLineSound(hp, lines, r);
      var next := lines + [RecordLine(r)];
      ExtendSound(hp, lines, RecordLine(r));
      assert next[|next| - 1] == RecordLine(r);
      AppendAllSound(hp, repr, next, es[1..]);
    }
  }

  /** Appending to a missing file is appending to an empty one. */
  lemma AppendToNoFile(hp: PayloadHasher, repr: Json -> string, es: seq<Entry>)
    requires |es| > 0
    ensures AppendAll(hp, repr, None, es) == AppendAll(hp, repr, Some([]), es)
  {
    var e := es[0];
    assert Append(hp, repr, None, e.event, e.actor, e.details, e.now)
        == Append(hp, repr, Some([]), e.event, e.actor, e.details, e.now);
  }

  /** A log written only by `append`, starting from no file, verifies. */
  lemma AppendedLogVerifies(hp: PayloadHasher, repr: Json -> string, es: seq<Entry>)
    ensures Verify(hp, AppendAll(hp, repr, None, es)) == Ok((true, if |es| == 0 then "No log file." else "OK"))
  {
    if |es| > 0 {
      AppendToNoFile(hp, repr, es);
      AppendAllSound(hp, repr, [], es);
      VerifyIffSound(hp, AppendAll(hp, repr, Some([]), es).value);
    }
  }
}

=== FILE: audit_store.dfy ===
/** `audit_store.py`: the append-only JSON ledger file holding a list of
    record dicts.

    The file's content is a JSON document. The store writes it with
    `indent=2, sort_keys=True`, so a dict read back has its keys in sorted
    order; the model keeps each dict in the order it was appended, which
    changes no lookup (`Json.GetPermutation`) and no canonical hash
    (`Json.EquivEncode`). */
module AuditStore {
  import opened Wrappers
  import opened Json
  import opened AuditChain

  /** `record.__dict__`: the fields in declaration order. */
  function ToDict(r: AuditRecord): seq<Member> {
    [Member("record_id", Str(r.recordId)),
     Member("record_type", Str(r.recordType)),
     Member("subject_id", Str(r.subjectId)),
     Member("schema_version", Int(r.schemaVersion)),
     Member("actor", Str(r.actor)),
     Member("timestamp_utc", Str(r.timestampUtc)),
     Member("payload_hash", Str(r.payloadHash)),
     Member("previous_hash", OptStr(r.previousHash)),
     Member("record_hash", Str(r.recordHash))]
  }

  /** The nine field names are distinct. */
  lemma ToDictUnique(r: AuditRecord)
    ensures UniqueKeys(ToDict(r))
  {
  }

  /** Every field of a record reads back from its dict under its own name. */
  lemma DictFields(r: AuditRecord, d: Json)
    ensures Get(ToDict(r), "record_id", d) == Str(r.recordId)
    ensures Get(ToDict(r), "record_type", d) == Str(r.recordType)
    ensures Get(ToDict(r), "subject_id", d) == Str(r.subjectId)
    ensures Get(ToDict(r), "schema_version", d) == Int(r.schemaVersion)
    ensures Get(ToDict(r), "actor", d) == Str(r.actor)
    ensures Get(ToDict(r), "timestamp_utc", d) == Str(r.timestampUtc)
    ensures Get(ToDict(r), "payload_hash", d) == Str(r.payloadHash)
    ensures Get(ToDict(r), "previous_hash", d) == OptStr(r.previousHash)
    ensures Get(ToDict(r), "record_hash", d) == Str(r.recordHash)
  {
    var m := ToDict(r);
    ToDictUnique(r);
    GetAt(m, 0, d); GetAt(m, 1, d); GetAt(m, 2, d);
    GetAt(m, 3, d); GetAt(m, 4, d); GetAt(m, 5, d);
    GetAt(m, 6, d); GetAt(m, 7, d); GetAt(m, 8, d);
  }

  /** Python truthiness of a loaded document (`if not records`). */
  predicate Truthy(j: Json) {
    match j
    case Null => false
    case Bool(b) => b
    case Int(i) => i != 0
    case Str(s) => s != ""
    case Arr(items) => items != []
    case Obj(ms) => ms != []
  }

  /** `AuditStore(path)`: a missing file is created holding `[]`; an
      existing file is left as it is. */
  function Open(existing: Option<Json>): (c: Json)
    ensures existing.None? ==> c == Arr([])
    ensures existing.Some? ==> c == existing.value
  {
    existing.GetOr(Arr([]))
  }

  /** The last element of a non-empty list is a dict holding `record_hash`. */
  predicate LastHasHash(c: Json) {
    c.Arr? && |c.items| > 0 && c.items[|c.items| - 1].Obj?
    && HasKey(c.items[|c.items| - 1].members, "record_hash")
  }

  /** `last_hash()`: `None` for an empty ledger, else the last record's
      `record_hash`; indexing a document of the wrong shape raises. */
  function LastHash(c: Json): (r: Result<Option<Json>, string>)
    ensures r == Ok(None) <==> !Truthy(c)
    ensures LastHasHash(c) ==> r == Ok(Some(Get(c.items[|c.items| - 1].members, "record_hash", Null)))
    ensures r.Err? <==> Truthy(c) && !LastHasHash(c)
  {
    if !Truthy(c) then Ok(None)
    else if !c.Arr? then Err("TypeError: the ledger is not a list")
    else
      var last := c.items[|c.items| - 1];
      if !last.Obj? then Err("TypeError: the last record is not a dict")
      else if !HasKey(last.members, "record_hash") then Err("KeyError: 'record_hash'")
      else Ok(Some(Get(last.members, "record_hash", Null)))
  }

  /** `append(record)`: the record's dict goes after every existing record;
      nothing already stored is changed or reordered. A document that is not
      a list has no `append`. */
  function Append(c: Json, r: AuditRecord): (res: Result<Json, string>)
    ensures res.Ok? <==> c.Arr?
    ensures res.Ok? ==> res.value.Arr? && |res.value.items| == |c.items| + 1
    ensures res.Ok? ==> res.value.items[..|c.items|] == c.items
    ensures res.Ok? ==> res.value.items[|c.items|] == Obj(ToDict(r))
  {
    if c.Arr? then Ok(Arr(c.items + [Obj(ToDict(r))]))
    else Err("AttributeError: the ledger is not a list")
  }

  /** After an append, `last_hash()` is the appended record's hash: the value
      the next record links to. */
  lemma AppendThenLastHash(c: Json, r: AuditRecord)
    requires c.Arr?
    ensures LastHash(Append(c, r).value) == Ok(Some(Str(r.recordHash)))
  {
    DictFields(r, Null);
    assert HasKey(ToDict(r), "record_hash") by {
      assert ToDict(r)[8].key == "record_hash";
    }
  }
}

=== FILE: audit_verify.dfy ===
/** `audit_verify.py`: re-derives every record hash of a ledger and checks
    that each record links to the hash stored in the record before it.

    An issue keeps the raw JSON values it reports; `ReasonText` and
    `RecordIdText` render them exactly as the source's f-strings and
    `str()` calls do. */
module AuditVerify {
  import opened Wrappers
  import opened Text
  import opened Json
  import opened Crypto
  import opened AuditChain
  import opened AuditStore

  datatype Reason =
    | LinkMismatch(expected: Json, actual: Json)
    | HashMismatch
    | NotAList
    | NonDict

  /** `VerificationIssue`: `recordId` is the value `str()` is applied to. */
  datatype Issue = Issue(index: int, recordId: Json, reason: Reason)

  /** `VerificationResult` */
  datatype VerificationResult = VerificationResult(ok: bool, count: nat, lastHash: Json, issues: seq<Issue>)

  /** The issue's `reason` string; `repr` renders lists and dicts. */
  function ReasonText(r: Reason, repr: Json -> string): string {
    match r
    case LinkMismatch(e, a) =>
      "previous_hash mismatch: expected=" + PyStr(e, repr) + " actual=" + PyStr(a, repr)
    case HashMismatch => "record_hash mismatch (tampering or non-canonical write)"
    case NotAList => "audit file is not a JSON list"
    case NonDict => "non-dict record encountered"
  }

  /** The issue's `record_id` string. */
  function RecordIdText(i: Issue, repr: Json -> string): string {
    PyStr(i.recordId, repr)
  }

  const Empty := VerificationResult(true, 0, Null, [])

  // ---------------------------------------------------------------------
  // One record
  // ---------------------------------------------------------------------

  /** The fields `_compute_record_hash` reads with `record[...]`, in the
      order it reads them; `previous_hash` is read with `.get`. */
  const Required: seq<string> :=
    ["record_type", "subject_id", "schema_version", "actor", "timestamp_utc", "payload_hash"]

  /** The position in `fs` of the first key the record lacks. */
  function FirstMissing(rec: seq<Member>, fs: seq<string>): (r: Option<nat>)
    ensures r.None? <==> forall i | 0 <= i < |fs| :: HasKey(rec, fs[i])
    ensures r.Some? ==> r.value < |fs| && !HasKey(rec, fs[r.value])
    ensures r.Some? ==> forall i | 0 <= i < r.value :: HasKey(rec, fs[i])
    decreases |fs|
  {
    if |fs| == 0 then None
    else if !HasKey(rec, fs[0]) then Some(0)
    else match FirstMissing(rec, fs[1..])
      case None => None
      case Some(k) => Some(k + 1)
  }

  /** A record `_compute_record_hash` does not raise on. */
  predicate Complete(rec: seq<Member>) {
    forall i | 0 <= i < |Required| :: HasKey(rec, Required[i])
  }

  /** The material a stored dict gives. */
  function StoredMaterial(rec: seq<Member>): seq<Member> {
    Material(Get(rec, "previous_hash", Null), Get(rec, "record_type", Null), Get(rec, "subject_id", Null),
             Get(rec, "schema_version", Null), Get(rec, "actor", Null), Get(rec, "timestamp_utc", Null),
             Get(rec, "payload_hash", Null))
  }

  /** `_compute_record_hash(record)`: the hash `AuditRecord.create` would
      have computed, or the `KeyError` for the first required field that is
      missing. */
  function ComputeRecordHash(H: Hash, rec: seq<Member>): (r: Result<string, string>)
    ensures r.Ok? <==> Complete(rec)
    ensures r.Err? ==> exists i | 0 <= i < |Required| ::
      r.error == Required[i] && !HasKey(rec, Required[i]) && forall j | 0 <= j < i :: HasKey(rec, Required[j])
  {
    match FirstMissing(rec, Required)
    case Some(k) => Err(Required[k])
    case None => Ok(MaterialHash(H, StoredMaterial(rec)))
  }

  /** `str(rec.get("record_id", ""))`, before rendering. */
  function RecordId(rec: seq<Member>): Json {
    Get(rec, "record_id", Str(""))
  }

  /** `rec.get("previous_hash")` */
  function ActualPrev(rec: seq<Member>): Json {
    Get(rec, "previous_hash", Null)
  }

  /** `rec.get("record_hash")` */
  function StoredHash(rec: seq<Member>): Json {
    Get(rec, "record_hash", Null)
  }

  /** What the next record must link to: the stored hash if it is a string,
      else `None`. The recomputed hash is never carried forward. */
  function Carried(rec: seq<Member>): (r: Json)
    ensures r == Null || r == StoredHash(rec)
    ensures r.Null? || r.Str?
  {
    if StoredHash(rec).Str? then StoredHash(rec) else Null
  }

  /** The checks on record `i`, given the hash carried from record `i - 1`:
      the link issue first, then the hash issue. */
  function CheckRecord(H: Hash, i: nat, rec: seq<Member>, expected: Json): Result<seq<Issue>, string> {
    var id := RecordId(rec);
    var actual := ActualPrev(rec);
    var link := if actual != expected then [Issue(i, id, LinkMismatch(expected, actual))] else [];
    match ComputeRecordHash(H, rec)
    case Err(e) => Err(e)
    case Ok(h) =>
      var hash := if StoredHash(rec) != Str(h) then [Issue(i, id, HashMismatch)] else [];
      Ok(link + hash)
  }

  /** Checking a record raises exactly when computing its hash does. */
  lemma CheckRecordRaises(H: Hash, i: nat, rec: seq<Member>, expected: Json)
    ensures CheckRecord(H, i, rec, expected).Ok? <==> Complete(rec)
    ensures CheckRecord(H, i, rec, expected).Err? ==>
      CheckRecord(H, i, rec, expected).error == ComputeRecordHash(H, rec).error
  {
  }

  /** The loop of `verify_records` from record `i` on, `expected` being the
      loop's `prev_hash`. */
  function Scan(H: Hash, recs: seq<seq<Member>>, i: nat, expected: Json): Result<seq<Issue>, string>
    requires i <= |recs|
    decreases |recs| - i
  {
    if i == |recs| then Ok([])
    else match CheckRecord(H, i, recs[i], expected)
      case Err(e) => Err(e)
      case Ok(here) =>
        match Scan(H, recs, i + 1, Carried(recs[i]))
        case Err(e) => Err(e)
        case Ok(rest) => Ok(here + rest)
  }

  /** One turn of the loop: the record's issues, then the rest. */
  lemma ScanStep(H: Hash, recs: seq<seq<Member>>, i: nat, expected: Json)
    requires i < |recs|
    requires CheckRecord(H, i, recs[i], expected).Ok?
    requires Scan(H, recs, i + 1, Carried(recs[i])).Ok?
    ensures Scan(H, recs, i, expected)
         == Ok(CheckRecord(H, i, recs[i], expected).value + Scan(H, recs, i + 1, Carried(recs[i])).value)
  {
  }

  /** `verify_records(records)` */
  function VerifyRecords(H: Hash, recs: seq<seq<Member>>): (r: Result<VerificationResult, string>)
    ensures |recs| == 0 ==> r == Ok(Empty)
    ensures r.Ok? ==> r.value.count == |recs|
    ensures r.Ok? ==> (r.value.ok <==> r.value.issues == [])
    ensures r.Ok? && |recs| > 0 ==> r.value.lastHash == StoredHash(recs[|recs| - 1])
  {
    if |recs| == 0 then Ok(Empty)
    else match Scan(H, recs, 0, Null)
      case Err(e) => Err(e)
      case Ok(issues) => Ok(VerificationResult(issues == [], |recs|, StoredHash(recs[|recs| - 1]), issues))
  }

  // ---------------------------------------------------------------------
  // What the scan reports, stated record by record
  // ---------------------------------------------------------------------

  /** The link record `i` must carry: `None` for the first record, else the
      string hash stored in the record before it. */
  function ExpectedPrev(recs: seq<seq<Member>>, i: nat): Json
    requires i <= |recs|
  {
    if i == 0 then Null else Carried(recs[i - 1])
  }

  predicate LinkBroken(recs: seq<seq<Member>>, i: nat)
    requires i < |recs|
  {
    ActualPrev(recs[i]) != ExpectedPrev(recs, i)
  }

  predicate HashBroken(H: Hash, recs: seq<seq<Member>>, i: nat)
    requires i < |recs|
  {
    StoredHash(recs[i]) != Str(MaterialHash(H, StoredMaterial(recs[i])))
  }

  function LinkIssue(recs: seq<seq<Member>>, i: nat): Issue
    requires i < |recs|
  {
    Issue(i, RecordId(recs[i]), LinkMismatch(ExpectedPrev(recs, i), ActualPrev(recs[i])))
  }

  function HashIssue(recs: seq<seq<Member>>, i: nat): Issue
    requires i < |recs|
  {
    Issue(i, RecordId(recs[i]), HashMismatch)
  }

  /** The issues record `j` gets, by its own index: its link issue if the
      link is broken, then its hash issue if the hash is wrong. */
  function RecordIssues(H: Hash, recs: seq<seq<Member>>, j: nat): seq<Issue>
    requires j < |recs|
  {
    (if LinkBroken(recs, j) then [LinkIssue(recs, j)] else [])
    + (if HashBroken(H, recs, j) then [HashIssue(recs, j)] else [])
  }

  /** Every record's own issues, in record order. */
  function PerRecord(H: Hash, recs: seq<seq<Member>>): (ps: seq<seq<Issue>>)
    ensures |ps| == |recs| && forall j | 0 <= j < |recs| :: ps[j] == RecordIssues(H, recs, j)
  {
    seq(|recs|, j requires 0 <= j < |recs| => RecordIssues(H, recs, j))
  }

  /** `ps[i] + ps[i + 1] + ...` */
  function Flatten<T>(ps: seq<seq<T>>, i: nat): seq<T>
    requires i <= |ps|
    decreases |ps| - i
  {
    if i == |ps| then [] else ps[i] + Flatten(ps, i + 1)
  }

  /** The issues of records `i` onwards, record by record. */
  function AllIssues(H: Hash, recs: seq<seq<Member>>, i: nat): seq<Issue>
    requires i <= |recs|
  {
    Flatten(PerRecord(H, recs), i)
  }

  /** Record `i`'s issues come first, then those of the records after it. */
  lemma AllIssuesCons(H: Hash, recs: seq<seq<Member>>, i: nat)
    requires i <= |recs|
    ensures AllIssues(H, recs, i) == if i == |recs| then [] else RecordIssues(H, recs, i) + AllIssues(H, recs, i + 1)
  {
  }

  /** The first record from `i` on that `_compute_record_hash` raises on. */
  function FirstIncomplete(recs: seq<seq<Member>>, i: nat): (r: Option<nat>)
    requires i <= |recs|
    ensures r.None? <==> forall j | i <= j < |recs| :: Complete(recs[j])
    ensures r.Some? ==> i <= r.value < |recs| && !Complete(recs[r.value])
    ensures r.Some? ==> forall j | i <= j < r.value :: Complete(recs[j])
    decreases |recs| - i
  {
    if i == |recs| then None
    else if !Complete(recs[i]) then Some(i)
    else FirstIncomplete(recs, i + 1)
  }

  /** One record's check, given the link the loop carries to it. */
  lemma CheckRecordSpec(H: Hash, recs: seq<seq<Member>>, i: nat)
    requires i < |recs|
    ensures CheckRecord(H, i, recs[i], ExpectedPrev(recs, i))
         == if Complete(recs[i]) then Ok(RecordIssues(H, recs, i)) else Err(ComputeRecordHash(H, recs[i]).error)
  {
  }

  /** The scan raises exactly when some record from `i` on is incomplete,
      and then with the first missing field of the first such record,
      whatever link the loop carries. */
  lemma {:induction false} ScanRaises(H: Hash, recs: seq<seq<Member>>, i: nat, expected: Json)
    requires i <= |recs|
    ensures Scan(H, recs, i, expected).Err? <==> FirstIncomplete(recs, i).Some?
    ensures Scan(H, recs, i, expected).Err? ==>
      Scan(H, recs, i, expected).error == ComputeRecordHash(H, recs[FirstIncomplete(recs, i).value]).error
    decreases |recs| - i
  {
    if i < |recs| {
      CheckRecordRaises(H, i, recs[i], expected);
      ScanRaises(H, recs, i + 1, Carried(recs[i]));
    }
  }

  /** The inductive step of `ScanIsAllIssues`. */
  lemma ScanIsAllIssuesStep(H: Hash, recs: seq<seq<Member>>, i: nat)
    requires i < |recs| && Complete(recs[i])
    requires Scan(H, recs, i + 1, Carried(recs[i])) == Ok(AllIssues(H, recs, i + 1))
    ensures Scan(H, recs, i, ExpectedPrev(recs, i)) == Ok(AllIssues(H, recs, i))
  {
    CheckRecordSpec(H, recs, i);
    ScanStep(H, recs, i, ExpectedPrev(recs, i));
    AllIssuesCons(H, recs, i);
  }

  /** When no record raises, the scan, which carries each record's stored
      hash forward, reports exactly the issues the records have by their
      own index. */
  lemma {:induction false} ScanIsAllIssues(H: Hash, recs: seq<seq<Member>>, i: nat)
    requires i <= |recs|
    requires forall j | i <= j < |recs| :: Complete(recs[j])
    ensures Scan(H, recs, i, ExpectedPrev(recs, i)) == Ok(AllIssues(H, recs, i))
    decreases |recs| - i
  {
    if i < |recs| {
      ScanIsAllIssues(H, recs, i + 1);
      assert ExpectedPrev(recs, i + 1) == Carried(recs[i]);
      ScanIsAllIssuesStep(H, recs, i);
    }
  }

  // ---------------------------------------------------------------------
  // The shape of the reported list
  // ---------------------------------------------------------------------

  /** An element of `ps[i] + ps[i + 1] + ...` is an element of one of the
      lists, and every element of each of them is there. */
  lemma {:induction false} FlattenMember<T>(ps: seq<seq<T>>, i: nat, x: T)
    requires i <= |ps|
    ensures x in Flatten(ps, i) <==> exists j | i <= j < |ps| :: x in ps[j]
    decreases |ps| - i
  {
    if i < |ps| {
      var rest := Flatten(ps, i + 1);
      FlattenMember(ps, i + 1, x);
      assert Flatten(ps, i) == ps[i] + rest;
      if x in rest {
        var j :| i + 1 <= j < |ps| && x in ps[j];
        assert i <= j < |ps| && x in ps[j];
      }
      if exists j | i <= j < |ps| :: x in ps[j] {
        var j :| i <= j < |ps| && x in ps[j];
        if j > i {
          assert x in rest;
        }
      }
    }
  }

  /** Issues come in record order; within a record the link issue precedes
      the hash issue. */
  ghost predicate Ordered(iss: seq<Issue>) {
    forall k, l | 0 <= k < l < |iss| ::
      iss[k].index < iss[l].index
      || (iss[k].index == iss[l].index && iss[k].reason.LinkMismatch? && iss[l].reason.HashMismatch?)
  }

  /** Each list holds only issues of its own position. */
  ghost predicate Indexed(ps: seq<seq<Issue>>) {
    forall j, k | 0 <= j < |ps| && 0 <= k < |ps[j]| :: ps[j][k].index == j
  }

  /** An issue of lists `i` onwards is an issue of the list at its index. */
  lemma FlattenIndex(ps: seq<seq<Issue>>, i: nat, x: Issue)
    requires i <= |ps| && Indexed(ps) && x in Flatten(ps, i)
    ensures i <= x.index < |ps| && x in ps[x.index]
  {
    FlattenMember(ps, i, x);
    var j :| i <= j < |ps| && x in ps[j];
    var k :| 0 <= k < |ps[j]| && ps[j][k] == x;
  }

  /** One record's ordered issues followed by the ordered issues of the
      later records are ordered. */
  lemma OrderedConcat(i: nat, a: seq<Issue>, b: seq<Issue>)
    requires forall k | 0 <= k < |a| :: a[k].index == i
    requires forall k | 0 <= k < |b| :: b[k].index > i
    requires Ordered(a) && Ordered(b)
    ensures Ordered(a + b)
  {
    var c := a + b;
    forall k, l | 0 <= k < l < |c|
      ensures c[k].index < c[l].index
        || (c[k].index == c[l].index && c[k].reason.LinkMismatch? && c[l].reason.HashMismatch?)
    {
      if l < |a| {
        assert c[k] == a[k] && c[l] == a[l];
      } else if k >= |a| {
        assert c[k] == b[k - |a|] && c[l] == b[l - |a|];
      } else {
        assert c[k] == a[k] && c[l] == b[l - |a|];
      }
    }
  }

  /** Ordered lists of issues of their own positions, one after the other,
      are ordered. */
  lemma {:induction false} FlattenOrdered(ps: seq<seq<Issue>>, i: nat)
    requires i <= |ps| && Indexed(ps)
    requires forall j | 0 <= j < |ps| :: Ordered(ps[j])
    ensures Ordered(Flatten(ps, i))
    decreases |ps| - i
  {
    if i < |ps| {
      FlattenOrdered(ps, i + 1);
      var b := Flatten(ps, i + 1);
      forall k | 0 <= k < |b| ensures b[k].index > i {
        FlattenIndex(ps, i + 1, b[k]);
      }
      OrderedConcat(i, ps[i], b);
    }
  }

  /** A record's own issues: at most its link issue then its hash issue,
      the link issue exactly when the link is broken and the hash issue
      exactly when the hash is wrong. */
  lemma RecordIssuesShape(H: Hash, recs: seq<seq<Member>>, i: nat)
    requires i < |recs|
    ensures forall k | 0 <= k < |RecordIssues(H, recs, i)| ::
      RecordIssues(H, recs, i)[k].index == i
      && (RecordIssues(H, recs, i)[k] == LinkIssue(recs, i) || RecordIssues(H, recs, i)[k] == HashIssue(recs, i))
    ensures Ordered(RecordIssues(H, recs, i))
    ensures LinkIssue(recs, i) in RecordIssues(H, recs, i) <==> LinkBroken(recs, i)
    ensures HashIssue(recs, i) in RecordIssues(H, recs, i) <==> HashBroken(H, recs, i)
  {
  }

  /** Every record's list holds only that record's issues, in order. */
  lemma PerRecordShape(H: Hash, recs: seq<seq<Member>>)
    ensures Indexed(PerRecord(H, recs))
    ensures forall j | 0 <= j < |recs| :: Ordered(PerRecord(H, recs)[j])
  {
    var ps: seq<seq<Issue>> := PerRecord(H, recs);
    forall j | 0 <= j < |recs|
      ensures forall k | 0 <= k < |ps[j]| :: ps[j][k].index == j
      ensures Ordered(ps[j])
    {
      RecordIssuesShape(H, recs, j);
    }
  }

  /** Every issue is the link issue or the hash issue of a record at or
      after `i`. */
  ghost predicate Reported(recs: seq<seq<Member>>, i: nat, iss: seq<Issue>) {
    forall k | 0 <= k < |iss| ::
      i <= iss[k].index < |recs|
      && (iss[k] == LinkIssue(recs, iss[k].index) || iss[k] == HashIssue(recs, iss[k].index))
  }

  /** Every issue of `AllIssues` is a link or hash issue of a record at or
      after `i`. */
  lemma AllIssuesReported(H: Hash, recs: seq<seq<Member>>, i: nat)
    requires i <= |recs|
    ensures Reported(recs, i, AllIssues(H, recs, i))
  {
    var ps, iss := PerRecord(H, recs), AllIssues(H, recs, i);
    PerRecordShape(H, recs);
    forall k | 0 <= k < |iss|
      ensures i <= iss[k].index < |recs|
        && (iss[k] == LinkIssue(recs, iss[k].index) || iss[k] == HashIssue(recs, iss[k].index))
    {
      var x := iss[k];
      FlattenIndex(ps, i, x);
      RecordIssuesShape(H, recs, x.index);
    }
  }

  /** The issues of `AllIssues` come in record order, the link issue of a
      record before its hash issue. */
  lemma AllIssuesOrdered(H: Hash, recs: seq<seq<Member>>, i: nat)
    requires i <= |recs|
    ensures Ordered(AllIssues(H, recs, i))
  {
    PerRecordShape(H, recs);
    FlattenOrdered(PerRecord(H, recs), i);
  }

  /** The issues of records `i` onwards hold record `j`'s link issue
      exactly when its link is broken, and its hash issue exactly when its
      hash is wrong. */
  lemma IssuesOfRecord(H: Hash, recs: seq<seq<Member>>, i: nat, j: nat)
    requires i <= j < |recs|
    ensures LinkIssue(recs, j) in AllIssues(H, recs, i) <==> LinkBroken(recs, j)
    ensures HashIssue(recs, j) in AllIssues(H, recs, i) <==> HashBroken(H, recs, j)
  {
    var ps := PerRecord(H, recs);
    PerRecordShape(H, recs);
    RecordIssuesShape(H, recs, j);
    FlattenMember(ps, i, LinkIssue(recs, j));
    FlattenMember(ps, i, HashIssue(recs, j));
    if LinkIssue(recs, j) in AllIssues(H, recs, i) {
      FlattenIndex(ps, i, LinkIssue(recs, j));
    }
    if HashIssue(recs, j) in AllIssues(H, recs, i) {
      FlattenIndex(ps, i, HashIssue(recs, j));
    }
  }

  /** `AllIssues` holds a record's link issue exactly when its link is
      broken, and its hash issue exactly when its hash is wrong. */
  lemma AllIssuesExact(H: Hash, recs: seq<seq<Member>>, i: nat)
    requires i <= |recs|
    ensures forall j | i <= j < |recs| ::
      && (LinkIssue(recs, j) in AllIssues(H, recs, i) <==> LinkBroken(recs, j))
      && (HashIssue(recs, j) in AllIssues(H, recs, i) <==> HashBroken(H, recs, j))
  {
    forall j | i <= j < |recs|
      ensures LinkIssue(recs, j) in AllIssues(H, recs, i) <==> LinkBroken(recs, j)
      ensures HashIssue(recs, j) in AllIssues(H, recs, i) <==> HashBroken(H, recs, j)
    {
      IssuesOfRecord(H, recs, i, j);
    }
  }

  // ---------------------------------------------------------------------
  // verify_records and verify_audit_file
  // ---------------------------------------------------------------------

  /** `verify_records` raises exactly when some record lacks a required
      field, with the first missing field of the first such record, and
      otherwise reports the issues every record has by its own index. */
  lemma VerifyRecordsSpec(H: Hash, recs: seq<seq<Member>>)
    ensures VerifyRecords(H, recs).Err? <==> FirstIncomplete(recs, 0).Some?
    ensures VerifyRecords(H, recs).Err? ==>
      VerifyRecords(H, recs).error == ComputeRecordHash(H, recs[FirstIncomplete(recs, 0).value]).error
    ensures VerifyRecords(H, recs).Ok? ==> VerifyRecords(H, recs).value.issues == AllIssues(H, recs, 0)
  {
    if |recs| > 0 {
      ScanRaises(H, recs, 0, Null);
      if FirstIncomplete(recs, 0).None? {
        ScanIsAllIssues(H, recs, 0);
      }
    }
  }

  /** What `verify_records` reports, record by record: every issue is the
      link or hash issue of some record, in record order; a record's link
      issue is there exactly when its `previous_hash` is not the string hash
      stored in the record before it (`None` for the first), its hash issue
      exactly when its stored hash is not the hash of its fields; and the
      ledger is ok exactly when no record has either fault. */
  lemma VerifyRecordsIssues(H: Hash, recs: seq<seq<Member>>)
    requires VerifyRecords(H, recs).Ok?
    ensures Reported(recs, 0, VerifyRecords(H, recs).value.issues)
    ensures Ordered(VerifyRecords(H, recs).value.issues)
    ensures forall j | 0 <= j < |recs| ::
      && (LinkIssue(recs, j) in VerifyRecords(H, recs).value.issues <==> LinkBroken(recs, j))
      && (HashIssue(recs, j) in VerifyRecords(H, recs).value.issues <==> HashBroken(H, recs, j))
    ensures VerifyRecords(H, recs).value.ok <==>
      forall j | 0 <= j < |recs| :: !LinkBroken(recs, j) && !HashBroken(H, recs, j)
  {
    VerifyRecordsSpec(H, recs);
    AllIssuesReported(H, recs, 0);
    AllIssuesOrdered(H, recs, 0);
    AllIssuesExact(H, recs, 0);
    var iss := VerifyRecords(H, recs).value.issues;
    if iss != [] {
      var j: nat := iss[0].index;
      assert LinkBroken(recs, j) || HashBroken(H, recs, j);
    }
  }

  /** The audit file: absent, not parseable as JSON, or a parsed document. */
  datatype AuditFile = Missing | Unparsable | Parsed(data: Json)

  /** The position of the first element from `i` on that is not a dict. */
  function FirstNonDict(items: seq<Json>, i: nat): (r: Option<nat>)
    requires i <= |items|
    ensures r.None? <==> forall j | i <= j < |items| :: items[j].Obj?
    ensures r.Some? ==> i <= r.value < |items| && !items[r.value].Obj?
    ensures r.Some? ==> forall j | i <= j < r.value :: items[j].Obj?
    decreases |items| - i
  {
    if i == |items| then None
    else if !items[i].Obj? then Some(i)
    else FirstNonDict(items, i + 1)
  }

  /** The dicts of a list of dicts. */
  function Dicts(items: seq<Json>): (recs: seq<seq<Member>>)
    requires forall j | 0 <= j < |items| :: items[j].Obj?
    ensures |recs| == |items| && forall j | 0 <= j < |items| :: items[j] == Obj(recs[j])
  {
    seq(|items|, j requires 0 <= j < |items| => items[j].members)
  }

  /** `verify_audit_file(path)`: a missing file verifies trivially; a
      document that is not a list, or a list holding a non-dict, yields a
      single issue and a zero count; a list of dicts is verified record by
      record. */
  function VerifyAuditFile(H: Hash, f: AuditFile): (r: Result<VerificationResult, string>)
    ensures f.Missing? ==> r == Ok(Empty)
    ensures f.Unparsable? ==> r.Err?
    ensures f.Parsed? && !f.data.Arr? ==> r == Ok(VerificationResult(false, 0, Null, [Issue(-1, Str(""), NotAList)]))
    ensures f.Parsed? && f.data.Arr? && FirstNonDict(f.data.items, 0).Some? ==>
      r == Ok(VerificationResult(false, 0, Null, [Issue(FirstNonDict(f.data.items, 0).value, Str(""), NonDict)]))
    ensures f.Parsed? && f.data.Arr? && FirstNonDict(f.data.items, 0).None? ==>
      r == VerifyRecords(H, Dicts(f.data.items))
  {
    match f
    case Missing => Ok(Empty)
    case Unparsable => Err("JSONDecodeError")
    case Parsed(data) =>
      if !data.Arr? then Ok(VerificationResult(false, 0, Null, [Issue(-1, Str(""), NotAList)]))
      else match FirstNonDict(data.items, 0)
        case Some(i) => Ok(VerificationResult(false, 0, Null, [Issue(i, Str(""), NonDict)]))
        case None => VerifyRecords(H, Dicts(data.items))
  }
}

=== FILE: auth.dfy ===
/** `auth.py`: role-based access control. Each role holds a fixed set of
    permissions; `*` stands for every action. */
module Auth {

  datatype User = User(username: string, role: string)

  /** `PERMISSIONS`. */
  const Permissions: map<string, set<string>> := map[
    "viewer" := {"read"},
    "analyst" := {"read", "normalize", "generate_sealed_findings"},
    "lead" := {"read", "normalize", "confirm_scope", "generate_sealed_findings", "reveal_sealed_findings"},
    "compliance" := {"read", "export", "audit"},
    "admin" := {"*"}
  ]

  /** `PERMISSIONS.get(role, set())`. */
  function PermissionsOf(role: string): (p: set<string>)
    ensures role !in Permissions ==> p == {}
  {
    if role in Permissions then Permissions[role] else {}
  }

  /** `can(user, action)`. */
  predicate Can(u: User, action: string) {
    "*" in PermissionsOf(u.role) || action in PermissionsOf(u.role)
  }

  /** An unknown role may do nothing. */
  lemma UnknownRoleCannot(u: User, action: string)
    requires u.role !in Permissions
    ensures !Can(u, action)
  {
  }

  /** An admin may do everything. */
  lemma AdminCanAll(u: User, action: string)
    requires u.role == "admin"
    ensures Can(u, action)
  {
  }

  /** A viewer may only read. */
  lemma ViewerOnlyReads(u: User, action: string)
    requires u.role == "viewer"
    ensures Can(u, action) <==> action == "read"
  {
  }

  /** Compliance may read, export and audit, and nothing else. */
  lemma ComplianceExactly(u: User, action: string)
    requires u.role == "compliance"
    ensures Can(u, action) <==> action in {"read", "export", "audit"}
  {
  }

  /** Only leads and admins may confirm scope. */
  lemma ConfirmScopeHolders(u: User)
    ensures Can(u, "confirm_scope") <==> u.role in {"lead", "admin"}
  {
    if u.role in Permissions {
      assert u.role in {"viewer", "analyst", "lead", "compliance", "admin"};
    }
  }

  /** Every role can read. */
  lemma EveryRoleReads(u: User)
    requires u.role in Permissions
    ensures Can(u, "read")
  {
  }
}

=== FILE: base64.dfy ===
/** Base 64 encoding with the standard alphabet and `=` padding, section 4
    of RFC 4648, as `base64.b64encode` writes it and `base64.b64decode`
    reads it back.

    Every 3 input bytes become 4 characters, each carrying 6 bits (a
    sextet): the first sextet is the top 6 bits of byte 0, the second the
    low 2 bits of byte 0 and the top 4 of byte 1, the third the low 4 bits
    of byte 1 and the top 2 of byte 2, the fourth the low 6 bits of byte 2.
    A final group of 1 or 2 bytes is zero-filled to a whole number of
    sextets and padded with `=` to 4 characters. */
module Base64 {
  import opened Wrappers
  import opened Crypto

  type Sextet = x: int | 0 <= x < 64

  const Pad: char := '='

  /** The character for a sextet, Table 1 of RFC 4648:
      `A`-`Z`, `a`-`z`, `0`-`9`, `+`, `/`. */
  function CharOf(d: Sextet): (c: char)
    ensures c != Pad
    ensures c as int < 128
  {
    if d < 26 then ('A' as int + d) as char
    else if d < 52 then ('a' as int + (d - 26)) as char
    else if d < 62 then ('0' as int + (d - 52)) as char
    else if d == 62 then '+'
    else '/'
  }

  /** The sextet a character stands for; `None` outside the alphabet. */
  function ValueOf(c: char): (r: Option<Sextet>)
    ensures r.Some? ==> CharOf(r.value) == c
  {
    if 'A' <= c <= 'Z' then Some(c as int - 'A' as int)
    else if 'a' <= c <= 'z' then Some(c as int - 'a' as int + 26)
    else if '0' <= c <= '9' then Some(c as int - '0' as int + 52)
    else if c == '+' then Some(62)
    else if c == '/' then Some(63)
    else None
  }

  /** The alphabet is a bijection between sextets and 64 characters: every
      sextet's character reads back as that sextet. */
  lemma ValueOfCharOf(d: Sextet)
    ensures ValueOf(CharOf(d)) == Some(d)
  {
  }

  /** The 4 characters of a full 3-byte group. */
  function Quantum(b0: Byte, b1: Byte, b2: Byte): string {
    var x, y, z := b0 as int, b1 as int, b2 as int;
    [CharOf(x / 4), CharOf(x % 4 * 16 + y / 16), CharOf(y % 16 * 4 + z / 64), CharOf(z % 64)]
  }

  /** The 4 characters of a final group of 2 bytes. */
  function PairQuantum(b0: Byte, b1: Byte): string {
    var x, y := b0 as int, b1 as int;
    [CharOf(x / 4), CharOf(x % 4 * 16 + y / 16), CharOf(y % 16 * 4), Pad]
  }

  /** The 4 characters of a final single byte. */
  function SingleQuantum(b0: Byte): string {
    var x := b0 as int;
    [CharOf(x / 4), CharOf(x % 4 * 16), Pad, Pad]
  }

  /** `base64.b64encode(data).decode("ascii")`. */
  function Encode(b: Bytes): (s: string)
    ensures |s| == 4 * ((|b| + 2) / 3)
    ensures forall i | 0 <= i < |s| :: s[i] as int < 128
    decreases |b|
  {
    if |b| == 0 then ""
    else if |b| == 1 then SingleQuantum(b[0])
    else if |b| == 2 then PairQuantum(b[0], b[1])
    else Quantum(b[0], b[1], b[2]) + Encode(b[3..])
  }

  /** The three bytes a group of sextets carries, as in `Quantum`. */
  function Byte0(v0: int, v1: int): Byte
    requires 0 <= v0 < 64 && 0 <= v1 < 64
  {
    (v0 * 4 + v1 / 16) as Byte
  }

  function Byte1(v1: int, v2: int): Byte
    requires 0 <= v1 < 64 && 0 <= v2 < 64
  {
    (v1 % 16 * 16 + v2 / 4) as Byte
  }

  function Byte2(v2: int, v3: int): Byte
    requires 0 <= v2 < 64 && 0 <= v3 < 64
  {
    (v2 % 4 * 64 + v3) as Byte
  }

  /** The bytes of one 4-character group; `last` says whether it ends the
      text, the only place padding may appear. */
  function DecodeQuantum(q: string, last: bool): (r: Result<Bytes, string>)
    requires |q| == 4
    ensures r.Ok? ==> 1 <= |r.value| <= 3
    ensures r.Ok? && |r.value| < 3 ==> last
  {
    var v0, v1, v2, v3 := ValueOf(q[0]), ValueOf(q[1]), ValueOf(q[2]), ValueOf(q[3]);
    if v0.None? || v1.None? then Err("Invalid character")
    else if q[2] == Pad && q[3] == Pad then
      if last then Ok([Byte0(v0.value, v1.value)]) else Err("Excess data after padding")
    else if v2.None? then Err("Invalid character")
    else if q[3] == Pad then
      if last then Ok([Byte0(v0.value, v1.value), Byte1(v1.value, v2.value)])
      else Err("Excess data after padding")
    else if v3.None? then Err("Invalid character")
    else Ok([Byte0(v0.value, v1.value), Byte1(v1.value, v2.value), Byte2(v2.value, v3.value)])
  }

  /** `base64.b64decode(s.encode("ascii"))` on text in the alphabet: groups
      of 4 characters, padding only at the end. */
  function Decode(s: string): (r: Result<Bytes, string>)
    decreases |s|
  {
    if |s| == 0 then Ok([])
    else if |s| < 4 then Err("Incorrect padding")
    else
      match DecodeQuantum(s[..4], |s| == 4)
      case Err(e) => Err(e)
      case Ok(q) =>
        match Decode(s[4..])
        case Err(e) => Err(e)
        case Ok(rest) => Ok(q + rest)
  }

  /** Reassembling each byte from the two sextets that share its bits. */
  lemma Reassemble0(x: int, y: int)
    requires 0 <= x < 256 && 0 <= y < 256
    ensures Byte0(x / 4, x % 4 * 16 + y / 16) as int == x
  {
    assert (x % 4 * 16 + y / 16) / 16 == x % 4;
  }

  lemma Reassemble1(y: int, t: int, w: int)
    requires 0 <= y < 256 && 0 <= t < 4 && 0 <= w < 4
    ensures Byte1(w * 16 + y / 16, y % 16 * 4 + t) as int == y
  {
    assert (w * 16 + y / 16) % 16 == y / 16;
    assert (y % 16 * 4 + t) / 4 == y % 16;
  }

  lemma Reassemble2(z: int, w: int)
    requires 0 <= z < 256 && 0 <= w < 16
    ensures Byte2(w * 4 + z / 64, z % 64) as int == z
  {
    assert (w * 4 + z / 64) % 4 == z / 64;
  }

  /** A full group decodes to the bytes it was made from. */
  lemma QuantumRoundTrip(b0: Byte, b1: Byte, b2: Byte, last: bool)
    ensures DecodeQuantum(Quantum(b0, b1, b2), last) == Ok([b0, b1, b2])
  {
    var x, y, z := b0 as int, b1 as int, b2 as int;
    ValueOfCharOf(x / 4);
    ValueOfCharOf(x % 4 * 16 + y / 16);
    ValueOfCharOf(y % 16 * 4 + z / 64);
    ValueOfCharOf(z % 64);
    Reassemble0(x, y);
    Reassemble1(y, z / 64, x % 4);
    Reassemble2(z, y % 16);
  }

  /** A final single byte decodes back. */
  lemma OneRoundTrip(b: Bytes)
    requires |b| == 1
    ensures DecodeQuantum(Encode(b), true) == Ok(b)
  {
    SingleRoundTrip(b[0]);
    assert [b[0]] == b;
  }

  lemma SingleRoundTrip(b0: Byte)
    ensures DecodeQuantum(SingleQuantum(b0), true) == Ok([b0])
  {
    var x := b0 as int;
    ValueOfCharOf(x / 4);
    ValueOfCharOf(x % 4 * 16);
    Reassemble0(x, 0);
  }

  /** A final pair of bytes decodes back. */
  lemma TwoRoundTrip(b: Bytes)
    requires |b| == 2
    ensures DecodeQuantum(Encode(b), true) == Ok(b)
  {
    PairRoundTrip(b[0], b[1]);
    assert [b[0], b[1]] == b;
  }

  lemma PairRoundTrip(b0: Byte, b1: Byte)
    ensures DecodeQuantum(PairQuantum(b0, b1), true) == Ok([b0, b1])
  {
    var x, y := b0 as int, b1 as int;
    ValueOfCharOf(x / 4);
    ValueOfCharOf(x % 4 * 16 + y / 16);
    ValueOfCharOf(y % 16 * 4);
    Reassemble0(x, y);
    Reassemble1(y, 0, x % 4);
  }

  /** A text that is one final group. */
  lemma DecodeLast(q: string)
    requires |q| == 4
    ensures Decode(q) == DecodeQuantum(q, true)
  {
    assert q[..4] == q && q[4..] == [];
    match DecodeQuantum(q, true)
    case Ok(bs) => assert bs + [] == bs;
    case Err(_) =>
  }

  /** Decoding a text of one group followed by more text. */
  lemma DecodeStep(q: string, rest: string, bs: Bytes, more: Bytes)
    requires |q| == 4
    requires DecodeQuantum(q, |rest| == 0) == Ok(bs)
    requires Decode(rest) == Ok(more)
    ensures Decode(q + rest) == Ok(bs + more)
  {
    assert (q + rest)[..4] == q && (q + rest)[4..] == rest;
  }

  /** Decoding undoes encoding: `_unb64(_b64(b)) == b`. */
  lemma {:induction false} DecodeEncode(b: Bytes)
    ensures Decode(Encode(b)) == Ok(b)
    decreases |b|
  {
    if 1 <= |b| <= 2 {
      ShortRoundTrip(b);
    } else if |b| >= 3 {
      DecodeEncode(b[3..]);
      GroupRoundTrip(b[0], b[1], b[2], b[3..]);
      assert b == [b[0], b[1], b[2]] + b[3..];
    }
  }

  /** A text of one or two bytes decodes back. */
  lemma ShortRoundTrip(b: Bytes)
    requires 1 <= |b| <= 2
    ensures Decode(Encode(b)) == Ok(b)
  {
    if |b| == 1 {
      OneRoundTrip(b);
    } else {
      TwoRoundTrip(b);
    }
    DecodeLast(Encode(b));
  }

  /** One full group in front of text that decodes back. */
  lemma GroupRoundTrip(b0: Byte, b1: Byte, b2: Byte, tail: Bytes)
    requires Decode(Encode(tail)) == Ok(tail)
    ensures Decode(Encode([b0, b1, b2] + tail)) == Ok([b0, b1, b2] + tail)
  {
    var b := [b0, b1, b2] + tail;
    assert b[0] == b0 && b[1] == b1 && b[2] == b2 && b[3..] == tail;
    var q, rest := Quantum(b0, b1, b2), Encode(tail);
    assert Encode(b) == q + rest;
    QuantumRoundTrip(b0, b1, b2, |rest| == 0);
    DecodeStep(q, rest, [b0, b1, b2], tail);
  }
}

=== FILE: cli.dfy ===
/** `cli.py`: the post-processing of scan findings before they are
    reported — deduplication, the minimum-severity filter and grouping by
    rule. */
module Cli {
  import opened Wrappers
  import opened Text
  import opened Findings
  import opened Dedupe
  import Sorting

  // ---------------------------------------------------------------------
  // dedupe_findings
  // ---------------------------------------------------------------------

  /** `dedupe_findings(findings)`: the first finding of each
      `(tool, rule_id, file_path, line)`, in input order. */
  function DedupeFindings(fs: seq<Finding>): (r: seq<Finding>)
    ensures forall a, b | 0 <= a < b < |r| :: KeyOf(r[a]) != KeyOf(r[b])
    ensures Keys(r, KeyOf) == Keys(fs, KeyOf)
    ensures forall i | 0 <= i < |fs| && FirstOfKey(fs, KeyOf, i) :: fs[i] in r
    ensures forall f | f in r :: exists i | 0 <= i < |fs| :: fs[i] == f && FirstOfKey(fs, KeyOf, i)
  {
    DedupeSpec(fs, KeyOf);
    DedupeBy(fs, KeyOf)
  }

  /** The kept findings are the first of their keys in the order they came. */
  lemma DedupeFindingsOrder(fs: seq<Finding>)
    ensures var r, idx := DedupeFindings(fs), FirstPositions(fs, KeyOf);
      && |r| == |idx|
      && (forall k | 0 <= k < |r| :: r[k] == fs[idx[k]])
      && (forall a, b | 0 <= a < b < |idx| :: idx[a] < idx[b])
  {
    DedupeIsFirsts(fs, KeyOf);
    FirstPositionsExact(fs, KeyOf);
  }

  /** Running the deduplication on its own output changes nothing. */
  lemma DedupeFindingsIdempotent(fs: seq<Finding>)
    ensures DedupeFindings(DedupeFindings(fs)) == DedupeFindings(fs)
  {
    DedupeIdempotent(fs, KeyOf);
  }

  // ---------------------------------------------------------------------
  // SEVERITY_ORDER and filter_by_severity
  // ---------------------------------------------------------------------

  const SeverityOrder: map<string, nat> :=
    map["INFO" := 0, "LOW" := 1, "MEDIUM" := 2, "HIGH" := 3, "CRITICAL" := 4]

  /** The ranks grow strictly from INFO to CRITICAL. */
  lemma SeverityRanksIncrease()
    ensures SeverityOrder["INFO"] < SeverityOrder["LOW"] < SeverityOrder["MEDIUM"]
            < SeverityOrder["HIGH"] < SeverityOrder["CRITICAL"]
  {
  }

  /** `SEVERITY_ORDER.get(severity.upper(), 0)`: an unknown severity ranks
      lowest. */
  function Rank(severity: string): nat {
    var u := Upper(severity);
    if u in SeverityOrder then SeverityOrder[u] else 0
  }

  /** `SEVERITY_ORDER.get(minimum.upper(), 1)`: an unknown minimum means LOW. */
  function MinRank(minimum: string): nat {
    var u := Upper(minimum);
    if u in SeverityOrder then SeverityOrder[u] else 1
  }

  /** Finding `f` passes the minimum. */
  predicate Passes(f: Finding, minimum: string) {
    Rank(f.severity) >= MinRank(minimum)
  }

  /** `filter_by_severity(findings, minimum)`. */
  function FilterBySeverity(fs: seq<Finding>, minimum: string): (r: seq<Finding>)
    ensures |r| <= |fs|
    ensures forall k | 0 <= k < |r| :: Rank(r[k].severity) >= MinRank(minimum)
    decreases |fs|
  {
    if |fs| == 0 then []
    else
      var rest := FilterBySeverity(fs[1..], minimum);
      if Passes(fs[0], minimum) then [fs[0]] + rest else rest
  }

  /** Exactly the findings that pass are kept. */
  lemma {:induction false} FilterMembers(fs: seq<Finding>, minimum: string, f: Finding)
    ensures f in FilterBySeverity(fs, minimum) <==> f in fs && Passes(f, minimum)
    decreases |fs|
  {
    if |fs| > 0 {
      FilterMembers(fs[1..], minimum, f);
      assert fs == [fs[0]] + fs[1..];
    }
  }

  /** The filter goes finding by finding, so it keeps the input order. */
  lemma {:induction false} FilterConcat(a: seq<Finding>, b: seq<Finding>, minimum: string)
    ensures FilterBySeverity(a + b, minimum) == FilterBySeverity(a, minimum) + FilterBySeverity(b, minimum)
    decreases |a|
  {
    if |a| == 0 {
      assert a + b == b;
    } else {
      assert (a + b)[1..] == a[1..] + b;
      FilterConcat(a[1..], b, minimum);
    }
  }

  /** When every finding passes, none is dropped. */
  lemma {:induction false} FilterKeepsAll(fs: seq<Finding>, minimum: string)
    requires forall k | 0 <= k < |fs| :: Passes(fs[k], minimum)
    ensures FilterBySeverity(fs, minimum) == fs
    decreases |fs|
  {
    if |fs| > 0 {
      FilterKeepsAll(fs[1..], minimum);
    }
  }

  /** A finding of unknown severity survives only an INFO minimum. */
  lemma UnknownSeverityFiltered(f: Finding, minimum: string)
    requires Upper(f.severity) !in SeverityOrder
    ensures FilterBySeverity([f], minimum) == if MinRank(minimum) == 0 then [f] else []
  {
    assert [f][1..] == [];
  }

  /** An unknown minimum filters as LOW does. */
  lemma UnknownMinimumIsLow(fs: seq<Finding>, minimum: string, low: string)
    requires Upper(minimum) !in SeverityOrder
    requires Upper(low) == "LOW"
    ensures FilterBySeverity(fs, minimum) == FilterBySeverity(fs, low)
  {
    assert MinRank(minimum) == MinRank(low);
    FilterSameRank(fs, minimum, low);
  }

  /** Minimums of the same rank filter alike. */
  lemma {:induction false} FilterSameRank(fs: seq<Finding>, m1: string, m2: string)
    requires MinRank(m1) == MinRank(m2)
    ensures FilterBySeverity(fs, m1) == FilterBySeverity(fs, m2)
    decreases |fs|
  {
    if |fs| > 0 {
      FilterSameRank(fs[1..], m1, m2);
    }
  }

  /** The minimum is matched without regard to case. */
  lemma FilterIgnoresCase(fs: seq<Finding>, minimum: string)
    ensures FilterBySeverity(fs, Lower(minimum)) == FilterBySeverity(fs, minimum)
  {
    UpperOfLower(minimum);
    FilterSameRank(fs, Lower(minimum), minimum);
  }

  // ---------------------------------------------------------------------
  // group_by_rule
  // ---------------------------------------------------------------------

  /** A `defaultdict(list)` keyed by rule id: groups in the order their
      rule first appeared. */
  type Groups = seq<(string, seq<Finding>)>

  /** Where the group of rule `k` sits. */
  function GroupIndex(g: Groups, k: string): (r: Option<nat>)
    ensures r.Some? ==> r.value < |g| && g[r.value].0 == k
    ensures r.None? ==> forall i | 0 <= i < |g| :: g[i].0 != k
    decreases |g|
  {
    if |g| == 0 then None
    else if g[0].0 == k then Some(0)
    else match GroupIndex(g[1..], k)
      case None => None
      case Some(i) => Some(i + 1)
  }

  /** `grouped[f.rule_id].append(f)` */
  function AddToGroups(g: Groups, f: Finding): Groups {
    match GroupIndex(g, f.ruleId)
    case Some(i) => g[i := (f.ruleId, g[i].1 + [f])]
    case None => g + [(f.ruleId, [f])]
  }

  /** `group_by_rule(findings)` */
  function GroupByRule(fs: seq<Finding>): Groups
    decreases |fs|
  {
    if |fs| == 0 then [] else AddToGroups(GroupByRule(fs[..|fs| - 1]), fs[|fs| - 1])
  }

  /** The number of findings held by all groups. */
  function TotalSize(g: Groups): nat
    decreases |g|
  {
    if |g| == 0 then 0 else TotalSize(g[..|g| - 1]) + |g[|g| - 1].1|
  }

  /** `g` groups `fs`: one group per rule, holding exactly that rule's
      findings in input order, and every rule of `fs` has its group. */
  ghost predicate GroupsOf(g: Groups, fs: seq<Finding>) {
    && (forall a, b | 0 <= a < b < |g| :: g[a].0 != g[b].0)
    && (forall i | 0 <= i < |g| :: g[i].1 == Sorting.WithKey(fs, RuleOf, g[i].0))
    && (forall j | 0 <= j < |fs| :: exists i | 0 <= i < |g| :: g[i].0 == fs[j].ruleId)
  }

  lemma TotalSizeSnoc(g: Groups, p: (string, seq<Finding>))
    ensures TotalSize(g + [p]) == TotalSize(g) + |p.1|
  {
    assert (g + [p])[..|g|] == g;
  }

  lemma {:induction false} TotalSizeUpdate(g: Groups, i: nat, p: (string, seq<Finding>))
    requires i < |g|
    ensures TotalSize(g[i := p]) == TotalSize(g) - |g[i].1| + |p.1|
    decreases |g|
  {
    var n := |g| - 1;
    if i < n {
      assert g[i := p][..n] == g[..n][i := p];
      TotalSizeUpdate(g[..n], i, p);
    } else {
      assert g[i := p][..n] == g[..n];
    }
  }

  lemma WithRuleSnoc(fs: seq<Finding>, f: Finding, k: string)
    ensures Sorting.WithKey(fs + [f], RuleOf, k)
         == Sorting.WithKey(fs, RuleOf, k) + (if f.ruleId == k then [f] else [])
  {
    Sorting.WithKeyConcat(fs, [f], RuleOf, k);
    assert [f][1..] == [];
  }

  /** A finding of a rule seen before joins that rule's group. */
  lemma AddExistingStep(g: Groups, fs: seq<Finding>, f: Finding, i: nat)
    requires GroupsOf(g, fs)
    requires i < |g| && g[i].0 == f.ruleId
    ensures GroupsOf(g[i := (f.ruleId, g[i].1 + [f])], fs + [f])
  {
    var h := g[i := (f.ruleId, g[i].1 + [f])];
    var fs' := fs + [f];
    forall a, b | 0 <= a < b < |h| ensures h[a].0 != h[b].0 {
      assert h[a].0 == g[a].0 && h[b].0 == g[b].0;
    }
    forall m | 0 <= m < |h| ensures h[m].1 == Sorting.WithKey(fs', RuleOf, h[m].0) {
      WithRuleSnoc(fs, f, g[m].0);
    }
    forall j | 0 <= j < |fs'| ensures exists m | 0 <= m < |h| :: h[m].0 == fs'[j].ruleId {
      if j < |fs| {
        var m :| 0 <= m < |g| && g[m].0 == fs[j].ruleId;
        assert h[m].0 == fs'[j].ruleId;
      } else {
        assert h[i].0 == fs'[j].ruleId;
      }
    }
    assert forall j | 0 <= j < |fs'| :: exists m | 0 <= m < |h| :: h[m].0 == fs'[j].ruleId;
    assert forall a, b | 0 <= a < b < |h| :: h[a].0 != h[b].0;
    assert forall m | 0 <= m < |h| :: h[m].1 == Sorting.WithKey(fs', RuleOf, h[m].0);
    assert GroupsOf(h, fs');
  }

  /** A finding of a new rule opens a group at the end. */
  lemma AddNewStep(g: Groups, fs: seq<Finding>, f: Finding)
    requires GroupsOf(g, fs)
    requires forall m | 0 <= m < |g| :: g[m].0 != f.ruleId
    ensures GroupsOf(g + [(f.ruleId, [f])], fs + [f])
  {
    var h := g + [(f.ruleId, [f])];
    var fs' := fs + [f];
    forall j | 0 <= j < |fs| ensures fs[j].ruleId != f.ruleId {
      var m :| 0 <= m < |g| && g[m].0 == fs[j].ruleId;
    }
    WithKeyEmpty(fs, f.ruleId);
    forall m | 0 <= m < |h| ensures h[m].1 == Sorting.WithKey(fs', RuleOf, h[m].0) {
      WithRuleSnoc(fs, f, h[m].0);
    }
    forall j | 0 <= j < |fs'| ensures exists m | 0 <= m < |h| :: h[m].0 == fs'[j].ruleId {
      if j < |fs| {
        var m :| 0 <= m < |g| && g[m].0 == fs[j].ruleId;
        assert h[m].0 == fs'[j].ruleId;
      } else {
        assert h[|g|].0 == fs'[j].ruleId;
      }
    }
    forall a, b | 0 <= a < b < |h| ensures h[a].0 != h[b].0 {
      if b < |g| {
        assert h[a] == g[a] && h[b] == g[b];
      } else {
        assert h[a] == g[a];
      }
    }
    assert GroupsOf(h, fs');
  }

  /** One more finding goes into exactly one group. */
  lemma AddToGroupsStep(g: Groups, fs: seq<Finding>, f: Finding)
    requires GroupsOf(g, fs)
    ensures GroupsOf(AddToGroups(g, f), fs + [f])
    ensures TotalSize(AddToGroups(g, f)) == TotalSize(g) + 1
  {
    match GroupIndex(g, f.ruleId)
    case Some(i) =>
      AddExistingStep(g, fs, f, i);
      TotalSizeUpdate(g, i, (f.ruleId, g[i].1 + [f]));
    case None =>
      AddNewStep(g, fs, f);
      TotalSizeSnoc(g, (f.ruleId, [f]));
  }

  /** A rule no finding carries has an empty group. */
  lemma {:induction false} WithKeyEmpty(fs: seq<Finding>, k: string)
    requires forall j | 0 <= j < |fs| :: fs[j].ruleId != k
    ensures Sorting.WithKey(fs, RuleOf, k) == []
    decreases |fs|
  {
    if |fs| > 0 {
      assert forall j | 0 <= j < |fs| - 1 :: fs[1..][j] == fs[j + 1];
      WithKeyEmpty(fs[1..], k);
    }
  }

  /** Each finding lands in exactly its rule's group, in input order, and
      the group sizes add up to the number of findings. */
  lemma {:induction false} GroupByRuleSpec(fs: seq<Finding>)
    ensures GroupsOf(GroupByRule(fs), fs)
    ensures TotalSize(GroupByRule(fs)) == |fs|
    decreases |fs|
  {
    if |fs| > 0 {
      var n := |fs| - 1;
      GroupByRuleSpec(fs[..n]);
      AddToGroupsStep(GroupByRule(fs[..n]), fs[..n], fs[n]);
      InitLast(fs);
    }
  }

  /** Where rule `k` first appears among the findings; `|fs|` when it
      never does. */
  function FirstWith(fs: seq<Finding>, k: string): (n: nat)
    ensures n <= |fs|
    ensures n < |fs| ==> fs[n].ruleId == k
    ensures forall j | 0 <= j < n :: fs[j].ruleId != k
    decreases |fs|
  {
    if |fs| == 0 then 0
    else if fs[0].ruleId == k then 0
    else 1 + FirstWith(fs[1..], k)
  }

  lemma FirstWithSeen(fs: seq<Finding>, f: Finding, k: string)
    requires FirstWith(fs, k) < |fs|
    ensures FirstWith(fs + [f], k) == FirstWith(fs, k)
  {
    var n := FirstWith(fs, k);
    var m := FirstWith(fs + [f], k);
    assert (fs + [f])[n] == fs[n];
  }

  lemma FirstWithNew(fs: seq<Finding>, f: Finding)
    requires forall j | 0 <= j < |fs| :: fs[j].ruleId != f.ruleId
    ensures FirstWith(fs + [f], f.ruleId) == |fs|
  {
    var m := FirstWith(fs + [f], f.ruleId);
    assert (fs + [f])[|fs|] == f;
  }

  /** Every group's rule occurs in the findings, and the groups are in the
      order their rules first occur. */
  ghost predicate InFirstOrder(g: Groups, fs: seq<Finding>) {
    && (forall a | 0 <= a < |g| :: FirstWith(fs, g[a].0) < |fs|)
    && (forall a, b | 0 <= a < b < |g| :: FirstWith(fs, g[a].0) < FirstWith(fs, g[b].0))
  }

  /** A finding of a seen rule moves no rule's first occurrence. */
  lemma OrderExisting(g: Groups, fs: seq<Finding>, f: Finding, i: nat)
    requires InFirstOrder(g, fs) && i < |g| && g[i].0 == f.ruleId
    ensures InFirstOrder(g[i := (f.ruleId, g[i].1 + [f])], fs + [f])
  {
    var h := g[i := (f.ruleId, g[i].1 + [f])];
    forall a | 0 <= a < |h| ensures FirstWith(fs + [f], h[a].0) == FirstWith(fs, g[a].0) {
      assert h[a].0 == g[a].0;
      FirstWithSeen(fs, f, g[a].0);
    }
  }

  /** A new rule first occurs after every rule seen before it. */
  lemma OrderNew(g: Groups, fs: seq<Finding>, f: Finding)
    requires InFirstOrder(g, fs)
    requires forall j | 0 <= j < |fs| :: fs[j].ruleId != f.ruleId
    ensures InFirstOrder(g + [(f.ruleId, [f])], fs + [f])
  {
    var h := g + [(f.ruleId, [f])];
    FirstWithNew(fs, f);
    forall a | 0 <= a < |g| ensures FirstWith(fs + [f], h[a].0) == FirstWith(fs, g[a].0) {
      assert h[a] == g[a];
      FirstWithSeen(fs, f, g[a].0);
    }
  }

  lemma AddToGroupsOrder(g: Groups, fs: seq<Finding>, f: Finding)
    requires GroupsOf(g, fs) && InFirstOrder(g, fs)
    ensures InFirstOrder(AddToGroups(g, f), fs + [f])
  {
    match GroupIndex(g, f.ruleId)
    case Some(i) =>
      OrderExisting(g, fs, f, i);
    case None =>
      forall j | 0 <= j < |fs| ensures fs[j].ruleId != f.ruleId {
        var m :| 0 <= m < |g| && g[m].0 == fs[j].ruleId;
      }
      OrderNew(g, fs, f);
  }

  lemma InitLast<T>(s: seq<T>)
    requires |s| > 0
    ensures s[..|s| - 1] + [s[|s| - 1]] == s
  {
  }

  /** `defaultdict` keeps its keys in insertion order: the groups come in
      the order their rules first appear among the findings. */
  lemma {:induction false} GroupByRuleOrder(fs: seq<Finding>)
    ensures InFirstOrder(GroupByRule(fs), fs)
    decreases |fs|
  {
    if |fs| > 0 {
      var n := |fs| - 1;
      GroupByRuleOrder(fs[..n]);
      GroupByRuleSpec(fs[..n]);
      AddToGroupsOrder(GroupByRule(fs[..n]), fs[..n], fs[n]);
      InitLast(fs);
    }
  }
}

=== FILE: crypto.dfy ===
/** The cryptographic primitives, left uninterpreted.

    `Hash` stands for "SHA-256 of the UTF-8 bytes of a text, as lower-case
    hex" (UTF-8 is injective, so encoding and hashing are folded into one
    function). A property that needs the hash to tell two texts apart says
    so with `NoCollision` for exactly those two texts.

    `SigScheme` stands for Ed25519: a public key derived from a private key,
    signing of a text's UTF-8 bytes, and verification. `Sound` is the one
    fact assumed of it: what is signed with a private key verifies under the
    derived public key. */
module Crypto {

  /** A byte. */
  newtype Byte = x: int | 0 <= x < 256

  type Bytes = seq<Byte>

  type Hash = string -> string

  /** `H` does not map the two texts `a` and `b` to the same digest unless
      they are the same text. */
  predicate NoCollision(H: Hash, a: string, b: string) {
    H(a) == H(b) ==> a == b
  }

  datatype SigScheme = SigScheme(
    derive: Bytes -> Bytes,
    sign: (Bytes, string) -> Bytes,
    verify: (Bytes, string, Bytes) -> bool)

  ghost predicate Sound(s: SigScheme) {
    forall sk: Bytes, m: string :: s.verify(s.derive(sk), m, s.sign(sk, m))
  }
}

=== FILE: dedupe.dfy ===
/** Keep-the-first deduplication, the loop shared by `apply_overrides`
    (scope entries keyed by kind and lower-cased value), `dedupe_findings`
    and `deduplicate_findings` (findings keyed by tool, rule, file and
    line): walk the items in order, remember the keys seen, and keep an item
    only if its key is new. */
module Dedupe {

  /** The keys that occur in `xs`. */
  function Keys<T, K>(xs: seq<T>, key: T -> K): set<K> {
    set i | 0 <= i < |xs| :: key(xs[i])
  }

  /** `xs[i]` is the first item of its key. */
  predicate FirstOfKey<T, K(==)>(xs: seq<T>, key: T -> K, i: nat)
    requires i < |xs|
  {
    forall j | 0 <= j < i :: key(xs[j]) != key(xs[i])
  }

  /** The loop, one item at a time: the result for a prefix, extended by
      the next item when its key is not among those kept so far. */
  function DedupeBy<T, K(==)>(xs: seq<T>, key: T -> K): (r: seq<T>)
    ensures |r| <= |xs|
    decreases |xs|
  {
    if |xs| == 0 then []
    else
      var out := DedupeBy(xs[..|xs| - 1], key);
      if key(xs[|xs| - 1]) in Keys(out, key) then out else out + [xs[|xs| - 1]]
  }

  /** The positions of `xs` that are first of their key, in increasing
      order: a reference description of what is kept. */
  function FirstPositions<T, K(==)>(xs: seq<T>, key: T -> K): (idx: seq<nat>)
    ensures forall k | 0 <= k < |idx| :: idx[k] < |xs|
    decreases |xs|
  {
    if |xs| == 0 then []
    else
      var p := FirstPositions(xs[..|xs| - 1], key);
      if FirstOfKey(xs, key, |xs| - 1) then p + [|xs| - 1] else p
  }

  /** Whether a position is first of its key does not depend on what
      follows it. */
  lemma FirstOfKeyPrefix<T, K>(xs: seq<T>, key: T -> K, n: nat, i: nat)
    requires i < n <= |xs|
    ensures FirstOfKey(xs[..n], key, i) <==> FirstOfKey(xs, key, i)
  {
    var pre := xs[..n];
    assert forall j | 0 <= j <= i :: pre[j] == xs[j];
  }

  /** The keys of a prefix one item longer. */
  lemma KeysSnoc<T, K>(xs: seq<T>, x: T, key: T -> K)
    ensures Keys(xs + [x], key) == Keys(xs, key) + {key(x)}
  {
    var ys := xs + [x];
    assert forall i | 0 <= i < |xs| :: ys[i] == xs[i];
    assert ys[|xs|] == x;
  }

  /** A key is absent from a prefix exactly when the next item is the first
      of it. */
  lemma FirstOfKeyIffFresh<T, K>(xs: seq<T>, key: T -> K)
    requires |xs| > 0
    ensures FirstOfKey(xs, key, |xs| - 1) <==> key(xs[|xs| - 1]) !in Keys(xs[..|xs| - 1], key)
  {
    var pre := xs[..|xs| - 1];
    assert forall j | 0 <= j < |pre| :: pre[j] == xs[j];
  }

  /** Nothing is lost: the kept items carry exactly the keys of the input,
      so every input key is represented. */
  lemma {:induction false} DedupeKeys<T, K>(xs: seq<T>, key: T -> K)
    ensures Keys(DedupeBy(xs, key), key) == Keys(xs, key)
    decreases |xs|
  {
    if |xs| > 0 {
      var pre, x := xs[..|xs| - 1], xs[|xs| - 1];
      DedupeKeys(pre, key);
      assert xs == pre + [x];
      KeysSnoc(pre, x, key);
      var out := DedupeBy(pre, key);
      if key(x) !in Keys(out, key) {
        KeysSnoc(out, x, key);
      }
    }
  }

  /** The positions found by `FirstPositions` are exactly the first ones,
      in strictly increasing order. */
  lemma {:induction false} FirstPositionsExact<T, K>(xs: seq<T>, key: T -> K)
    ensures var idx := FirstPositions(xs, key);
      && (forall a, b | 0 <= a < b < |idx| :: idx[a] < idx[b])
      && (forall i | 0 <= i < |xs| :: i in idx <==> FirstOfKey(xs, key, i))
    decreases |xs|
  {
    if |xs| > 0 {
      var n := |xs| - 1;
      var pre := xs[..n];
      FirstPositionsExact(pre, key);
      forall i | 0 <= i < n ensures FirstOfKey(pre, key, i) <==> FirstOfKey(xs, key, i) {
        FirstOfKeyPrefix(xs, key, n, i);
      }
    }
  }

  /** The loop keeps precisely the items at the first positions, in order. */
  lemma {:induction false} DedupeIsFirsts<T, K>(xs: seq<T>, key: T -> K)
    ensures var r, idx := DedupeBy(xs, key), FirstPositions(xs, key);
      && |r| == |idx|
      && forall k | 0 <= k < |r| :: r[k] == xs[idx[k]]
    decreases |xs|
  {
    if |xs| > 0 {
      var n := |xs| - 1;
      var pre := xs[..n];
      DedupeIsFirsts(pre, key);
      DedupeKeys(pre, key);
      FirstOfKeyIffFresh(xs, key);
      var idx := FirstPositions(pre, key);
      assert forall k | 0 <= k < |idx| :: pre[idx[k]] == xs[idx[k]];
    }
  }

  /** The contract of the loop, as a whole: the result is the input with
      every item that repeats an earlier key dropped, order preserved. No
      two kept items share a key, every input key is kept, and each kept
      item is the first of its key. */
  lemma DedupeSpec<T, K>(xs: seq<T>, key: T -> K)
    ensures var r := DedupeBy(xs, key);
      && (forall a, b | 0 <= a < b < |r| :: key(r[a]) != key(r[b]))
      && Keys(r, key) == Keys(xs, key)
      && (forall i | 0 <= i < |xs| && FirstOfKey(xs, key, i) :: xs[i] in r)
      && (forall x | x in r :: exists i | 0 <= i < |xs| :: xs[i] == x && FirstOfKey(xs, key, i))
  {
    var r, idx := DedupeBy(xs, key), FirstPositions(xs, key);
    DedupeIsFirsts(xs, key);
    FirstPositionsExact(xs, key);
    DedupeKeys(xs, key);
    forall a, b | 0 <= a < b < |r| ensures key(r[a]) != key(r[b]) {
      assert FirstOfKey(xs, key, idx[b]);
    }
    forall i | 0 <= i < |xs| && FirstOfKey(xs, key, i) ensures xs[i] in r {
      var k :| 0 <= k < |idx| && idx[k] == i;
      assert r[k] == xs[i];
    }
    forall x | x in r ensures exists i | 0 <= i < |xs| :: xs[i] == x && FirstOfKey(xs, key, i) {
      var k :| 0 <= k < |r| && r[k] == x;
      assert idx[k] in idx;
    }
  }

  /** Deduplicating twice changes nothing. */
  lemma DedupeIdempotent<T, K>(xs: seq<T>, key: T -> K)
    ensures DedupeBy(DedupeBy(xs, key), key) == DedupeBy(xs, key)
  {
    var r := DedupeBy(xs, key);
    DedupeSpec(xs, key);
    DistinctUnchanged(r, key);
  }

  /** A sequence whose keys are already distinct is left as it is. */
  lemma {:induction false} DistinctUnchanged<T, K>(xs: seq<T>, key: T -> K)
    requires forall a, b | 0 <= a < b < |xs| :: key(xs[a]) != key(xs[b])
    ensures DedupeBy(xs, key) == xs
    decreases |xs|
  {
    if |xs| > 0 {
      var n := |xs| - 1;
      var pre := xs[..n];
      assert forall a, b | 0 <= a < b < |pre| :: key(pre[a]) != key(pre[b]) by {
        assert forall a | 0 <= a < |pre| :: pre[a] == xs[a];
      }
      DistinctUnchanged(pre, key);
      FirstOfKeyIffFresh(xs, key);
      assert FirstOfKey(xs, key, n);
      DedupeKeys(pre, key);
      assert pre + [xs[n]] == xs;
    }
  }

  /** The loop as the code writes it: a set of seen keys and an output
      list. */
  method DedupeLoop<T, K(==)>(xs: seq<T>, key: T -> K) returns (out: seq<T>)
    ensures out == DedupeBy(xs, key)
  {
    var seen: set<K> := {};
    out := [];
    var i := 0;
    while i < |xs|
      invariant 0 <= i <= |xs|
      invariant out == DedupeBy(xs[..i], key)
      invariant seen == Keys(out, key)
    {
      var x := xs[i];
      assert xs[..i + 1][..i] == xs[..i];
      if key(x) !in seen {
        KeysSnoc(out, x, key);
        seen := seen + {key(x)};
        out := out + [x];
      }
      i := i + 1;
    }
    assert xs[..|xs|] == xs;
  }
}

=== FILE: disclosure_package.dfy ===
/** `validation/disclosure_package.py`: the gate every disclosure package
    passes before it is trusted. A package is finalised when it carries a
    `package_id` and a `_canonical_sha256`, the SHA-256 of the compact,
    key-sorted JSON of every other field. The check runs in a fixed order:
    the package is a dict, it is finalised, its schema file exists, the
    package minus the hash passes the schema, and the hash matches.

    The JSON-Schema validator is a parameter: `None` when the schema file is
    missing, otherwise a function giving the first validation error or
    `None` for a valid package. */
module DisclosurePackage {
  import opened Wrappers
  import opened Json
  import opened Crypto
  import Sorting

  const HashKey: string := "_canonical_sha256"

  /** A JSON-Schema check: the validation error, or `None`. */
  type SchemaCheck = seq<Member> -> Option<string>

  /** Why a package is refused; every case is raised as an exception. */
  datatype Rejection =
    | NotDict
    | MissingPackageId
    | MissingCanonicalHash
    | SchemaMissing
    | SchemaInvalid(error: string)
    | HashMismatch

  /** The exception text of each refusal. */
  function RejectionText(r: Rejection): string {
    match r
    case NotDict => "Disclosure package must be a dict"
    case MissingPackageId => "Missing package_id (not finalized)"
    case MissingCanonicalHash => "Missing _canonical_sha256 (not finalized)"
    case SchemaMissing => "Disclosure schema missing in Core"
    case SchemaInvalid(e) => e
    case HashMismatch => "Canonical hash mismatch (package was modified or non-canonical)"
  }

  /** `_canonical_sha256(payload)`. */
  function CanonicalSha256(H: Hash, payload: seq<Member>): string {
    H(Encode(true, Obj(payload)))
  }

  /** The package as the schema sees it: every field but the hash. */
  function SchemaView(pkg: seq<Member>): (v: seq<Member>)
    ensures !HasKey(v, HashKey)
    ensures forall m :: m in v <==> m in pkg && m.key != HashKey
  {
    Without(pkg, HashKey)
  }

  /** `validate_disclosure_package(pkg)`: `None` when the package is
      accepted, else the refusal it raises. */
  function Validate(H: Hash, schema: Option<SchemaCheck>, pkg: Json): (r: Option<Rejection>)
    ensures !pkg.Obj? ==> r == Some(NotDict)
    ensures pkg.Obj? && !HasKey(pkg.members, "package_id") ==> r == Some(MissingPackageId)
    ensures pkg.Obj? && HasKey(pkg.members, "package_id") && !HasKey(pkg.members, HashKey) ==>
      r == Some(MissingCanonicalHash)
    ensures pkg.Obj? && HasKey(pkg.members, "package_id") && HasKey(pkg.members, HashKey) ==>
      match schema
      case None => r == Some(SchemaMissing)
      case Some(check) =>
        check(SchemaView(pkg.members)).Some? ==> r == Some(SchemaInvalid(check(SchemaView(pkg.members)).value))
  {
    if !pkg.Obj? then Some(NotDict)
    else
      var ms := pkg.members;
      if !HasKey(ms, "package_id") then Some(MissingPackageId)
      else if !HasKey(ms, HashKey) then Some(MissingCanonicalHash)
      else match schema
        case None => Some(SchemaMissing)
        case Some(check) =>
          var view := SchemaView(ms);
          match check(view)
          case Some(e) => Some(SchemaInvalid(e))
          case None =>
            if Get(ms, HashKey, Null) != Str(CanonicalSha256(H, view)) then Some(HashMismatch)
            else None
  }

  /** A package is accepted exactly when it is a finalised dict, the schema
      accepts it without its hash, and the stored hash is the canonical hash
      of the rest. */
  lemma ValidateAccepts(H: Hash, schema: Option<SchemaCheck>, pkg: Json)
    ensures Validate(H, schema, pkg).None? <==>
      && pkg.Obj? && HasKey(pkg.members, "package_id")
      && schema.Some? && schema.value(SchemaView(pkg.members)).None?
      && Get(pkg.members, HashKey, Null) == Str(CanonicalSha256(H, SchemaView(pkg.members)))
  {
    if pkg.Obj? && !HasKey(pkg.members, HashKey) {
      assert Get(pkg.members, HashKey, Null) == Null;
    }
  }

  /** The checks come in order: a schema error is reported even when the
      hash is also wrong, and the hash is compared only on a valid package. */
  lemma SchemaBeforeHash(H: Hash, check: SchemaCheck, pkg: seq<Member>)
    requires HasKey(pkg, "package_id") && HasKey(pkg, HashKey)
    ensures check(SchemaView(pkg)).Some? ==>
      Validate(H, Some(check), Obj(pkg)) == Some(SchemaInvalid(check(SchemaView(pkg)).value))
    ensures check(SchemaView(pkg)).None? ==>
      (Validate(H, Some(check), Obj(pkg)) == Some(HashMismatch)
       <==> Get(pkg, HashKey, Null) != Str(CanonicalSha256(H, SchemaView(pkg))))
  {
  }

  /** A package without `package_id` is refused for that, whether or not it
      has a hash. */
  lemma PackageIdFirst(H: Hash, schema: Option<SchemaCheck>, pkg: seq<Member>)
    requires !HasKey(pkg, "package_id")
    ensures Validate(H, schema, Obj(pkg)) == Some(MissingPackageId)
    ensures Validate(H, schema, Obj(pkg + [Member(HashKey, Str(CanonicalSha256(H, pkg)))])) == Some(MissingPackageId)
  {
    var fin := pkg + [Member(HashKey, Str(CanonicalSha256(H, pkg)))];
    forall i | 0 <= i < |fin| ensures fin[i].key != "package_id" {
      if i < |pkg| {
        assert fin[i] == pkg[i];
      }
    }
  }

  // ---------------------------------------------------------------------
  // Finalising and tampering
  // ---------------------------------------------------------------------

  /** Finalising a package, as the producing side does: its canonical hash is
      added under `_canonical_sha256`. */
  function Finalize(H: Hash, body: seq<Member>): seq<Member> {
    body + [Member(HashKey, Str(CanonicalSha256(H, body)))]
  }

  /** A finalised package whose body the schema accepts is accepted. */
  lemma FinalizedAccepted(H: Hash, check: SchemaCheck, body: seq<Member>)
    requires HasKey(body, "package_id") && !HasKey(body, HashKey)
    requires check(body).None?
    ensures Validate(H, Some(check), Obj(Finalize(H, body))).None?
  {
    var pkg := Finalize(H, body);
    WithoutLast(body, HashKey, Str(CanonicalSha256(H, body)));
    assert pkg[|body|] == Member(HashKey, Str(CanonicalSha256(H, body)));
    assert HasKey(pkg, HashKey);
    var i :| 0 <= i < |body| && body[i].key == "package_id";
    assert pkg[i] == body[i];
    assert Get(pkg, HashKey, Null) == Str(CanonicalSha256(H, body)) by {
      GetAppendedLast(body, HashKey, Str(CanonicalSha256(H, body)));
    }
  }

  /** A key no earlier member has is read back from the appended member. */
  lemma {:induction false} GetAppendedLast(p: seq<Member>, k: string, v: Json)
    requires !HasKey(p, k)
    ensures Get(p + [Member(k, v)], k, Null) == v
    decreases |p|
  {
    if |p| > 0 {
      assert (p + [Member(k, v)])[1..] == p[1..] + [Member(k, v)];
      forall i | 0 <= i < |p[1..]| ensures p[1..][i].key != k {
        assert p[1..][i] == p[i + 1];
      }
      GetAppendedLast(p[1..], k, v);
    }
  }

  /** Setting a field other than `h` commutes with dropping `h`. */
  lemma {:induction false} WithoutPut(ms: seq<Member>, h: string, k: string, w: Json)
    requires k != h
    ensures Without(Put(ms, k, w), h) == Put(Without(ms, h), k, w)
    decreases |ms|
  {
    if |ms| > 0 {
      WithoutPut(ms[1..], h, k, w);
    }
  }

  /** Setting a field other than `h` leaves the value under `h` alone. */
  lemma {:induction false} GetPutOther(ms: seq<Member>, h: string, k: string, w: Json)
    requires k != h
    ensures Get(Put(ms, k, w), h, Null) == Get(ms, h, Null)
    decreases |ms|
  {
    if |ms| > 0 {
      GetPutOther(ms[1..], h, k, w);
    }
  }

  /** Dropping a key keeps the keys distinct. */
  lemma {:induction false} WithoutUnique(ms: seq<Member>, h: string)
    requires UniqueKeys(ms)
    ensures UniqueKeys(Without(ms, h))
    decreases |ms|
  {
    if |ms| > 0 {
      assert UniqueKeys(ms[1..]) by {
        forall a, b | 0 <= a < b < |ms[1..]| ensures KeyOf(ms[1..][a]) != KeyOf(ms[1..][b]) {
          assert KeyOf(ms[a + 1]) != KeyOf(ms[b + 1]);
        }
      }
      WithoutUnique(ms[1..], h);
      if ms[0].key != h {
        var r := Without(ms[1..], h);
        forall i | 0 <= i < |r| ensures KeyOf(ms[0]) != KeyOf(r[i]) {
          assert r[i] in ms[1..];
          var j :| 0 <= j < |ms[1..]| && ms[1..][j] == r[i];
          assert KeyOf(ms[0]) != KeyOf(ms[j + 1]);
        }
        assert Without(ms, h) == [ms[0]] + r;
      }
    }
  }

  /** `pkg[k] = w` on a field the package has is, on the schema view, a
      replacement of one member's value in place. */
  lemma TamperedView(pkg: seq<Member>, k: string, w: Json) returns (i: nat)
    requires UniqueKeys(pkg) && HasKey(pkg, k) && k != HashKey
    ensures var view := SchemaView(pkg);
      && UniqueKeys(view) && i < |view| && view[i].key == k
      && SchemaView(Put(pkg, k, w)) == view[i := Member(view[i].key, w)]
      && view[i].value == Get(pkg, k, Null)
  {
    var view := SchemaView(pkg);
    WithoutUnique(pkg, HashKey);
    WithoutPut(pkg, HashKey, k, w);
    var j :| 0 <= j < |pkg| && pkg[j].key == k;
    assert pkg[j] in view;
    i :| 0 <= i < |view| && view[i] == pkg[j];
    PutAt(view, i, w);
    GetAt(pkg, j, Null);
  }

  /** `d[k] = w` where `k` is the key at position `i`. */
  lemma PutAt(ms: seq<Member>, i: nat, w: Json)
    requires UniqueKeys(ms) && i < |ms|
    ensures Put(ms, ms[i].key, w) == ms[i := Member(ms[i].key, w)]
  {
    var k := ms[i].key;
    assert HasKey(ms, k);
    PutInPlace(ms, k, w);
    forall x | 0 <= x < |ms| ensures (ms[x].key == k) == (x == i) {
      if x != i {
        assert KeyOf(ms[x]) != KeyOf(ms[i]);
      }
    }
  }

  /** Changing any field but the hash of an accepted package to a value with
      a different JSON text gets it refused: by the schema, or else for a
      hash mismatch (unless SHA-256 collides on the two canonical texts). */
  lemma TamperDetected(H: Hash, check: SchemaCheck, pkg: seq<Member>, k: string, w: Json)
    requires UniqueKeys(pkg)
    requires Validate(H, Some(check), Obj(pkg)).None?
    requires HasKey(pkg, k) && k != HashKey
    requires Encode(true, Get(pkg, k, Null)) != Encode(true, w)
    requires NoCollision(H, Encode(true, Obj(SchemaView(Put(pkg, k, w)))), Encode(true, Obj(SchemaView(pkg))))
    ensures Validate(H, Some(check), Obj(Put(pkg, k, w))).Some?
    ensures check(SchemaView(Put(pkg, k, w))).None? ==>
      Validate(H, Some(check), Obj(Put(pkg, k, w))) == Some(HashMismatch)
  {
    var i := TamperedView(pkg, k, w);
    var view := SchemaView(pkg);
    assert view[i := Member(view[i].key, view[i].value)] == view;
    EncodeMemberChange(true, view, i, view[i].value, w);
    GetPutOther(pkg, HashKey, k, w);
    PutKeepsKeys(pkg, k, w, "package_id");
    PutKeepsKeys(pkg, k, w, HashKey);
  }

  /** Setting a field keeps every key present. */
  lemma {:induction false} PutKeepsKeys(ms: seq<Member>, k: string, w: Json, x: string)
    requires HasKey(ms, x)
    ensures HasKey(Put(ms, k, w), x)
    decreases |ms|
  {
    if ms[0].key == x {
      assert Put(ms, k, w)[0].key == x;
    } else {
      var i :| 0 <= i < |ms| && ms[i].key == x;
      if ms[0].key == k {
        assert Put(ms, k, w)[i] == ms[i];
      } else {
        assert ms[1..][i - 1].key == x;
        PutKeepsKeys(ms[1..], k, w, x);
        var j :| 0 <= j < |Put(ms[1..], k, w)| && Put(ms[1..], k, w)[j].key == x;
        assert Put(ms, k, w)[j + 1].key == x;
      }
    }
  }
}

=== FILE: findings.dfy ===
/** `findings.py`: one normalised finding of a passive scan. A missing
    title, description, file or line is `None`; the raw tool output the
    finding came from is kept as evidence. */
module Findings {
  import opened Wrappers
  import opened Json

  datatype Finding = Finding(
    tool: string,
    ruleId: string,
    severity: string,
    title: Option<string>,
    description: Option<string>,
    filePath: Option<string>,
    line: Option<int>,
    evidence: Json)

  /** The identity both deduplicators use: `(tool, rule_id, file_path, line)`. */
  type FindingKey = (string, string, Option<string>, Option<int>)

  function KeyOf(f: Finding): FindingKey {
    (f.tool, f.ruleId, f.filePath, f.line)
  }

  function RuleOf(f: Finding): string {
    f.ruleId
  }
}

=== FILE: gui.dfy ===
/** `gui_app.py`: the two pure helpers behind the scope-confirmation
    window. `fingerprint_policy` hashes the policy the operator approves;
    `parse_scope_source` turns a pasted scope (or the contents of the scope
    files) into allow and deny lists. The window itself is not modelled. */
module Gui {
  import opened Wrappers
  import opened Text
  import opened Json
  import opened Crypto
  import opened ParseCommon
  import HashUtils

  // ---------------------------------------------------------------------
  // fingerprint_policy
  // ---------------------------------------------------------------------

  /** The text `fingerprint_policy` hashes: sorted keys, compact separators,
      and the default `ensure_ascii=True`. */
  function PolicyText(policy: Json): string {
    Encode(true, policy)
  }

  /** `fingerprint_policy(policy)` */
  function FingerprintPolicy(H: Hash, policy: Json): string {
    H(PolicyText(policy))
  }

  /** The fingerprint is stable: two equal policies, their dicts filled in
      any order at any depth, get the same fingerprint. */
  lemma FingerprintDeterministic(H: Hash, a: Json, b: Json)
    requires Equiv(a, b)
    ensures FingerprintPolicy(H, a) == FingerprintPolicy(H, b)
  {
    EquivEncode(true, a, b);
  }

  /** The hashed text is plain ASCII, whatever the policy holds. */
  lemma PolicyTextAscii(policy: Json)
    ensures AllChars(PolicyText(policy), IsAscii)
  {
    EncodeAsciiOnly(policy);
  }

  /** The hashed text is not the canonical JSON of the reporting layer as
      soon as a key or string holds a character beyond ASCII: the canonical
      form writes it raw, this one escapes it. */
  lemma PolicyTextNotCanonical(policy: Json, c: char)
    requires CharIn(policy, c) && c as int >= 0x80
    ensures PolicyText(policy) != HashUtils.CanonicalJson(policy)
  {
    EncodeAsciiOnly(policy);
    EncodeKeepsNonAscii(policy, c);
    var q := HashUtils.CanonicalJson(policy);
    var i :| 0 <= i < |q| && q[i] == c;
    assert !IsAscii(q[i]);
  }

  /** So the two fingerprints of such a policy differ, unless the hash
      collides on exactly these two texts. */
  lemma FingerprintNotCanonical(H: Hash, policy: Json, c: char)
    requires CharIn(policy, c) && c as int >= 0x80
    requires NoCollision(H, PolicyText(policy), HashUtils.CanonicalJson(policy))
    ensures FingerprintPolicy(H, policy) != HashUtils.Sha256Canonical(H, policy)
  {
    PolicyTextNotCanonical(policy, c);
  }

  // ---------------------------------------------------------------------
  // parse_scope_source
  // ---------------------------------------------------------------------

  /** A stripped line is an entry unless it is blank or a `#` comment. */
  predicate IsScopeLine(x: string) {
    x != "" && !StartsWith(x, "#")
  }

  /** The comprehension applied to one text: stripped lines that are
      entries, in order. */
  function ScopeLines(text: string): seq<string> {
    SelectLines(SplitLines(text), IsScopeLine)
  }

  /** An entry is listed exactly when it is the stripped form of a line of
      the text, is not blank and is not a comment. */
  lemma ScopeLinesMembers(text: string, x: string)
    ensures x in ScopeLines(text) <==>
      && x != "" && !StartsWith(x, "#")
      && exists j | 0 <= j < |SplitLines(text)| :: x == Strip(SplitLines(text)[j])
  {
    SelectLinesMembers(SplitLines(text), IsScopeLine, x);
  }

  /** Where the scope comes from, after the file system has been read: a
      directory (with the contents of `allowlist.txt` and `blocklist.txt`
      when they exist), a single file, or text pasted into the window. */
  datatype ScopeSource =
    | Dir(allow: Option<string>, deny: Option<string>)
    | File(content: string)
    | Raw(text: string)

  /** The allow and deny lists `parse_scope_source` returns. */
  datatype ScopeLists = ScopeLists(allow: seq<string>, deny: seq<string>)

  function ListFrom(content: Option<string>): seq<string> {
    match content
    case Some(t) => ScopeLines(t)
    case None => []
  }

  /** `parse_scope_source(source)` */
  function ParseScopeSource(src: ScopeSource): (r: ScopeLists)
    ensures src.Raw? ==> r.allow == ScopeLines(src.text)
    ensures src.File? ==> r.allow == ScopeLines(src.content)
    ensures !src.Dir? ==> r.deny == []
    ensures src.Dir? && src.allow.None? ==> r.allow == []
    ensures src.Dir? && src.deny.None? ==> r.deny == []
    ensures src.Dir? && src.allow.Some? ==> r.allow == ScopeLines(src.allow.value)
    ensures src.Dir? && src.deny.Some? ==> r.deny == ScopeLines(src.deny.value)
  {
    match src
    case Dir(a, d) => ScopeLists(ListFrom(a), ListFrom(d))
    case File(content) => ScopeLists(ScopeLines(content), [])
    case Raw(text) => ScopeLists(ScopeLines(text), [])
  }

  /** Pasted text never denies anything, and every allow entry is a
      non-blank, non-comment stripped line of it. */
  lemma RawScopeAllowsOnly(text: string, x: string)
    ensures ParseScopeSource(Raw(text)).deny == []
    ensures x in ParseScopeSource(Raw(text)).allow <==>
      && x != "" && !StartsWith(x, "#")
      && exists j | 0 <= j < |SplitLines(text)| :: x == Strip(SplitLines(text)[j])
  {
    ScopeLinesMembers(text, x);
  }

  /** The filter works line by line: two blocks of lines give their entries
      one after the other. */
  lemma ScopeLinesConcat(a: seq<string>, b: seq<string>)
    ensures SelectLines(a + b, IsScopeLine) == SelectLines(a, IsScopeLine) + SelectLines(b, IsScopeLine)
  {
    SelectLinesConcat(a, b, IsScopeLine);
  }
}

=== FILE: hash_utils.dfy ===
/** `reporting/hash_utils.py`: the canonical JSON text every fingerprint of
    the reporting layer is computed from, and its SHA-256. */
module HashUtils {
  import opened Text
  import opened Json
  import opened Crypto

  /** `canonical_json(obj)`: keys sorted at every level, `,` and `:` as the
      only separators, and `ensure_ascii=False`, so characters beyond ASCII
      are written as themselves. */
  function CanonicalJson(j: Json): string {
    Encode(false, j)
  }

  /** `sha256_canonical(obj)`. */
  function Sha256Canonical(H: Hash, j: Json): string {
    H(CanonicalJson(j))
  }

  /** Keys are written in strictly ascending order, and exactly the object's
      members are written. */
  lemma CanonicalKeysSorted(ms: seq<Member>)
    requires UniqueKeys(ms)
    ensures CanonicalJson(Obj(ms)) == "{" + Join(MemberTexts(false, SortedPairs(false, ms)), ",") + "}"
    ensures multiset(SortedPairs(false, ms)) == multiset(Pairs(false, ms))
    ensures var sp := SortedPairs(false, ms);
      forall i, j :: 0 <= i < j < |sp| ==> StrLt(sp[i].0, sp[j].0)
  {
    EncodeObj(false, ms);
    ObjKeysAscending(false, ms);
  }

  /** Deterministic whatever the insertion order: two equal values, their
      dicts filled in any order at any depth, give the same text and so the
      same digest. */
  lemma CanonicalDeterministic(H: Hash, a: Json, b: Json)
    requires Equiv(a, b)
    ensures CanonicalJson(a) == CanonicalJson(b)
    ensures Sha256Canonical(H, a) == Sha256Canonical(H, b)
  {
    EquivEncode(false, a, b);
  }

  /** No whitespace is added around separators. */
  lemma CanonicalCompact(j: Json)
    requires forall c :: CharIn(j, c) ==> !IsSpace(c)
    ensures AllChars(CanonicalJson(j), NotSpace)
  {
    EncodeNoWhitespace(false, j);
  }

  /** A string that needs no JSON escape is written as itself between
      quotes: non-ASCII characters stay raw rather than becoming `\u` escapes. */
  lemma CanonicalRawUnicode(s: string)
    requires forall i :: 0 <= i < |s| ==> !ShortEscaped(s[i]) && s[i] >= ' '
    ensures CanonicalJson(Str(s)) == "\"" + s + "\""
  {
    EscapeRaw(s);
  }

  /** The digest commits to every value: changing one member's value to one
      with a different text changes the digest, unless the hash collides
      on exactly these two texts. */
  lemma Sha256CanonicalCommits(H: Hash, ms: seq<Member>, k: nat, v: Json, w: Json)
    requires UniqueKeys(ms) && k < |ms|
    requires CanonicalJson(v) != CanonicalJson(w)
    requires NoCollision(H, CanonicalJson(Obj(ms[k := Member(ms[k].key, v)])),
                            CanonicalJson(Obj(ms[k := Member(ms[k].key, w)])))
    ensures Sha256Canonical(H, Obj(ms[k := Member(ms[k].key, v)]))
         != Sha256Canonical(H, Obj(ms[k := Member(ms[k].key, w)]))
  {
    EncodeMemberChange(false, ms, k, v, w);
  }
}

=== FILE: json.dfy ===
/** JSON values as Python's `json` module sees them, and the compact,
    key-sorted encoding `json.dumps(obj, sort_keys=True, separators=(",", ":"))`
    that feeds every hash and signature of the audit layer.

    `ascii` models `ensure_ascii`: with `true` (Python's default) every
    character outside printable ASCII is written as a `\uXXXX` escape (a
    surrogate pair above U+FFFF); with `false` only `"`, `\` and control
    characters are escaped and everything else is written raw. */
module Json {
  import opened Text
  import Sorting

  /** A JSON value. An object keeps its members in insertion order, as a
      Python dict does; floats are not modelled. */
  datatype Json =
    | Null
    | Bool(b: bool)
    | Int(i: int)
    | Str(s: string)
    | Arr(items: seq<Json>)
    | Obj(members: seq<Member>)

  datatype Member = Member(key: string, value: Json)

  function KeyOf(m: Member): string {
    m.key
  }

  /** A well-formed dict: no key occurs twice. */
  ghost predicate UniqueKeys(ms: seq<Member>) {
    Sorting.DistinctKeys(ms, KeyOf)
  }

  /** `k in d` */
  predicate HasKey(ms: seq<Member>, k: string) {
    exists i | 0 <= i < |ms| :: ms[i].key == k
  }

  /** `d.get(k, default)` */
  function Get(ms: seq<Member>, k: string, default: Json): (r: Json)
    ensures !HasKey(ms, k) ==> r == default
    ensures HasKey(ms, k) ==> Member(k, r) in ms
    decreases |ms|
  {
    if |ms| == 0 then default
    else if ms[0].key == k then ms[0].value
    else Get(ms[1..], k, default)
  }

  /** The dict without key `k`: `d.pop(k, None)` on a copy, or
      `{key: v for key, v in d.items() if key != k}`. */
  function Without(ms: seq<Member>, k: string): (r: seq<Member>)
    ensures !HasKey(r, k)
    ensures forall m :: m in r <==> m in ms && m.key != k
    ensures |r| <= |ms|
    decreases |ms|
  {
    if |ms| == 0 then []
    else if ms[0].key == k then Without(ms[1..], k)
    else [ms[0]] + Without(ms[1..], k)
  }

  /** `d[k] = v`: an existing key keeps its position, a new key goes last. */
  function Put(ms: seq<Member>, k: string, v: Json): (r: seq<Member>)
    ensures HasKey(ms, k) ==> |r| == |ms|
    ensures !HasKey(ms, k) ==> r == ms + [Member(k, v)]
    decreases |ms|
  {
    if |ms| == 0 then [Member(k, v)]
    else if ms[0].key == k then [Member(k, v)] + ms[1..]
    else [ms[0]] + Put(ms[1..], k, v)
  }

  /** Dropping a key that only the last member has gives back the rest. */
  lemma {:induction false} WithoutLast(p: seq<Member>, k: string, v: Json)
    requires !HasKey(p, k)
    ensures Without(p + [Member(k, v)], k) == p
    decreases |p|
  {
    if |p| > 0 {
      var t, m := p[1..], Member(k, v);
      NoKeyTail(p, k);
      calc {
        Without(p + [m], k);
        { assert p + [m] == [p[0]] + (t + [m]); }
        Without([p[0]] + (t + [m]), k);
        { WithoutCons(p[0], t + [m], k); }
        [p[0]] + Without(t + [m], k);
        { WithoutLast(t, k, v); }
        [p[0]] + t;
        p;
      }
    }
  }

  /** A key no member has is not in the tail either. */
  lemma NoKeyTail(p: seq<Member>, k: string)
    requires |p| > 0 && !HasKey(p, k)
    ensures p[0].key != k && !HasKey(p[1..], k)
  {
    forall i | 0 <= i < |p[1..]| ensures p[1..][i].key != k {
      assert p[1..][i] == p[i + 1];
    }
  }

  /** A member with another key is kept at the front. */
  lemma WithoutCons(m: Member, rest: seq<Member>, k: string)
    requires m.key != k
    ensures Without([m] + rest, k) == [m] + Without(rest, k)
  {
    assert ([m] + rest)[0] == m && ([m] + rest)[1..] == rest;
  }

  /** The value stored under a key is read back from the position where it
      sits. */
  lemma GetAt(ms: seq<Member>, i: nat, d: Json)
    requires UniqueKeys(ms) && i < |ms|
    ensures Get(ms, ms[i].key, d) == ms[i].value
  {
    assert HasKey(ms, ms[i].key);
    var j :| 0 <= j < |ms| && ms[j] == Member(ms[i].key, Get(ms, ms[i].key, d));
    assert KeyOf(ms[j]) == KeyOf(ms[i]);
  }

  /** Lookups do not depend on the order of the members: a dict re-read from
      a file written with `sort_keys=True` answers every `get` the same way. */
  lemma GetPermutation(s: seq<Member>, t: seq<Member>, k: string, d: Json)
    requires UniqueKeys(s)
    requires multiset(s) == multiset(t)
    ensures Get(s, k, d) == Get(t, k, d)
  {
    if HasKey(s, k) {
      var i :| 0 <= i < |s| && s[i].key == k;
      assert s[i] in multiset(t);
      assert HasKey(t, k) by {
        var m := Sorting.IndexOf(s[i], t);
        assert t[m].key == k;
      }
      var a := Get(s, k, d);
      var b := Get(t, k, d);
      assert Member(k, b) in multiset(s);
      var ia := Sorting.IndexOf(Member(k, a), s);
      var ib := Sorting.IndexOf(Member(k, b), s);
      assert KeyOf(s[ia]) == KeyOf(s[ib]);
    } else {
      forall i | 0 <= i < |t| ensures t[i].key != k {
        assert t[i] in multiset(s);
        var m := Sorting.IndexOf(t[i], s);
      }
    }
  }

  lemma UniqueTail(ms: seq<Member>)
    requires |ms| > 0 && UniqueKeys(ms)
    ensures UniqueKeys(ms[1..])
  {
    forall a, b | 0 <= a < b < |ms[1..]| ensures KeyOf(ms[1..][a]) != KeyOf(ms[1..][b]) {
      assert KeyOf(ms[a + 1]) != KeyOf(ms[b + 1]);
    }
  }

  lemma PutFirst(ms: seq<Member>, k: string, v: Json)
    requires |ms| > 0 && ms[0].key == k && UniqueKeys(ms)
    ensures |Put(ms, k, v)| == |ms|
    ensures forall i | 0 <= i < |ms| ::
      Put(ms, k, v)[i] == if ms[i].key == k then Member(k, v) else ms[i]
  {
    forall i | 0 < i < |ms| ensures ms[i].key != k {
      assert KeyOf(ms[0]) != KeyOf(ms[i]);
    }
    assert Put(ms, k, v) == [Member(k, v)] + ms[1..];
  }

  lemma PutLater(ms: seq<Member>, k: string, v: Json)
    requires |ms| > 0 && ms[0].key != k
    requires |Put(ms[1..], k, v)| == |ms| - 1
    requires forall i | 0 <= i < |ms| - 1 ::
      Put(ms[1..], k, v)[i] == if ms[1..][i].key == k then Member(k, v) else ms[1..][i]
    ensures |Put(ms, k, v)| == |ms|
    ensures forall i | 0 <= i < |ms| ::
      Put(ms, k, v)[i] == if ms[i].key == k then Member(k, v) else ms[i]
  {
    var t := Put(ms[1..], k, v);
    forall i | 0 <= i < |t| ensures t[i] == if ms[i + 1].key == k then Member(k, v) else ms[i + 1] {
      assert ms[1..][i] == ms[i + 1];
    }
    PutCons(ms, k, v);
    ConsPointwise(ms, t, Put(ms, k, v), Member(k, v));
  }

  /** Replacing members with key `m.key` by `m` commutes with putting a
      member with another key in front. */
  lemma ConsPointwise(ms: seq<Member>, t: seq<Member>, r: seq<Member>, m: Member)
    requires |ms| > 0 && ms[0].key != m.key && r == [ms[0]] + t && |t| == |ms| - 1
    requires forall i | 0 <= i < |t| :: t[i] == if ms[i + 1].key == m.key then m else ms[i + 1]
    ensures |r| == |ms|
    ensures forall i | 0 <= i < |ms| :: r[i] == if ms[i].key == m.key then m else ms[i]
  {
    forall i | 0 < i < |ms| ensures r[i] == if ms[i].key == m.key then m else ms[i] {
      assert r[i] == t[i - 1];
    }
  }

  /** A first member with another key stays at the front. */
  lemma PutCons(ms: seq<Member>, k: string, v: Json)
    requires |ms| > 0 && ms[0].key != k
    ensures Put(ms, k, v) == [ms[0]] + Put(ms[1..], k, v)
  {
  }

  /** `d[k] = v` on a dict that holds `k`: the value at that key's position
      is replaced and every other member stays where it was. */
  lemma {:induction false} PutInPlace(ms: seq<Member>, k: string, v: Json)
    requires UniqueKeys(ms) && HasKey(ms, k)
    ensures |Put(ms, k, v)| == |ms|
    ensures forall i | 0 <= i < |ms| ::
      Put(ms, k, v)[i] == if ms[i].key == k then Member(k, v) else ms[i]
    decreases |ms|
  {
    if ms[0].key != k {
      var i :| 0 <= i < |ms| && ms[i].key == k;
      assert ms[1..][i - 1].key == k;
      UniqueTail(ms);
      PutInPlace(ms[1..], k, v);
      PutLater(ms, k, v);
    } else {
      PutFirst(ms, k, v);
    }
  }

  /** Python's `str(value)` for scalars; a list or dict prints as its
      `repr`, which the caller supplies. */
  function PyStr(j: Json, repr: Json -> string): string {
    match j
    case Null => "None"
    case Bool(b) => if b then "True" else "False"
    case Int(i) => IntToString(i)
    case Str(s) => s
    case _ => repr(j)
  }

  // ---------------------------------------------------------------------
  // String escaping
  // ---------------------------------------------------------------------

  function HexDigit(d: nat): (c: char)
    requires d < 16
    ensures '0' <= c <= '9' || 'a' <= c <= 'f'
  {
    "0123456789abcdef"[d]
  }

  /** The low `w` hex digits of `n`, most significant first, lower case. */
  function HexDigits(n: nat, w: nat): (r: string)
    ensures |r| == w
    decreases w
  {
    if w == 0 then "" else HexDigits(n / 16, w - 1) + [HexDigit(n % 16)]
  }

  /** Four lower-case hex digits, as in `'{0:04x}'.format(n)`. */
  function Hex4(n: nat): (r: string)
    requires n < 0x10000
    ensures |r| == 4
  {
    HexDigits(n, 4)
  }

  function UEscape(n: nat): (r: string)
    requires n < 0x10000
    ensures |r| == 6
  {
    ['\\', 'u'] + Hex4(n)
  }

  /** A character above U+FFFF, `0x10000 + v`, as a UTF-16 surrogate pair. */
  function PairEscape(v: nat): (r: string)
    requires v < 0x100000
    ensures |r| == 12
  {
    UEscape(0xD800 + v / 0x400) + UEscape(0xDC00 + v % 0x400)
  }

  /** How `json.dumps` writes one character inside a string literal. */
  function EscChar(ascii: bool, c: char): (r: string)
    ensures |r| >= 1
  {
    if c == '"' then ['\\', '"']
    else if c == '\\' then ['\\', '\\']
    else if c == '\n' then ['\\', 'n']
    else if c == '\r' then ['\\', 'r']
    else if c == '\t' then ['\\', 't']
    else if c == '\U{8}' then ['\\', 'b']
    else if c == '\U{C}' then ['\\', 'f']
    else if c < ' ' then UEscape(c as int)
    else if ascii && c as int > 0x7E then
      if c as int < 0x10000 then UEscape(c as int)
      else PairEscape(c as int - 0x10000)
    else [c]
  }

  function Escape(ascii: bool, s: string): (r: string)
    ensures |r| >= |s|
    decreases |s|
  {
    if |s| == 0 then "" else EscChar(ascii, s[0]) + Escape(ascii, s[1..])
  }

  /** A string literal. */
  function Quote(ascii: bool, s: string): string {
    "\"" + Escape(ascii, s) + "\""
  }

  // ---------------------------------------------------------------------
  // The encoder
  // ---------------------------------------------------------------------

  /** A member already encoded: its key and the text of its value. */
  type Pair = (string, string)

  function PairKey(p: Pair): string {
    p.0
  }

  function MemberText(ascii: bool, p: Pair): string {
    Quote(ascii, p.0) + ":" + p.1
  }

  function MemberTexts(ascii: bool, ps: seq<Pair>): (r: seq<string>)
    ensures |r| == |ps| && forall k :: 0 <= k < |ps| ==> r[k] == MemberText(ascii, ps[k])
  {
    seq(|ps|, k requires 0 <= k < |ps| => MemberText(ascii, ps[k]))
  }

  /** `json.dumps(j, sort_keys=True, separators=(",", ":"), ensure_ascii=ascii)`:
      members are encoded, ordered by key, and joined with no whitespace. */
  function Encode(ascii: bool, j: Json): string
    decreases j, 1
  {
    match j
    case Null => "null"
    case Bool(b) => if b then "true" else "false"
    case Int(i) => IntToString(i)
    case Str(s) => Quote(ascii, s)
    case Arr(items) =>
      "[" + Join(seq(|items|, k requires 0 <= k < |items| => Encode(ascii, items[k])), ",") + "]"
    case Obj(ms) => EncodeObject(ascii, ms)
  }

  /** An object: its members encoded, ordered by key. */
  function EncodeObject(ascii: bool, ms: seq<Member>): string
    decreases Obj(ms), 0
  {
    var ps := seq(|ms|, k requires 0 <= k < |ms| => (ms[k].key, Encode(ascii, ms[k].value)));
    "{" + Join(MemberTexts(ascii, Sorting.Sort(ps, PairKey, StrLt)), ",") + "}"
  }

  /** The members of an object with their values encoded, in insertion order. */
  function Pairs(ascii: bool, ms: seq<Member>): (r: seq<Pair>)
    ensures |r| == |ms|
    ensures forall k :: 0 <= k < |ms| ==> r[k] == (ms[k].key, Encode(ascii, ms[k].value))
  {
    seq(|ms|, k requires 0 <= k < |ms| => (ms[k].key, Encode(ascii, ms[k].value)))
  }

  /** The members as they are written: encoded, in ascending key order. */
  function SortedPairs(ascii: bool, ms: seq<Member>): seq<Pair> {
    Sorting.Sort(Pairs(ascii, ms), PairKey, StrLt)
  }

  lemma EncodeObj(ascii: bool, ms: seq<Member>)
    ensures Encode(ascii, Obj(ms)) == "{" + Join(MemberTexts(ascii, SortedPairs(ascii, ms)), ",") + "}"
  {
    assert Encode(ascii, Obj(ms)) == EncodeObject(ascii, ms);
  }

  // ---------------------------------------------------------------------
  // Keys are written in ascending order, whatever the insertion order
  // ---------------------------------------------------------------------

  lemma StrLtOrder()
    ensures Sorting.StrictTotalOrder(StrLt)
  {
    forall a: string ensures !StrLt(a, a) {
      StrLtIrreflexive(a);
    }
    forall a: string, b: string, c: string | StrLt(a, b) && StrLt(b, c) ensures StrLt(a, c) {
      StrLtTransitive(a, b, c);
    }
    forall a: string, b: string | a != b ensures StrLt(a, b) || StrLt(b, a) {
      StrLtTotal(a, b);
    }
  }

  lemma PairsConcat(ascii: bool, s: seq<Member>, t: seq<Member>)
    ensures Pairs(ascii, s + t) == Pairs(ascii, s) + Pairs(ascii, t)
  {
  }

  /** Rearranging the members rearranges their encoded pairs the same way. */
  lemma {:induction false} PairsPermute(ascii: bool, s: seq<Member>, t: seq<Member>)
    requires multiset(s) == multiset(t)
    ensures multiset(Pairs(ascii, s)) == multiset(Pairs(ascii, t))
    decreases |s|
  {
    if |s| == 0 {
      assert |t| == |multiset(t)| == 0;
    } else {
      assert s[0] in multiset(t) by {
        assert s[0] in multiset(s);
      }
      var k := Sorting.IndexOf(s[0], t);
      var rest := t[..k] + t[k + 1..];
      assert t == t[..k] + [t[k]] + t[k + 1..];
      assert s == [s[0]] + s[1..];
      assert multiset(t) == multiset(t[..k]) + multiset{t[k]} + multiset(t[k + 1..]);
      assert multiset(s) == multiset{s[0]} + multiset(s[1..]);
      assert multiset(rest) == multiset(t[..k]) + multiset(t[k + 1..]);
      assert multiset(s[1..]) == multiset(s) - multiset{s[0]};
      PairsPermute(ascii, s[1..], rest);
      PairsConcat(ascii, [s[0]], s[1..]);
      PairsConcat(ascii, t[..k] + [t[k]], t[k + 1..]);
      PairsConcat(ascii, t[..k], [t[k]]);
      PairsConcat(ascii, t[..k], t[k + 1..]);
    }
  }

  lemma PairsDistinct(ascii: bool, ms: seq<Member>)
    requires UniqueKeys(ms)
    ensures Sorting.DistinctKeys(Pairs(ascii, ms), PairKey)
  {
  }

  /** At every object, the members are written in strictly ascending key
      order, and they are exactly the object's members. */
  lemma ObjKeysAscending(ascii: bool, ms: seq<Member>)
    requires UniqueKeys(ms)
    ensures multiset(SortedPairs(ascii, ms)) == multiset(Pairs(ascii, ms))
    ensures var sp := SortedPairs(ascii, ms);
      forall i, j :: 0 <= i < j < |sp| ==> StrLt(sp[i].0, sp[j].0)
  {
    StrLtOrder();
    var ps := Pairs(ascii, ms);
    Sorting.SortPermutes(ps, PairKey, StrLt);
    Sorting.SortSorted(ps, PairKey, StrLt);
    PairsDistinct(ascii, ms);
    Sorting.SortDistinct(ps, PairKey, StrLt);
    var sp := SortedPairs(ascii, ms);
    forall i, j | 0 <= i < j < |sp| ensures StrLt(sp[i].0, sp[j].0) {
      assert PairKey(sp[i]) != PairKey(sp[j]);
      assert !StrLt(PairKey(sp[j]), PairKey(sp[i]));
      StrLtTotal(sp[i].0, sp[j].0);
    }
  }

  /** Members whose encoded pairs are the same, in any order, encode to the
      same text. */
  lemma SamePairsEncode(ascii: bool, s: seq<Member>, t: seq<Member>)
    requires UniqueKeys(s)
    requires multiset(Pairs(ascii, s)) == multiset(Pairs(ascii, t))
    ensures Encode(ascii, Obj(s)) == Encode(ascii, Obj(t))
  {
    StrLtOrder();
    var ps, pt := Pairs(ascii, s), Pairs(ascii, t);
    PairsDistinct(ascii, s);
    Sorting.SortPermutes(ps, PairKey, StrLt);
    Sorting.SortPermutes(pt, PairKey, StrLt);
    Sorting.SortSorted(ps, PairKey, StrLt);
    Sorting.SortSorted(pt, PairKey, StrLt);
    Sorting.SortDistinct(ps, PairKey, StrLt);
    Sorting.SortedUnique(SortedPairs(ascii, s), SortedPairs(ascii, t), PairKey, StrLt);
    EncodeObj(ascii, s);
    EncodeObj(ascii, t);
  }

  /** Two dicts holding the same key/value pairs, inserted in any order,
      encode to the same text. */
  lemma EncodeOrderIndependent(ascii: bool, s: seq<Member>, t: seq<Member>)
    requires UniqueKeys(s)
    requires multiset(s) == multiset(t)
    ensures Encode(ascii, Obj(s)) == Encode(ascii, Obj(t))
  {
    PairsPermute(ascii, s, t);
    SamePairsEncode(ascii, s, t);
  }

  /** Python's `==` on values read from JSON: two dicts are equal when they
      have the same keys and equal values under each key, whatever order
      the keys were inserted in, at every level; lists are equal item by
      item. */
  ghost predicate Equiv(a: Json, b: Json)
    decreases a
  {
    a == b ||
    match a
    case Obj(s) =>
      && b.Obj? && UniqueKeys(s) && UniqueKeys(b.members)
      && (forall k :: HasKey(s, k) <==> HasKey(b.members, k))
      && forall i, j | 0 <= i < |s| && 0 <= j < |b.members| && s[i].key == b.members[j].key ::
           Equiv(s[i].value, b.members[j].value)
    case Arr(xs) =>
      && b.Arr? && |xs| == |b.items|
      && forall i | 0 <= i < |xs| :: Equiv(xs[i], b.items[i])
    case _ => false
  }

  /** Lists whose items encode alike encode alike. */
  lemma ArrEncode(ascii: bool, xs: seq<Json>, ys: seq<Json>)
    requires |xs| == |ys|
    requires forall i | 0 <= i < |xs| :: Encode(ascii, xs[i]) == Encode(ascii, ys[i])
    ensures Encode(ascii, Arr(xs)) == Encode(ascii, Arr(ys))
  {
    assert seq(|xs|, k requires 0 <= k < |xs| => Encode(ascii, xs[k]))
        == seq(|ys|, k requires 0 <= k < |ys| => Encode(ascii, ys[k]));
  }

  /** Dicts with the same keys, whose values under each key encode alike,
      encode alike. */
  lemma ObjEncode(ascii: bool, s: seq<Member>, t: seq<Member>)
    requires UniqueKeys(s) && UniqueKeys(t)
    requires forall k :: HasKey(s, k) <==> HasKey(t, k)
    requires forall i, j | 0 <= i < |s| && 0 <= j < |t| && s[i].key == t[j].key ::
      Encode(ascii, s[i].value) == Encode(ascii, t[j].value)
    ensures Encode(ascii, Obj(s)) == Encode(ascii, Obj(t))
  {
    var ps, pt := Pairs(ascii, s), Pairs(ascii, t);
    forall p ensures p in ps ==> p in pt {
      if p in ps {
        var i :| 0 <= i < |ps| && ps[i] == p;
        assert HasKey(t, s[i].key);
        var j :| 0 <= j < |t| && t[j].key == s[i].key;
        assert pt[j] == p;
      }
    }
    forall p ensures p in pt ==> p in ps {
      if p in pt {
        var j :| 0 <= j < |pt| && pt[j] == p;
        assert HasKey(s, t[j].key);
        var i :| 0 <= i < |s| && s[i].key == t[j].key;
        assert ps[i] == p;
      }
    }
    PairsDistinct(ascii, s);
    PairsDistinct(ascii, t);
    Sorting.SameElements(ps, pt, PairKey);
    SamePairsEncode(ascii, s, t);
  }

  /** Equal values encode to the same text: `sort_keys` orders the keys at
      every level, so no insertion order shows in the output. */
  lemma {:induction false} EquivEncode(ascii: bool, a: Json, b: Json)
    requires Equiv(a, b)
    ensures Encode(ascii, a) == Encode(ascii, b)
    decreases a
  {
    if a != b {
      match a
      case Arr(xs) =>
        forall i | 0 <= i < |xs| ensures Encode(ascii, xs[i]) == Encode(ascii, b.items[i]) {
          EquivEncode(ascii, xs[i], b.items[i]);
        }
        ArrEncode(ascii, xs, b.items);
      case Obj(s) =>
        var t := b.members;
        forall i, j | 0 <= i < |s| && 0 <= j < |t| && s[i].key == t[j].key
          ensures Encode(ascii, s[i].value) == Encode(ascii, t[j].value)
        {
          EquivEncode(ascii, s[i].value, t[j].value);
        }
        ObjEncode(ascii, s, t);
    }
  }

  /** For instance, a dict nested in a dict may be filled in either order. */
  lemma NestedOrderIndependent(ascii: bool, k: string, x: string, u: Json, y: string, v: Json)
    requires x != y
    ensures Encode(ascii, Obj([Member(k, Obj([Member(x, u), Member(y, v)]))]))
         == Encode(ascii, Obj([Member(k, Obj([Member(y, v), Member(x, u)]))]))
  {
    var s, t := [Member(x, u), Member(y, v)], [Member(y, v), Member(x, u)];
    assert Equiv(Obj(s), Obj(t)) by {
      forall key ensures HasKey(s, key) <==> HasKey(t, key) {
        assert HasKey(s, key) <==> key == s[0].key || key == s[1].key;
        assert HasKey(t, key) <==> key == t[0].key || key == t[1].key;
      }
    }
    var a, b := Obj([Member(k, Obj(s))]), Obj([Member(k, Obj(t))]);
    assert Equiv(a, b);
    EquivEncode(ascii, a, b);
  }

  // ---------------------------------------------------------------------
  // String literals can be read back
  // ---------------------------------------------------------------------

  function HexVal(c: char): nat {
    if '0' <= c <= '9' then c as int - '0' as int
    else if 'a' <= c <= 'f' then c as int - 'a' as int + 10
    else 0
  }

  /** The number a string of hex digits stands for. */
  function HexValue(h: string): nat
    decreases |h|
  {
    if |h| == 0 then 0 else HexValue(h[..|h| - 1]) * 16 + HexVal(h[|h| - 1])
  }

  function Hex4Val(h: string): nat
    requires |h| == 4
  {
    HexValue(h)
  }

  lemma HexDigitVal(d: nat)
    requires d < 16
    ensures HexVal(HexDigit(d)) == d
  {
  }

  function Pow16(w: nat): nat
    decreases w
  {
    if w == 0 then 1 else 16 * Pow16(w - 1)
  }

  /** Reading `w` hex digits back gives the number they were written from. */
  lemma {:induction false} HexDigitsRoundTrip(n: nat, w: nat)
    requires n < Pow16(w)
    ensures HexValue(HexDigits(n, w)) == n
    decreases w
  {
    if w > 0 {
      var h := HexDigits(n, w);
      assert h[..w - 1] == HexDigits(n / 16, w - 1);
      HexDigitsRoundTrip(n / 16, w - 1);
      HexDigitVal(n % 16);
    }
  }

  lemma Hex4RoundTrip(n: nat)
    requires n < 0x10000
    ensures Hex4Val(Hex4(n)) == n
  {
    assert Pow16(4) == 0x10000;
    HexDigitsRoundTrip(n, 4);
  }

  /** Reads the escape at the front of `t` back, as a JSON decoder does: the
      code point it stands for and how many characters it spans. */
  function DecodeHead(t: string): (int, nat)
    requires |t| > 0
  {
    if t[0] != '\\' || |t| < 2 then (t[0] as int, 1)
    else if t[1] == 'u' && |t| >= 6 then DecodeU(t)
    else (ShortCode(t[1]), 2)
  }

  /** The character a two-character escape `\x` stands for. */
  function ShortCode(x: char): int {
    match x
    case 'b' => 8
    case 'f' => 12
    case 'n' => 10
    case 'r' => 13
    case 't' => 9
    case _ => x as int
  }

  /** A `\uXXXX` escape, joined with a following low surrogate when it is a
      high surrogate. */
  function DecodeU(t: string): (int, nat)
    requires |t| >= 6
  {
    var n := Hex4Val(t[2..6]);
    if 0xD800 <= n < 0xDC00 && |t| >= 12 && t[6] == '\\' && t[7] == 'u' then
      (0x10000 + (n - 0xD800) * 0x400 + (Hex4Val(t[8..12]) - 0xDC00), 12)
    else (n, 6)
  }

  predicate ShortEscaped(c: char) {
    c == '"' || c == '\\' || c == '\n' || c == '\r' || c == '\t' || c == '\U{8}' || c == '\U{C}'
  }

  /** The two-character escapes read back as the character they stand for. */
  lemma DecodeShortEscape(ascii: bool, c: char, rest: string)
    requires ShortEscaped(c)
    ensures DecodeHead(EscChar(ascii, c) + rest) == (c as int, |EscChar(ascii, c)|)
  {
    var t := EscChar(ascii, c) + rest;
    assert t[0] == '\\' && |t| >= 2;
  }

  /** A `\uXXXX` escape outside the high-surrogate range reads back as its code. */
  lemma DecodeUEscape(n: nat, rest: string)
    requires n < 0x10000 && !(0xD800 <= n < 0xDC00)
    ensures DecodeHead(UEscape(n) + rest) == (n, 6)
  {
    UEscapeParts(n, rest);
  }

  lemma DecodeEscCharU(ascii: bool, c: char, rest: string)
    requires !ShortEscaped(c)
    requires c < ' ' || (ascii && 0x7E < c as int < 0x10000)
    ensures DecodeHead(EscChar(ascii, c) + rest) == (c as int, |EscChar(ascii, c)|)
  {
    assert EscChar(ascii, c) == UEscape(c as int);
    DecodeUEscape(c as int, rest);
  }

  /** The pieces of a `\uXXXX` escape followed by `rest`. */
  lemma UEscapeParts(n: nat, rest: string)
    requires n < 0x10000
    ensures var t := UEscape(n) + rest;
      |t| >= 6 && t[0] == '\\' && t[1] == 'u' && Hex4Val(t[2..6]) == n && t[6..] == rest
  {
    var t := UEscape(n) + rest;
    assert t[2..6] == Hex4(n);
    Hex4RoundTrip(n);
  }

  /** A high-surrogate escape followed by a second `\u` escape reads back as
      one code point spanning twelve characters. */
  lemma DecodeUPair(t: string, hi: nat, lo: nat)
    requires |t| >= 12 && t[0] == '\\' && t[1] == 'u' && t[6] == '\\' && t[7] == 'u'
    requires Hex4Val(t[2..6]) == hi && Hex4Val(t[8..12]) == lo
    requires 0xD800 <= hi < 0xDC00
    ensures DecodeHead(t) == (0x10000 + (hi - 0xD800) * 0x400 + (lo - 0xDC00), 12)
  {
    assert DecodeHead(t) == DecodeU(t);
  }

  /** The pieces of two `\u` escapes followed by `rest`. */
  lemma TwoEscapesParts(hi: nat, lo: nat, rest: string)
    requires hi < 0x10000 && lo < 0x10000
    ensures var t := UEscape(hi) + UEscape(lo) + rest;
      && |t| >= 12 && t[0] == '\\' && t[1] == 'u' && t[6] == '\\' && t[7] == 'u'
      && Hex4Val(t[2..6]) == hi && Hex4Val(t[8..12]) == lo
  {
    var u := UEscape(lo) + rest;
    var t := UEscape(hi) + u;
    assert UEscape(hi) + UEscape(lo) + rest == t;
    UEscapeParts(hi, u);
    UEscapeParts(lo, rest);
    assert t[6..] == u;
    assert t[6] == u[0] && t[7] == u[1];
    assert t[8..12] == u[2..6];
  }

  /** The UTF-16 halves of the code point `0x10000 + v`. */
  lemma SurrogateHalves(v: nat) returns (hi: nat, lo: nat)
    requires v < 0x100000
    ensures 0xD800 <= hi < 0xDC00 && 0xDC00 <= lo < 0xE000
    ensures PairEscape(v) == UEscape(hi) + UEscape(lo)
    ensures (hi - 0xD800) * 0x400 + (lo - 0xDC00) == v
  {
    hi, lo := 0xD800 + v / 0x400, 0xDC00 + v % 0x400;
  }

  /** With `ensure_ascii`, a character above U+FFFF is written as a
      surrogate pair. */
  lemma EscCharAstral(ascii: bool, c: char)
    requires ascii && c as int >= 0x10000
    ensures c as int - 0x10000 < 0x100000
    ensures EscChar(ascii, c) == PairEscape(c as int - 0x10000)
  {
  }

  /** A surrogate pair reads back as the character above U+FFFF it
      stands for. */
  lemma DecodePairEscape(v: nat, rest: string)
    requires v < 0x100000
    ensures DecodeHead(PairEscape(v) + rest) == (0x10000 + v, 12)
  {
    var hi, lo := SurrogateHalves(v);
    var t := UEscape(hi) + UEscape(lo) + rest;
    assert PairEscape(v) + rest == t;
    TwoEscapesParts(hi, lo, rest);
    DecodeUPair(t, hi, lo);
  }

  lemma DecodeEscCharAstral(ascii: bool, c: char, rest: string)
    requires ascii && c as int >= 0x10000
    ensures DecodeHead(EscChar(ascii, c) + rest) == (c as int, |EscChar(ascii, c)|)
  {
    var v := c as int - 0x10000;
    EscCharAstral(ascii, c);
    var e, p := EscChar(ascii, c), PairEscape(v);
    DecodePairEscape(v, rest);
    assert e + rest == p + rest;
  }

  lemma DecodeEscCharRaw(ascii: bool, c: char, rest: string)
    requires !ShortEscaped(c) && c >= ' ' && !(ascii && c as int > 0x7E)
    ensures DecodeHead(EscChar(ascii, c) + rest) == (c as int, |EscChar(ascii, c)|)
  {
    assert EscChar(ascii, c) == [c];
  }

  /** Whatever follows it, an escaped character reads back as itself. */
  lemma DecodeHeadEscChar(ascii: bool, c: char, rest: string)
    ensures DecodeHead(EscChar(ascii, c) + rest) == (c as int, |EscChar(ascii, c)|)
  {
    if ShortEscaped(c) {
      DecodeShortEscape(ascii, c, rest);
    } else if c < ' ' || (ascii && 0x7E < c as int < 0x10000) {
      DecodeEscCharU(ascii, c, rest);
    } else if ascii && c as int > 0x7E {
      DecodeEscCharAstral(ascii, c, rest);
    } else {
      DecodeEscCharRaw(ascii, c, rest);
    }
  }

  /** Escaping is injective: different strings give different literals. */
  lemma {:induction false} EscapeInjective(ascii: bool, s: string, t: string)
    requires Escape(ascii, s) == Escape(ascii, t)
    ensures s == t
    decreases |s|
  {
    if |s| > 0 && |t| > 0 {
      var e := Escape(ascii, s);
      DecodeHeadEscChar(ascii, s[0], Escape(ascii, s[1..]));
      DecodeHeadEscChar(ascii, t[0], Escape(ascii, t[1..]));
      var n := |EscChar(ascii, s[0])|;
      assert Escape(ascii, s[1..]) == e[n..];
      assert Escape(ascii, t[1..]) == e[n..];
      EscapeInjective(ascii, s[1..], t[1..]);
    }
  }

  lemma EncodeStrInjective(ascii: bool, x: string, y: string)
    requires Encode(ascii, Str(x)) == Encode(ascii, Str(y))
    ensures x == y
  {
    var ex, ey := Escape(ascii, x), Escape(ascii, y);
    assert Quote(ascii, x)[1..|ex| + 1] == ex;
    assert Quote(ascii, y)[1..|ey| + 1] == ey;
    EscapeInjective(ascii, x, y);
  }

  /** Distinct strings have distinct encodings. */
  lemma EncodeStrDistinct(ascii: bool, x: string, y: string)
    requires x != y
    ensures Encode(ascii, Str(x)) != Encode(ascii, Str(y))
  {
    if Encode(ascii, Str(x)) == Encode(ascii, Str(y)) {
      EncodeStrInjective(ascii, x, y);
    }
  }

  /** `null` is not the encoding of any string. */
  lemma EncodeNullNotStr(ascii: bool, x: string)
    ensures Encode(ascii, Null) != Encode(ascii, Str(x))
  {
    assert Encode(ascii, Str(x))[0] == '"';
  }

  /** Replacing one member's value changes the sorted member list in exactly
      one place: the place where that member's key lands. */
  lemma SortedPairsChange(ascii: bool, ms: seq<Member>, k: nat, v: Json, w: Json) returns (q: nat)
    requires UniqueKeys(ms) && k < |ms|
    ensures var sp := SortedPairs(ascii, ms[k := Member(ms[k].key, v)]);
      var st := SortedPairs(ascii, ms[k := Member(ms[k].key, w)]);
      && |sp| == |st| && q < |sp|
      && sp[q] == (ms[k].key, Encode(ascii, v)) && st[q] == (ms[k].key, Encode(ascii, w))
      && forall i :: 0 <= i < |sp| && i != q ==> sp[i] == st[i]
  {
    var key := ms[k].key;
    var ev, ew := Encode(ascii, v), Encode(ascii, w);
    var s, t := ms[k := Member(key, v)], ms[k := Member(key, w)];
    UniqueKeysUpdate(ms, k, Member(key, v));
    var ps, pt := Pairs(ascii, s), Pairs(ascii, t);
    var R := (p: Pair, q: Pair) => if p.0 == key then p.1 == ev && q.1 == ew else p == q;
    PairsRelated(ascii, ms, k, v, w);
    assert Sorting.Related(ps, pt, PairKey, R);
    Sorting.SortRelated(ps, pt, PairKey, StrLt, R);
    var sp, st := SortedPairs(ascii, s), SortedPairs(ascii, t);
    Sorting.SortPermutes(ps, PairKey, StrLt);
    assert ps[k] in multiset(sp) by {
      assert ps[k] in multiset(ps);
    }
    q := Sorting.IndexOf(ps[k], sp);
    PairsDistinct(ascii, s);
    Sorting.SortDistinct(ps, PairKey, StrLt);
    RelatedOffKey(sp, st, q, R);
  }

  lemma UniqueKeysUpdate(ms: seq<Member>, k: nat, m: Member)
    requires UniqueKeys(ms) && k < |ms| && m.key == ms[k].key
    ensures UniqueKeys(ms[k := m])
  {
    var s := ms[k := m];
    assert forall i :: 0 <= i < |s| ==> s[i].key == ms[i].key;
  }

  /** Position by position, the two member lists differ only in the value
      of the changed key. */
  lemma PairsRelated(ascii: bool, ms: seq<Member>, k: nat, v: Json, w: Json)
    requires UniqueKeys(ms) && k < |ms|
    ensures var ps, pt := Pairs(ascii, ms[k := Member(ms[k].key, v)]), Pairs(ascii, ms[k := Member(ms[k].key, w)]);
      && |ps| == |pt|
      && forall i :: 0 <= i < |ps| ==>
           && ps[i].0 == pt[i].0
           && (if ps[i].0 == ms[k].key then ps[i].1 == Encode(ascii, v) && pt[i].1 == Encode(ascii, w)
               else ps[i] == pt[i])
  {
    var ps := Pairs(ascii, ms[k := Member(ms[k].key, v)]);
    forall i | 0 <= i < |ms| && i != k ensures ps[i].0 != ms[k].key {
      assert KeyOf(ms[i]) != KeyOf(ms[k]);
    }
  }

  /** Away from the changed key, the two sorted lists agree. */
  lemma RelatedOffKey(sp: seq<Pair>, st: seq<Pair>, q: nat, R: (Pair, Pair) -> bool)
    requires Sorting.Related(sp, st, PairKey, R)
    requires Sorting.DistinctKeys(sp, PairKey) && q < |sp|
    requires forall i :: 0 <= i < |sp| && sp[i].0 != sp[q].0 && R(sp[i], st[i]) ==> sp[i] == st[i]
    ensures forall i :: 0 <= i < |sp| && i != q ==> sp[i] == st[i]
  {
    forall i | 0 <= i < |sp| && i != q ensures sp[i] == st[i] {
      assert PairKey(sp[i]) != PairKey(sp[q]);
      assert R(sp[i], st[i]);
    }
  }

  lemma MemberTextDiffers(ascii: bool, key: string, ev: string, ew: string)
    requires ev != ew
    ensures MemberText(ascii, (key, ev)) != MemberText(ascii, (key, ew))
  {
    var n := |Quote(ascii, key)| + 1;
    assert MemberText(ascii, (key, ev))[n..] == ev;
    assert MemberText(ascii, (key, ew))[n..] == ew;
  }

  /** Replacing one member's value by one that encodes differently changes
      the object's encoding: the canonical text commits to every value. */
  lemma EncodeMemberChange(ascii: bool, ms: seq<Member>, k: nat, v: Json, w: Json)
    requires UniqueKeys(ms) && k < |ms|
    requires Encode(ascii, v) != Encode(ascii, w)
    ensures Encode(ascii, Obj(ms[k := Member(ms[k].key, v)]))
         != Encode(ascii, Obj(ms[k := Member(ms[k].key, w)]))
  {
    var s, t := ms[k := Member(ms[k].key, v)], ms[k := Member(ms[k].key, w)];
    var q := SortedPairsChange(ascii, ms, k, v, w);
    var a, b := MemberTexts(ascii, SortedPairs(ascii, s)), MemberTexts(ascii, SortedPairs(ascii, t));
    MemberTextDiffers(ascii, ms[k].key, Encode(ascii, v), Encode(ascii, w));
    JoinOneDifference(a, b, q, ",");
    EncodeObj(ascii, s);
    EncodeObj(ascii, t);
    assert ("{" + Join(a, ",") + "}")[1..|Join(a, ",")| + 1] == Join(a, ",");
    assert ("{" + Join(b, ",") + "}")[1..|Join(b, ",")| + 1] == Join(b, ",");
  }

  // ---------------------------------------------------------------------
  // Which characters the encoding can contain
  // ---------------------------------------------------------------------

  /** `c` occurs in some key or string value inside `j`. */
  ghost predicate CharIn(j: Json, c: char)
    decreases j
  {
    match j
    case Str(s) => c in s
    case Arr(items) => exists k | 0 <= k < |items| :: CharIn(items[k], c)
    case Obj(ms) => exists k | 0 <= k < |ms| :: c in ms[k].key || CharIn(ms[k].value, c)
    case _ => false
  }

  /** The characters the encoder writes outside string literals. */
  predicate StructuralChar(c: char) {
    c == '{' || c == '}' || c == '[' || c == ']' || c == ':' || c == ',' || c == '"' || c == '-'
    || '0' <= c <= '9' || 'a' <= c <= 'z'
  }

  lemma {:induction false} EscapeChars(ascii: bool, s: string, P: char -> bool)
    requires forall i :: 0 <= i < |s| ==> AllChars(EscChar(ascii, s[i]), P)
    ensures AllChars(Escape(ascii, s), P)
    decreases |s|
  {
    if |s| > 0 {
      EscapeChars(ascii, s[1..], P);
      AllCharsConcat(EscChar(ascii, s[0]), Escape(ascii, s[1..]), P);
    }
  }

  lemma QuoteChars(ascii: bool, s: string, P: char -> bool)
    requires P('"')
    requires forall i :: 0 <= i < |s| ==> AllChars(EscChar(ascii, s[i]), P)
    ensures AllChars(Quote(ascii, s), P)
  {
    EscapeChars(ascii, s, P);
    AllCharsConcat("\"", Escape(ascii, s), P);
    AllCharsConcat("\"" + Escape(ascii, s), "\"", P);
  }

  lemma ScalarChars(ascii: bool, j: Json, P: char -> bool)
    requires j.Null? || j.Bool? || j.Int?
    requires forall c :: StructuralChar(c) ==> P(c)
    ensures AllChars(Encode(ascii, j), P)
  {
    var r := Encode(ascii, j);
    forall k | 0 <= k < |r| ensures P(r[k]) {
      assert StructuralChar(r[k]);
    }
  }

  /** If `P` admits the structural characters and the escaped form of every
      character of every key and string in `j`, it admits the whole text. */
  lemma {:induction false} EncodeChars(ascii: bool, j: Json, P: char -> bool)
    requires forall c :: StructuralChar(c) ==> P(c)
    requires forall c :: CharIn(j, c) ==> AllChars(EscChar(ascii, c), P)
    ensures AllChars(Encode(ascii, j), P)
    decreases j, 1
  {
    match j
    case Str(s) =>
      forall i | 0 <= i < |s| ensures AllChars(EscChar(ascii, s[i]), P) {
        assert CharIn(j, s[i]);
      }
      assert StructuralChar('"');
      QuoteChars(ascii, s, P);
    case Arr(items) =>
      ArrChars(ascii, items, P);
    case Obj(ms) =>
      ObjChars(ascii, ms, P);
    case _ =>
      ScalarChars(ascii, j, P);
  }

  lemma {:induction false} ArrChars(ascii: bool, items: seq<Json>, P: char -> bool)
    requires forall c :: StructuralChar(c) ==> P(c)
    requires forall c :: CharIn(Arr(items), c) ==> AllChars(EscChar(ascii, c), P)
    ensures AllChars(Encode(ascii, Arr(items)), P)
    decreases Arr(items), 0
  {
    var parts := seq(|items|, k requires 0 <= k < |items| => Encode(ascii, items[k]));
    forall k | 0 <= k < |items| ensures AllChars(parts[k], P) {
      forall c | CharIn(items[k], c) ensures AllChars(EscChar(ascii, c), P) {
        assert CharIn(Arr(items), c);
      }
      EncodeChars(ascii, items[k], P);
    }
    assert StructuralChar(',') && StructuralChar('[') && StructuralChar(']');
    JoinAllChars(parts, ",", P);
    AllCharsConcat("[", Join(parts, ","), P);
    AllCharsConcat("[" + Join(parts, ","), "]", P);
  }

  lemma MemberChars(ascii: bool, m: Member, P: char -> bool)
    requires P('"') && P(':')
    requires forall i :: 0 <= i < |m.key| ==> AllChars(EscChar(ascii, m.key[i]), P)
    requires AllChars(Encode(ascii, m.value), P)
    ensures AllChars(MemberText(ascii, (m.key, Encode(ascii, m.value))), P)
  {
    QuoteChars(ascii, m.key, P);
    AllCharsConcat(Quote(ascii, m.key), ":", P);
    AllCharsConcat(Quote(ascii, m.key) + ":", Encode(ascii, m.value), P);
  }

  lemma {:induction false} ObjChars(ascii: bool, ms: seq<Member>, P: char -> bool)
    requires forall c :: StructuralChar(c) ==> P(c)
    requires forall c :: CharIn(Obj(ms), c) ==> AllChars(EscChar(ascii, c), P)
    ensures AllChars(Encode(ascii, Obj(ms)), P)
    decreases Obj(ms), 0
  {
    var ps := Pairs(ascii, ms);
    var sp := SortedPairs(ascii, ms);
    Sorting.SortPermutes(ps, PairKey, StrLt);
    var texts := MemberTexts(ascii, sp);
    assert StructuralChar('"') && StructuralChar(':');
    forall k | 0 <= k < |sp| ensures AllChars(texts[k], P) {
      assert sp[k] in multiset(ps) by {
        assert sp[k] in multiset(sp);
      }
      var m := Sorting.IndexOf(sp[k], ps);
      forall i | 0 <= i < |ms[m].key| ensures AllChars(EscChar(ascii, ms[m].key[i]), P) {
        assert CharIn(Obj(ms), ms[m].key[i]);
      }
      forall c | CharIn(ms[m].value, c) ensures AllChars(EscChar(ascii, c), P) {
        assert CharIn(Obj(ms), c);
      }
      EncodeChars(ascii, ms[m].value, P);
      MemberChars(ascii, ms[m], P);
    }
    assert StructuralChar(',') && StructuralChar('{') && StructuralChar('}');
    JoinAllChars(texts, ",", P);
    AllCharsConcat("{", Join(texts, ","), P);
    AllCharsConcat("{" + Join(texts, ","), "}", P);
    EncodeObj(ascii, ms);
  }

  predicate NotSpace(c: char) {
    !IsSpace(c)
  }

  predicate IsAscii(c: char) {
    c as int < 0x80
  }

  predicate NotControl(c: char) {
    c >= ' '
  }

  /** The characters escapes are made of. */
  predicate EscapeAlphabet(c: char) {
    c == '\\' || c == '"' || '0' <= c <= '9' || 'a' <= c <= 'z'
  }

  lemma {:induction false} HexDigitsAlphabet(n: nat, w: nat)
    ensures AllChars(HexDigits(n, w), EscapeAlphabet)
    decreases w
  {
    if w > 0 {
      HexDigitsAlphabet(n / 16, w - 1);
      AllCharsConcat(HexDigits(n / 16, w - 1), [HexDigit(n % 16)], EscapeAlphabet);
    }
  }

  lemma UEscapeAlphabet(n: nat)
    requires n < 0x10000
    ensures AllChars(UEscape(n), EscapeAlphabet)
  {
    HexDigitsAlphabet(n, 4);
    AllCharsConcat(['\\', 'u'], Hex4(n), EscapeAlphabet);
  }

  lemma PairEscapeAlphabet(v: nat)
    requires v < 0x100000
    ensures AllChars(PairEscape(v), EscapeAlphabet)
  {
    var hi, lo := SurrogateHalves(v);
    UEscapeAlphabet(hi);
    UEscapeAlphabet(lo);
    AllCharsConcat(UEscape(hi), UEscape(lo), EscapeAlphabet);
  }

  lemma ShortEscapeAlphabet(ascii: bool, c: char)
    requires ShortEscaped(c)
    ensures AllChars(EscChar(ascii, c), EscapeAlphabet)
  {
  }

  lemma UEscapedAlphabet(ascii: bool, c: char)
    requires !ShortEscaped(c)
    requires c < ' ' || (ascii && 0x7E < c as int < 0x10000)
    ensures AllChars(EscChar(ascii, c), EscapeAlphabet)
  {
    assert EscChar(ascii, c) == UEscape(c as int);
    UEscapeAlphabet(c as int);
  }

  lemma PairEscapedAlphabet(ascii: bool, c: char)
    requires ascii && c as int >= 0x10000
    ensures AllChars(EscChar(ascii, c), EscapeAlphabet)
  {
    EscCharAstral(ascii, c);
    var e, p := EscChar(ascii, c), PairEscape(c as int - 0x10000);
    PairEscapeAlphabet(c as int - 0x10000);
    assert AllChars(p, EscapeAlphabet);
  }

  /** A character is written either as itself or as an escape made of
      backslash, letters and digits; as itself only when it is printable
      and, with `ensure_ascii`, ASCII. */
  lemma EscCharClass(ascii: bool, c: char)
    ensures EscChar(ascii, c) == [c] || AllChars(EscChar(ascii, c), EscapeAlphabet)
    ensures EscChar(ascii, c) == [c] ==> c >= ' ' && (ascii ==> c as int <= 0x7E)
  {
    if ShortEscaped(c) {
      ShortEscapeAlphabet(ascii, c);
    } else if c < ' ' || (ascii && 0x7E < c as int < 0x10000) {
      UEscapedAlphabet(ascii, c);
    } else if ascii && c as int > 0x7E {
      PairEscapedAlphabet(ascii, c);
    }
  }

  /** Separators carry no whitespace: when no key or string holds whitespace,
      neither does the encoding. */
  lemma EncodeNoWhitespace(ascii: bool, j: Json)
    requires forall c :: CharIn(j, c) ==> !IsSpace(c)
    ensures AllChars(Encode(ascii, j), NotSpace)
  {
    forall c | CharIn(j, c) ensures AllChars(EscChar(ascii, c), NotSpace) {
      EscCharClass(ascii, c);
    }
    EncodeChars(ascii, j, NotSpace);
  }

  /** No control character is ever written raw. */
  lemma EncodeNoControl(ascii: bool, j: Json)
    ensures AllChars(Encode(ascii, j), NotControl)
  {
    forall c | CharIn(j, c) ensures AllChars(EscChar(ascii, c), NotControl) {
      EscCharClass(ascii, c);
    }
    EncodeChars(ascii, j, NotControl);
  }

  /** With `ensure_ascii` on, the encoding is pure ASCII. */
  lemma EncodeAsciiOnly(j: Json)
    ensures AllChars(Encode(true, j), IsAscii)
  {
    forall c | CharIn(j, c) ensures AllChars(EscChar(true, c), IsAscii) {
      EscCharClass(true, c);
    }
    EncodeChars(true, j, IsAscii);
  }

  /** With `ensure_ascii` off, a string needing no JSON escape is written
      exactly as it is: non-ASCII characters go out raw, not as `\u` escapes. */
  lemma {:induction false} EscapeRaw(s: string)
    requires forall i :: 0 <= i < |s| ==> !ShortEscaped(s[i]) && s[i] >= ' '
    ensures Escape(false, s) == s
    decreases |s|
  {
    if |s| > 0 {
      EscapeRaw(s[1..]);
      assert s == [s[0]] + s[1..];
    }
  }

  lemma {:induction false} EscapeKeepsNonAscii(s: string, c: char)
    requires c in s && c as int > 0x7E
    ensures c in Escape(false, s)
    decreases |s|
  {
    if s[0] != c {
      EscapeKeepsNonAscii(s[1..], c);
    }
  }

  /** A character of one part is a character of the joined text. */
  lemma {:induction false} JoinHas(parts: seq<string>, sep: string, k: nat, c: char)
    requires k < |parts| && c in parts[k]
    ensures c in Join(parts, sep)
    decreases |parts|
  {
    if |parts| > 1 {
      var rest := Join(parts[1..], sep);
      assert Join(parts, sep) == parts[0] + (sep + rest);
      if k > 0 {
        JoinHas(parts[1..], sep, k - 1, c);
      }
    }
  }

  /** With `ensure_ascii=False`, a character beyond ASCII in any key or
      string of `j` is written as itself somewhere in the text. */
  lemma {:induction false} EncodeKeepsNonAscii(j: Json, c: char)
    requires CharIn(j, c) && c as int > 0x7E
    ensures c in Encode(false, j)
    decreases j, 1
  {
    match j
    case Str(s) =>
      EscapeKeepsNonAscii(s, c);
      assert Encode(false, j) == "\"" + (Escape(false, s) + "\"");
    case Arr(items) =>
      var k :| 0 <= k < |items| && CharIn(items[k], c);
      EncodeKeepsNonAscii(items[k], c);
      var parts := seq(|items|, m requires 0 <= m < |items| => Encode(false, items[m]));
      JoinHas(parts, ",", k, c);
      assert Encode(false, j) == "[" + (Join(parts, ",") + "]");
    case Obj(ms) =>
      ObjKeepsNonAscii(ms, c);
  }

  lemma {:induction false} ObjKeepsNonAscii(ms: seq<Member>, c: char)
    requires CharIn(Obj(ms), c) && c as int > 0x7E
    ensures c in Encode(false, Obj(ms))
    decreases Obj(ms), 0
  {
    var k :| 0 <= k < |ms| && (c in ms[k].key || CharIn(ms[k].value, c));
    var q, v := Quote(false, ms[k].key), Encode(false, ms[k].value);
    if c in ms[k].key {
      EscapeKeepsNonAscii(ms[k].key, c);
      assert q == "\"" + (Escape(false, ms[k].key) + "\"");
    } else {
      EncodeKeepsNonAscii(ms[k].value, c);
    }
    MemberHas(ms, k, c);
  }

  /** A character of one member's text is a character of the object's text. */
  lemma MemberHas(ms: seq<Member>, k: nat, c: char)
    requires k < |ms|
    requires c in Quote(false, ms[k].key) || c in Encode(false, ms[k].value)
    ensures c in Encode(false, Obj(ms))
  {
    var m := SortedIndex(ms, k);
    var texts := MemberTexts(false, SortedPairs(false, ms));
    assert c in texts[m] by {
      MemberTextHas(ms[k].key, Encode(false, ms[k].value), c);
    }
    JoinHas(texts, ",", m, c);
    ObjTextHas(ms, c);
  }

  /** A character of a key or of a value text is a character of the
      member's text. */
  lemma MemberTextHas(key: string, text: string, c: char)
    requires c in Quote(false, key) || c in text
    ensures c in MemberText(false, (key, text))
  {
    assert MemberText(false, (key, text)) == Quote(false, key) + (":" + text);
  }

  /** Where the `k`-th member is written once the members are sorted. */
  lemma SortedIndex(ms: seq<Member>, k: nat) returns (m: nat)
    requires k < |ms|
    ensures m < |SortedPairs(false, ms)|
    ensures SortedPairs(false, ms)[m] == (ms[k].key, Encode(false, ms[k].value))
  {
    var ps, sp := Pairs(false, ms), SortedPairs(false, ms);
    Sorting.SortPermutes(ps, PairKey, StrLt);
    assert ps[k] in multiset(sp) by {
      assert ps[k] in multiset(ps);
    }
    m := Sorting.IndexOf(ps[k], sp);
  }

  lemma ObjTextHas(ms: seq<Member>, c: char)
    requires c in Join(MemberTexts(false, SortedPairs(false, ms)), ",")
    ensures c in Encode(false, Obj(ms))
  {
    var t := Join(MemberTexts(false, SortedPairs(false, ms)), ",");
    EncodeObj(false, ms);
    assert Encode(false, Obj(ms)) == "{" + (t + "}");
  }

  /** The two settings of `ensure_ascii` disagree on every string holding a
      character beyond ASCII. */
  lemma AsciiModesDiffer(s: string, c: char)
    requires c in s && c as int >= 0x80
    ensures Encode(true, Str(s)) != Encode(false, Str(s))
  {
    EscapeKeepsNonAscii(s, c);
    EncodeAsciiOnly(Str(s));
    var e := Escape(false, s);
    var i :| 0 <= i < |e| && e[i] == c;
    var q := Encode(false, Str(s));
    assert q == "\"" + e + "\"";
    assert q[i + 1] == c && !IsAscii(q[i + 1]);
  }
}

=== FILE: orchestrator.dfy ===
/** `orchestrator.py`: the plan of actions a run proposes, and the
    dict-based deduplication of scan findings. The console, prompts, audit
    writes and tool execution around them are not modelled. */
module Orchestrator {
  import opened Wrappers
  import opened Text
  import opened Policy
  import opened Findings
  import opened Dedupe
  import ParseCommon
  import Cli
  import Safety

  // ---------------------------------------------------------------------
  // _build_plan
  // ---------------------------------------------------------------------

  const HumanReview: Action := Action(
    "HumanReviewPolicy", "Human reviews normalized policy and constraints.", "planning", false, "", map[])

  const ConfirmScope: Action := Action(
    "ConfirmScope", "Confirm scope before any passive actions (RBAC gated).", "planning", false, "", map[])

  const GenerateReport: Action := Action(
    "GenerateReport", "Generate compliance report artifacts.", "reporting", false, "", map[])

  function DnsAction(target: string): Action {
    Action("PassiveDNSResolve", "Resolve A/AAAA records (passive).", "passive_intel", true, target,
           map["tool" := "resolve_a_records"])
  }

  function WhoisAction(target: string): Action {
    Action("PassiveWHOIS", "WHOIS lookup (passive).", "passive_intel", true, target, map["tool" := "whois"])
  }

  /** How many in-scope entries the plan looks at. */
  const MaxPlannedTargets: nat := 10

  /** Only domain entries get passive steps. */
  predicate Eligible(st: ScopeTarget) {
    st.kind in {"domain", "wildcard_domain"}
  }

  /** `st.value.replace("*.", "")` */
  function PlanTarget(st: ScopeTarget): string {
    RemoveAll(st.value, "*.")
  }

  /** The targets of the eligible entries, in order. */
  function Targets(entries: seq<ScopeTarget>): (ts: seq<string>)
    ensures |ts| <= |entries|
    decreases |entries|
  {
    if |entries| == 0 then []
    else if Eligible(entries[0]) then [PlanTarget(entries[0])] + Targets(entries[1..])
    else Targets(entries[1..])
  }

  /** A DNS step then a WHOIS step for each target. */
  function Pairs(ts: seq<string>): seq<Action>
    decreases |ts|
  {
    if |ts| == 0 then [] else [DnsAction(ts[0]), WhoisAction(ts[0])] + Pairs(ts[1..])
  }

  /** The loop over the entries: the passive steps of the eligible ones. */
  function PassiveSteps(entries: seq<ScopeTarget>): seq<Action> {
    Pairs(Targets(entries))
  }

  /** `_build_plan()` on the current plan and policy. */
  function BuildPlan(plan: seq<Action>, policy: Option<NormalizedPolicy>): (r: seq<Action>)
    ensures |r| >= |plan| + 3 && r[..|plan|] == plan
    ensures r[|plan|] == HumanReview && r[|plan| + 1] == ConfirmScope && r[|r| - 1] == GenerateReport
    ensures policy.None? ==> |r| == |plan| + 3
    ensures policy.Some? ==>
      r[|plan| + 2..|r| - 1] == PassiveSteps(ParseCommon.TakePrefix(policy.value.inScope, MaxPlannedTargets))
  {
    var passive := match policy
      case None => []
      case Some(p) => PassiveSteps(ParseCommon.TakePrefix(p.inScope, MaxPlannedTargets));
    var r := plan + [HumanReview, ConfirmScope] + passive + [GenerateReport];
    assert r[|plan| + 2..|r| - 1] == passive;
    r
  }

  /** A target is planned exactly when some eligible entry gives it. */
  lemma {:induction false} TargetsMembers(entries: seq<ScopeTarget>, t: string)
    ensures t in Targets(entries) <==> exists i | 0 <= i < |entries| :: Eligible(entries[i]) && t == PlanTarget(entries[i])
    decreases |entries|
  {
    if |entries| > 0 {
      var tail := entries[1..];
      TargetsMembers(tail, t);
      if exists i | 0 <= i < |entries| :: Eligible(entries[i]) && t == PlanTarget(entries[i]) {
        var i :| 0 <= i < |entries| && Eligible(entries[i]) && t == PlanTarget(entries[i]);
        if i > 0 {
          assert tail[i - 1] == entries[i];
        }
      }
      if t in Targets(tail) {
        var i :| 0 <= i < |tail| && Eligible(tail[i]) && t == PlanTarget(tail[i]);
        assert tail[i] == entries[i + 1];
      }
    }
  }

  /** The steps come in pairs: a DNS step then a WHOIS step on the same
      target, one pair per target, in order. */
  lemma {:induction false} PairsShape(ts: seq<string>)
    ensures |Pairs(ts)| == 2 * |ts|
    ensures forall k | 0 <= k < |ts| ::
      Pairs(ts)[2 * k] == DnsAction(ts[k]) && Pairs(ts)[2 * k + 1] == WhoisAction(ts[k])
    decreases |ts|
  {
    if |ts| > 0 {
      var r, rest := Pairs(ts), Pairs(ts[1..]);
      PairsShape(ts[1..]);
      forall k | 1 <= k < |ts|
        ensures r[2 * k] == DnsAction(ts[k]) && r[2 * k + 1] == WhoisAction(ts[k])
      {
        assert r[2 * k] == rest[2 * (k - 1)];
        assert r[2 * k + 1] == rest[2 * (k - 1) + 1];
        assert ts[1..][k - 1] == ts[k];
      }
    }
  }

  /** Every step is a DNS or a WHOIS step. */
  lemma {:induction false} PairsElement(ts: seq<string>, m: nat) returns (t: string)
    requires m < |Pairs(ts)|
    ensures Pairs(ts)[m] == DnsAction(t) || Pairs(ts)[m] == WhoisAction(t)
    decreases |ts|
  {
    if m < 2 {
      t := ts[0];
    } else {
      t := PairsElement(ts[1..], m - 2);
    }
  }

  /** Every passive step of a plan asks for approval and names a tool the
      guard's whitelist holds. */
  lemma PlanToolsWhitelisted(plan: seq<Action>, policy: Option<NormalizedPolicy>, k: nat)
    requires |plan| <= k < |BuildPlan(plan, policy)|
    requires BuildPlan(plan, policy)[k].category == "passive_intel"
    ensures BuildPlan(plan, policy)[k].requiresApproval
    ensures Safety.ToolOf(BuildPlan(plan, policy)[k]) in Safety.PassiveToolWhitelist
  {
    var t := PassiveStepAt(plan, policy, k);
    StepToolsWhitelisted(t);
  }

  /** A step of the plan in the passive category is one of the planned
      DNS or WHOIS steps. */
  lemma PassiveStepAt(plan: seq<Action>, policy: Option<NormalizedPolicy>, k: nat) returns (t: string)
    requires |plan| <= k < |BuildPlan(plan, policy)|
    requires BuildPlan(plan, policy)[k].category == "passive_intel"
    ensures BuildPlan(plan, policy)[k] == DnsAction(t) || BuildPlan(plan, policy)[k] == WhoisAction(t)
  {
    var r := BuildPlan(plan, policy);
    assert policy.Some? && |plan| + 2 <= k < |r| - 1 by {
      if policy.None? {
        assert false;
      }
    }
    var ts := Targets(ParseCommon.TakePrefix(policy.value.inScope, MaxPlannedTargets));
    var m := k - |plan| - 2;
    assert r[k] == r[|plan| + 2..|r| - 1][m];
    t := PairsElement(ts, m);
  }

  /** The DNS and WHOIS steps ask for approval and name whitelisted tools. */
  lemma StepToolsWhitelisted(t: string)
    ensures DnsAction(t).requiresApproval && WhoisAction(t).requiresApproval
    ensures Safety.ToolOf(DnsAction(t)) in Safety.PassiveToolWhitelist
    ensures Safety.ToolOf(WhoisAction(t)) in Safety.PassiveToolWhitelist
  {
    DnsToolWhitelisted(t);
    WhoisToolWhitelisted(t);
  }

  lemma DnsToolWhitelisted(t: string)
    ensures Safety.ToolOf(DnsAction(t)) == "resolve_a_records"
  {
    ToolNamed(DnsAction(t), "resolve_a_records");
  }

  lemma WhoisToolWhitelisted(t: string)
    ensures Safety.ToolOf(WhoisAction(t)) == "whois"
  {
    ToolNamed(WhoisAction(t), "whois");
  }

  /** A step whose `tool` entry has no surrounding whitespace names that tool. */
  lemma ToolNamed(a: Action, tool: string)
    requires "tool" in a.metadata && a.metadata["tool"] == tool
    requires |tool| > 0 && !IsSpace(tool[0]) && !IsSpace(tool[|tool| - 1])
    ensures Safety.ToolOf(a) == tool
  {
    StripIdentity(tool);
  }

  /** With a human-confirmed policy, the guard lets a planned passive step
      through exactly when its target is in scope. */
  lemma PlannedStepGate(plan: seq<Action>, p: NormalizedPolicy, k: nat)
    requires !p.requiresHumanScopeConfirmation
    requires |plan| <= k < |BuildPlan(plan, Some(p))|
    requires BuildPlan(plan, Some(p))[k].category == "passive_intel"
    ensures var a := BuildPlan(plan, Some(p))[k];
      Safety.CheckAction(Some(p), a).allowed <==> a.target == "" || Safety.IsInScope(Some(p), a.target)
  {
    PlanToolsWhitelisted(plan, Some(p), k);
  }

  /** At most ten entries are looked at, so at most twenty passive steps
      are planned. */
  lemma PlanBounded(plan: seq<Action>, policy: Option<NormalizedPolicy>)
    ensures |BuildPlan(plan, policy)| <= |plan| + 3 + 2 * MaxPlannedTargets
  {
    if policy.Some? {
      PairsShape(Targets(ParseCommon.TakePrefix(policy.value.inScope, MaxPlannedTargets)));
    }
  }

  // ---------------------------------------------------------------------
  // deduplicate_findings
  // ---------------------------------------------------------------------

  /** The `seen` dict, as its entries in insertion order. */
  type SeenDict = seq<(FindingKey, Finding)>

  function DictKeys(d: SeenDict): set<FindingKey> {
    set i | 0 <= i < |d| :: d[i].0
  }

  /** `list(seen.values())` */
  function Values(d: SeenDict): (r: seq<Finding>)
    ensures |r| == |d| && forall i | 0 <= i < |d| :: r[i] == d[i].1
  {
    seq(|d|, i requires 0 <= i < |d| => d[i].1)
  }

  /** The loop: a key not yet in the dict is inserted with its finding. */
  function Seen(fs: seq<Finding>): SeenDict
    decreases |fs|
  {
    if |fs| == 0 then []
    else
      var d := Seen(fs[..|fs| - 1]);
      var f := fs[|fs| - 1];
      if KeyOf(f) in DictKeys(d) then d else d + [(KeyOf(f), f)]
  }

  /** The dict holds each kept finding under its own key, and its values
      are what the set-based loop of the command line keeps. */
  lemma {:induction false} SeenIsDedupe(fs: seq<Finding>)
    ensures var d := Seen(fs);
      && (forall i | 0 <= i < |d| :: d[i].0 == KeyOf(d[i].1))
      && Values(d) == DedupeBy(fs, KeyOf)
      && DictKeys(d) == Keys(DedupeBy(fs, KeyOf), KeyOf)
    decreases |fs|
  {
    if |fs| > 0 {
      var n := |fs| - 1;
      var d := Seen(fs[..n]);
      var f := fs[n];
      SeenIsDedupe(fs[..n]);
      var out := DedupeBy(fs[..n], KeyOf);
      assert fs[..|fs| - 1] == fs[..n];
      if KeyOf(f) !in DictKeys(d) {
        KeysSnoc(out, f, KeyOf);
        DictSnoc(d, KeyOf(f), f);
      }
    }
  }

  /** Inserting a new key adds it to the keys and its value at the end. */
  lemma DictSnoc(d: SeenDict, k: FindingKey, f: Finding)
    ensures DictKeys(d + [(k, f)]) == DictKeys(d) + {k}
    ensures Values(d + [(k, f)]) == Values(d) + [f]
  {
    var d' := d + [(k, f)];
    assert forall i | 0 <= i < |d| :: d'[i] == d[i];
    assert d'[|d|] == (k, f);
  }

  /** `deduplicate_findings(findings)`: the first finding of each key, in
      the order the keys first appear. */
  function DeduplicateFindings(fs: seq<Finding>): (r: seq<Finding>)
    ensures forall a, b | 0 <= a < b < |r| :: KeyOf(r[a]) != KeyOf(r[b])
    ensures var idx := FirstPositions(fs, KeyOf);
      |r| == |idx| && forall k | 0 <= k < |r| :: r[k] == fs[idx[k]]
  {
    SeenIsDedupe(fs);
    DedupeSpec(fs, KeyOf);
    DedupeIsFirsts(fs, KeyOf);
    Values(Seen(fs))
  }

  /** The dict-based and the set-based deduplication keep the same findings. */
  lemma DeduplicateAgrees(fs: seq<Finding>)
    ensures DeduplicateFindings(fs) == Cli.DedupeFindings(fs)
  {
    SeenIsDedupe(fs);
  }
}

=== FILE: overrides.dfy ===
/** `overrides.py`: hand-written corrections merged into a normalised
    policy. An override applies when its stripped `match.program_url` is
    the policy's URL; it may add human notes and scope entries, and every
    applied override leaves a note saying so. Afterwards both scope lists
    are deduplicated by kind and lower-cased value, keeping the first entry.

    An override is taken after its JSON has been read: the URL already
    turned into text by `str(...)`, the notes list with each element either
    a string or something else, and each entry to add either well formed
    or one that `ScopeTarget(**item)` refuses. */
module Overrides {
  import opened Wrappers
  import opened Text
  import opened Json
  import opened Policy
  import opened Dedupe

  const AppliedNote: string := "Overrides applied from policy_overrides.json."

  /** One element of `in_scope_add` or `out_of_scope_add`. */
  datatype AddItem = Malformed | Item(value: string, kind: string, source: string)

  /** One element of `overrides`. A `human_notes` that is not a list is an
      empty `notes`; `None` stands for a note that is not a string. */
  datatype Override = Override(
    matchUrl: string,
    notes: seq<Option<string>>,
    inScopeAdd: seq<AddItem>,
    outOfScopeAdd: seq<AddItem>)

  /** The dedupe key `(t.type, (t.value or "").lower())`. */
  function TargetKey(t: ScopeTarget): (string, string) {
    (t.kind, Lower(t.value))
  }

  /** Whether override `ov` is meant for `pol`. */
  predicate Matches(pol: NormalizedPolicy, ov: Override) {
    Strip(ov.matchUrl) == pol.programUrl
  }

  /** The note loop: each string not yet in the growing list is appended. */
  function MergeNotes(notes: seq<string>, xs: seq<Option<string>>): (r: seq<string>)
    ensures |r| >= |notes| && r[..|notes|] == notes
    ensures forall i | 0 <= i < |xs| && xs[i].Some? :: xs[i].value in r
    ensures forall k | |notes| <= k < |r| :: Some(r[k]) in xs && r[k] !in notes
    ensures forall a, b | |notes| <= a < b < |r| :: r[a] != r[b]
    decreases |xs|
  {
    if |xs| == 0 then notes
    else
      var next := if xs[0].Some? && xs[0].value !in notes then notes + [xs[0].value] else notes;
      var r := MergeNotes(next, xs[1..]);
      assert r[..|notes|] == next[..|notes|] == notes;
      assert xs[0].Some? ==> xs[0].value in next;
      assert forall k | |next| <= k < |r| :: Some(r[k]) in xs by {
        assert forall k | |next| <= k < |r| :: Some(r[k]) in xs[1..];
      }
      r
  }

  /** Notes already present are not repeated, so merging the same notes a
      second time adds nothing. */
  lemma {:induction false} MergeNotesAgain(notes: seq<string>, xs: seq<Option<string>>)
    requires forall i | 0 <= i < |xs| && xs[i].Some? :: xs[i].value in notes
    ensures MergeNotes(notes, xs) == notes
    decreases |xs|
  {
    if |xs| > 0 {
      MergeNotesAgain(notes, xs[1..]);
    }
  }

  /** `ScopeTarget(**item)` with the source defaulted: `None` for an item
      the constructor refuses. */
  function Admit(it: AddItem): (r: Option<ScopeTarget>)
    ensures r.Some? <==> it.Item?
    ensures r.Some? ==> r.value.value == it.value && r.value.kind == it.kind
    ensures r.Some? ==> r.value.source != "" && (it.source != "" ==> r.value.source == it.source)
  {
    match it
    case Malformed => None
    case Item(v, k, s) => Some(ScopeTarget(v, k, if s == "" then "override" else s))
  }

  /** The items an add list contributes, in order: the admitted ones. */
  function Admitted(items: seq<AddItem>): (r: seq<ScopeTarget>)
    ensures |r| <= |items|
    ensures forall i | 0 <= i < |items| && items[i].Item? :: Admit(items[i]).value in r
    ensures forall t | t in r :: exists i | 0 <= i < |items| :: Admit(items[i]) == Some(t)
    decreases |items|
  {
    if |items| == 0 then []
    else
      var rest := Admitted(items[1..]);
      assert forall i | 1 <= i < |items| :: items[i] == items[1..][i - 1];
      var r := match Admit(items[0]) case None => rest case Some(t) => [t] + rest;
      assert forall t | t in rest :: exists i | 0 <= i < |items| :: Admit(items[i]) == Some(t) by {
        forall t | t in rest ensures exists i | 0 <= i < |items| :: Admit(items[i]) == Some(t) {
          var i :| 0 <= i < |items| - 1 && Admit(items[1..][i]) == Some(t);
          assert Admit(items[i + 1]) == Some(t);
        }
      }
      r
  }

  /** The add loop: the admitted items appended in order, the malformed
      ones skipped. */
  function AddTargets(list: seq<ScopeTarget>, items: seq<AddItem>): seq<ScopeTarget> {
    list + Admitted(items)
  }

  /** What a policy holds besides its notes and scope lists. */
  function Settings(p: NormalizedPolicy): NormalizedPolicy {
    p.(humanNotes := [], inScope := [], outOfScope := [])
  }

  /** One pass of the override loop. */
  function ApplyOne(pol: NormalizedPolicy, ov: Override): (p: NormalizedPolicy)
    ensures !Matches(pol, ov) ==> p == pol
    ensures Matches(pol, ov) ==>
      && Settings(p) == Settings(pol)
      && |p.humanNotes| > 0 && p.humanNotes[|p.humanNotes| - 1] == AppliedNote
      && p.humanNotes[..|p.humanNotes| - 1] == MergeNotes(pol.humanNotes, ov.notes)
      && p.inScope == pol.inScope + Admitted(ov.inScopeAdd)
      && p.outOfScope == pol.outOfScope + Admitted(ov.outOfScopeAdd)
  {
    if !Matches(pol, ov) then pol
    else
      var notes := MergeNotes(pol.humanNotes, ov.notes);
      pol.(humanNotes := notes + [AppliedNote],
           inScope := AddTargets(pol.inScope, ov.inScopeAdd),
           outOfScope := AddTargets(pol.outOfScope, ov.outOfScopeAdd))
  }

  /** The override loop, in file order. */
  function ApplyAll(pol: NormalizedPolicy, ovs: seq<Override>): NormalizedPolicy
    decreases |ovs|
  {
    if |ovs| == 0 then pol else ApplyAll(ApplyOne(pol, ovs[0]), ovs[1..])
  }

  /** `apply_overrides(pol, overrides)`: the loop, then the two scope lists
      deduplicated. */
  function ApplyOverrides(pol: NormalizedPolicy, ovs: seq<Override>): (p: NormalizedPolicy)
    ensures forall a, b | 0 <= a < b < |p.inScope| :: TargetKey(p.inScope[a]) != TargetKey(p.inScope[b])
    ensures forall a, b | 0 <= a < b < |p.outOfScope| :: TargetKey(p.outOfScope[a]) != TargetKey(p.outOfScope[b])
    ensures Keys(p.inScope, TargetKey) == Keys(ApplyAll(pol, ovs).inScope, TargetKey)
    ensures Keys(p.outOfScope, TargetKey) == Keys(ApplyAll(pol, ovs).outOfScope, TargetKey)
  {
    var q := ApplyAll(pol, ovs);
    DedupeSpec(q.inScope, TargetKey);
    DedupeSpec(q.outOfScope, TargetKey);
    q.(inScope := DedupeBy(q.inScope, TargetKey), outOfScope := DedupeBy(q.outOfScope, TargetKey))
  }

  /** Deduplication keeps, in their original order, exactly the entries
      that are the first of their key in the merged lists. */
  lemma ApplyOverridesKeepsFirsts(pol: NormalizedPolicy, ovs: seq<Override>)
    ensures var q, p := ApplyAll(pol, ovs), ApplyOverrides(pol, ovs);
      && var ins, outs := FirstPositions(q.inScope, TargetKey), FirstPositions(q.outOfScope, TargetKey);
      && |p.inScope| == |ins| && (forall k | 0 <= k < |ins| :: p.inScope[k] == q.inScope[ins[k]])
      && |p.outOfScope| == |outs| && (forall k | 0 <= k < |outs| :: p.outOfScope[k] == q.outOfScope[outs[k]])
  {
    var q := ApplyAll(pol, ovs);
    DedupeIsFirsts(q.inScope, TargetKey);
    DedupeIsFirsts(q.outOfScope, TargetKey);
  }

  /** Overrides for other programs are ignored entirely. */
  lemma {:induction false} OthersIgnored(pol: NormalizedPolicy, ovs: seq<Override>)
    requires forall i | 0 <= i < |ovs| :: !Matches(pol, ovs[i])
    ensures ApplyAll(pol, ovs) == pol
    decreases |ovs|
  {
    if |ovs| > 0 {
      OthersIgnored(pol, ovs[1..]);
    }
  }

  /** With no override matching, the policy comes back with only its scope
      lists deduplicated, each keeping the first entry of every key in
      order. */
  lemma NoMatchOnlyDedupes(pol: NormalizedPolicy, ovs: seq<Override>)
    requires forall i | 0 <= i < |ovs| :: !Matches(pol, ovs[i])
    ensures ApplyOverrides(pol, ovs)
      == pol.(inScope := DedupeBy(pol.inScope, TargetKey), outOfScope := DedupeBy(pol.outOfScope, TargetKey))
  {
    OthersIgnored(pol, ovs);
  }

  /** A prefix of a prefix. */
  lemma PrefixOfPrefix<T>(a: seq<T>, b: seq<T>, c: seq<T>)
    requires |a| <= |b| <= |c| && c[..|b|] == b && b[..|a|] == a
    ensures c[..|a|] == a
  {
    assert c[..|a|] == c[..|b|][..|a|];
  }

  /** The loop touches only the notes and the two scope lists. */
  lemma {:induction false} ApplyAllKeepsOthers(pol: NormalizedPolicy, ovs: seq<Override>)
    ensures Settings(ApplyAll(pol, ovs)) == Settings(pol)
    decreases |ovs|
  {
    if |ovs| > 0 {
      var p1 := ApplyOne(pol, ovs[0]);
      assert Settings(p1) == Settings(pol);
      ApplyAllKeepsOthers(p1, ovs[1..]);
    }
  }

  /** The loop only appends: what the policy held before is still at the
      front of the notes and of both scope lists. */
  lemma {:induction false} ApplyAllExtends(pol: NormalizedPolicy, ovs: seq<Override>)
    ensures var q := ApplyAll(pol, ovs);
      && |q.humanNotes| >= |pol.humanNotes| && q.humanNotes[..|pol.humanNotes|] == pol.humanNotes
      && |q.inScope| >= |pol.inScope| && q.inScope[..|pol.inScope|] == pol.inScope
      && |q.outOfScope| >= |pol.outOfScope| && q.outOfScope[..|pol.outOfScope|] == pol.outOfScope
    decreases |ovs|
  {
    if |ovs| > 0 {
      var p1 := ApplyOne(pol, ovs[0]);
      ApplyOneExtends(pol, ovs[0]);
      ApplyAllExtends(p1, ovs[1..]);
      var q := ApplyAll(p1, ovs[1..]);
      PrefixOfPrefix(pol.humanNotes, p1.humanNotes, q.humanNotes);
      PrefixOfPrefix(pol.inScope, p1.inScope, q.inScope);
      PrefixOfPrefix(pol.outOfScope, p1.outOfScope, q.outOfScope);
    }
  }

  /** One pass only appends. */
  lemma ApplyOneExtends(pol: NormalizedPolicy, ov: Override)
    ensures var p := ApplyOne(pol, ov);
      && |p.humanNotes| >= |pol.humanNotes| && p.humanNotes[..|pol.humanNotes|] == pol.humanNotes
      && |p.inScope| >= |pol.inScope| && p.inScope[..|pol.inScope|] == pol.inScope
      && |p.outOfScope| >= |pol.outOfScope| && p.outOfScope[..|pol.outOfScope|] == pol.outOfScope
  {
    NotesExtend(pol, ov);
    InScopeExtends(pol, ov);
    OutOfScopeExtends(pol, ov);
  }

  lemma NotesExtend(pol: NormalizedPolicy, ov: Override)
    ensures var p := ApplyOne(pol, ov);
      |p.humanNotes| >= |pol.humanNotes| && p.humanNotes[..|pol.humanNotes|] == pol.humanNotes
  {
    if Matches(pol, ov) {
      var n := ApplyOne(pol, ov).humanNotes;
      var m := MergeNotes(pol.humanNotes, ov.notes);
      assert n[..|n| - 1] == m;
      PrefixOfPrefix(pol.humanNotes, m, n);
    }
  }

  lemma InScopeExtends(pol: NormalizedPolicy, ov: Override)
    ensures var p := ApplyOne(pol, ov);
      |p.inScope| >= |pol.inScope| && p.inScope[..|pol.inScope|] == pol.inScope
  {
    if Matches(pol, ov) {
      ConcatPrefix(pol.inScope, Admitted(ov.inScopeAdd));
    }
  }

  lemma OutOfScopeExtends(pol: NormalizedPolicy, ov: Override)
    ensures var p := ApplyOne(pol, ov);
      |p.outOfScope| >= |pol.outOfScope| && p.outOfScope[..|pol.outOfScope|] == pol.outOfScope
  {
    if Matches(pol, ov) {
      ConcatPrefix(pol.outOfScope, Admitted(ov.outOfScopeAdd));
    }
  }

  lemma ConcatPrefix<T>(a: seq<T>, b: seq<T>)
    ensures |a + b| >= |a| && (a + b)[..|a|] == a
  {
  }

  /** Each matching override leaves exactly one applied-note more, unless
      its own notes already bring in that text. */
  lemma {:induction false} AppliedNotes(pol: NormalizedPolicy, ovs: seq<Override>)
    requires forall i | 0 <= i < |ovs| :: Some(AppliedNote) !in ovs[i].notes
    ensures AppliedCount(ApplyAll(pol, ovs).humanNotes) == AppliedCount(pol.humanNotes) + MatchCount(pol, ovs)
    decreases |ovs|
  {
    if |ovs| > 0 {
      var p1 := ApplyOne(pol, ovs[0]);
      assert p1.programUrl == pol.programUrl;
      AppliedNotes(p1, ovs[1..]);
      MatchCountSameUrl(pol, p1, ovs[1..]);
      if Matches(pol, ovs[0]) {
        var m := MergeNotes(pol.humanNotes, ovs[0].notes);
        AppliedCountAppend(m, AppliedNote);
        MergeNotesNoApplied(pol.humanNotes, ovs[0].notes);
      }
    }
  }

  lemma {:induction false} MatchCountSameUrl(p: NormalizedPolicy, q: NormalizedPolicy, ovs: seq<Override>)
    requires p.programUrl == q.programUrl
    ensures MatchCount(p, ovs) == MatchCount(q, ovs)
    decreases |ovs|
  {
    if |ovs| > 0 {
      MatchCountSameUrl(p, q, ovs[1..]);
    }
  }

  /** How many notes say that overrides were applied. */
  function AppliedCount(notes: seq<string>): nat
    decreases |notes|
  {
    if |notes| == 0 then 0
    else AppliedCount(notes[..|notes| - 1]) + (if notes[|notes| - 1] == AppliedNote then 1 else 0)
  }

  /** How many of `ovs` are meant for `pol`. Matching depends only on the
      URL, which the loop never changes. */
  function MatchCount(pol: NormalizedPolicy, ovs: seq<Override>): nat
    decreases |ovs|
  {
    if |ovs| == 0 then 0
    else (if Matches(pol, ovs[0]) then 1 else 0) + MatchCount(pol, ovs[1..])
  }

  lemma AppliedCountAppend(notes: seq<string>, x: string)
    ensures AppliedCount(notes + [x]) == AppliedCount(notes) + (if x == AppliedNote then 1 else 0)
  {
    assert (notes + [x])[..|notes|] == notes;
  }

  /** Merging notes adds an applied-note only if the override itself lists
      it. */
  lemma {:induction false} MergeNotesNoApplied(notes: seq<string>, xs: seq<Option<string>>)
    ensures AppliedCount(MergeNotes(notes, xs)) == AppliedCount(notes) + (if Some(AppliedNote) in xs && AppliedNote !in notes then 1 else 0)
    decreases |xs|
  {
    if |xs| > 0 {
      var next := if xs[0].Some? && xs[0].value !in notes then notes + [xs[0].value] else notes;
      MergeNotesNoApplied(next, xs[1..]);
      if xs[0].Some? && xs[0].value !in notes {
        AppliedCountAppend(notes, xs[0].value);
      }
      assert Some(AppliedNote) in xs <==> xs[0] == Some(AppliedNote) || Some(AppliedNote) in xs[1..];
    }
  }

  /** What `load_overrides(path)` reads. */
  datatype OverridesFile = Missing | Unparsable | Parsed(doc: Json)

  /** `load_overrides(path)`: `list(d.get("overrides", []))`, and `[]` for a
      missing file or any error on the way. `list` of an object gives its
      keys and of a string its characters; a document that is not an object,
      or an `overrides` that is not iterable, gives `[]`. */
  function LoadOverrides(f: OverridesFile): (r: seq<Json>)
    ensures f.Missing? || f.Unparsable? ==> r == []
    ensures f.Parsed? && !f.doc.Obj? ==> r == []
    ensures f.Parsed? && f.doc.Obj? && !HasKey(f.doc.members, "overrides") ==> r == []
    ensures f.Parsed? && f.doc.Obj? && Get(f.doc.members, "overrides", Null).Arr? ==>
      r == Get(f.doc.members, "overrides", Null).items
  {
    match f
    case Missing => []
    case Unparsable => []
    case Parsed(d) =>
      if !d.Obj? then []
      else
        if !HasKey(d.members, "overrides") then []
        else match Get(d.members, "overrides", Null)
        case Arr(items) => items
        case Obj(ms) => seq(|ms|, i requires 0 <= i < |ms| => Str(ms[i].key))
        case Str(s) => seq(|s|, i requires 0 <= i < |s| => Str([s[i]]))
        case _ => []
  }
}

=== FILE: parse_common.dfy ===
/** `parse_common.py`: turning scraped policy text into scope entries, a
    rules excerpt and detected constraints.

    The three regular expressions are written out as predicates over
    characters, each one anchored at both ends as `match` anchors it (the
    URL pattern only at the start). `IGNORECASE` is modelled by folding
    ASCII letters. */
module ParseCommon {
  import opened Wrappers
  import opened Text
  import opened Policy

  // ---------------------------------------------------------------------
  // The three patterns
  // ---------------------------------------------------------------------

  /** `[a-z0-9-]` under `IGNORECASE`. */
  predicate IsLabelChar(c: char) {
    var l := LowerChar(c);
    ('a' <= l <= 'z') || ('0' <= l <= '9') || l == '-'
  }

  /** `[a-z]` under `IGNORECASE`. */
  predicate IsAlpha(c: char) {
    'a' <= LowerChar(c) <= 'z'
  }

  /** `[a-f0-9]` under `IGNORECASE`. */
  predicate IsHex(c: char) {
    var l := LowerChar(c);
    ('0' <= l <= '9') || ('a' <= l <= 'f')
  }

  /** `[a-z0-9-]+` */
  predicate IsLabel(p: string) {
    |p| > 0 && forall i | 0 <= i < |p| :: IsLabelChar(p[i])
  }

  /** `[a-z]{2,}` */
  predicate IsTld(p: string) {
    |p| >= 2 && forall i | 0 <= i < |p| :: IsAlpha(p[i])
  }

  /** `([a-z0-9-]+\.)+[a-z]{2,}`, the whole text: one or more labels each
      followed by a dot, then the top-level label. The dots fix where each
      label ends, since no label holds one. */
  predicate DomainBody(b: string)
    decreases |b|
  {
    '.' in b &&
    var i := IndexOf(b, '.');
    var rest := b[i + 1..];
    IsLabel(b[..i]) && (if '.' in rest then DomainBody(rest) else IsTld(rest))
  }

  /** `_DOMAIN_RE.match(s)`: `^(?:\*\.)?([a-z0-9-]+\.)+[a-z]{2,}$`. */
  predicate IsDomain(s: string) {
    if StartsWith(s, "*.") then DomainBody(s[2..]) else DomainBody(s)
  }

  /** `_URL_RE.search(s)`: `^https?://`, case-insensitively. */
  predicate IsUrl(s: string) {
    StartsWith(Lower(s), "http://") || StartsWith(Lower(s), "https://")
  }

  /** `_EVM_ADDR_RE.match(s)`: `^0x[a-f0-9]{40}$`, case-insensitively. */
  predicate IsEvmAddress(s: string) {
    && |s| == 42 && s[0] == '0' && LowerChar(s[1]) == 'x'
    && forall i | 2 <= i < 42 :: IsHex(s[i])
  }

  /** The text of a domain token: label characters and dots. */
  predicate DomainAlphabet(t: string) {
    forall i | 0 <= i < |t| :: IsLabelChar(t[i]) || t[i] == '.'
  }

  /** A domain holds a dot, starts with a label character and ends with a
      letter. */
  lemma {:induction false} DomainBodyEnds(b: string)
    requires DomainBody(b)
    ensures '.' in b && |b| >= 4 && IsLabelChar(b[0]) && IsAlpha(b[|b| - 1])
    decreases |b|
  {
    var i := IndexOf(b, '.');
    var rest := b[i + 1..];
    assert b[..i][0] == b[0];
    if '.' in rest {
      DomainBodyEnds(rest);
    }
    assert b[|b| - 1] == rest[|rest| - 1];
  }

  /** A domain is made of label characters and dots. */
  lemma {:induction false} DomainBodyAlphabet(b: string)
    requires DomainBody(b)
    ensures DomainAlphabet(b)
    decreases |b|
  {
    var i := IndexOf(b, '.');
    var rest := b[i + 1..];
    if '.' in rest {
      DomainBodyAlphabet(rest);
    }
    forall k | 0 <= k < |b| ensures IsLabelChar(b[k]) || b[k] == '.' {
      if k < i {
        assert b[k] == b[..i][k];
      } else if k > i {
        assert b[k] == rest[k - i - 1];
      }
    }
  }

  /** No character of a domain is whitespace. */
  lemma NotSpace(c: char)
    requires IsLabelChar(c) || c == '.'
    ensures !IsSpace(c)
  {
  }

  /** What a URL match says about the text's first characters. */
  lemma UrlShape(s: string)
    requires IsUrl(s)
    ensures |s| >= 7 && LowerChar(s[0]) == 'h' && (s[4] == ':' || s[5] == ':')
  {
    var l := Lower(s);
    assert l[0] == 'h' && (l[4] == ':' || l[5] == ':');
  }

  /** A text that does not start with `h` or `H` is no URL. */
  lemma NotUrl(s: string)
    requires |s| > 0 && LowerChar(s[0]) != 'h'
    ensures !IsUrl(s)
  {
    if IsUrl(s) {
      UrlShape(s);
    }
  }

  /** What a domain match says about the text's characters. */
  lemma DomainShape(s: string)
    requires IsDomain(s)
    ensures '.' in s
    ensures forall k | 0 <= k < |s| :: s[k] != ':'
  {
    if StartsWith(s, "*.") {
      var b := s[2..];
      DomainBodyAlphabet(b);
      assert s[1] == '.';
      forall k | 2 <= k < |s| ensures s[k] != ':' {
        assert s[k] == b[k - 2];
      }
    } else {
      DomainBodyEnds(s);
      DomainBodyAlphabet(s);
    }
  }

  /** The three patterns never overlap, so the order in which
      `classify_target` tries them decides nothing. */
  lemma ClassesDisjoint(s: string)
    ensures !(IsUrl(s) && IsEvmAddress(s))
    ensures !(IsUrl(s) && IsDomain(s))
    ensures !(IsEvmAddress(s) && IsDomain(s))
  {
    if IsUrl(s) {
      UrlShape(s);
    }
    if IsDomain(s) {
      DomainShape(s);
    }
  }

  // ---------------------------------------------------------------------
  // classify_target
  // ---------------------------------------------------------------------

  /** The characters `lstrip("-â€¢* ")` removes. The file spells the
      bullet `•` as the three characters its UTF-8 bytes give when read as
      Windows-1252, so it is those three, and not the bullet, that go. */
  const StrippedChars: set<char> := {'-', '\U{E2}', '\U{20AC}', '\U{A2}', '*', ' '}

  /** Of the characters a domain is made of, the strip removes only `-`. */
  lemma NotStripped(c: char)
    requires c as int < 128 && c != '-' && c != '*' && c != ' '
    ensures c !in StrippedChars
  {
  }

  /** `(raw or "").strip().lstrip("-â€¢* ").strip()` */
  function Clean(raw: string): (s: string)
    ensures |s| <= |raw|
  {
    Strip(LStripChars(Strip(raw), StrippedChars))
  }

  /** The class a cleaned text falls in, trying the patterns in the order
      of `classify_target`. */
  function KindOf(s: string): string {
    if IsUrl(s) then "url"
    else if IsEvmAddress(s) then "contract"
    else if IsDomain(s) then (if StartsWith(s, "*.") then "wildcard_domain" else "domain")
    else "unknown"
  }

  /** Each class is chosen exactly when its pattern matches: with the
      patterns disjoint, precedence never overrides a match. */
  lemma KindOfExact(s: string)
    ensures KindOf(s) == "url" <==> IsUrl(s)
    ensures KindOf(s) == "contract" <==> IsEvmAddress(s)
    ensures KindOf(s) == "domain" <==> IsDomain(s) && !StartsWith(s, "*.")
    ensures KindOf(s) == "wildcard_domain" <==> IsDomain(s) && StartsWith(s, "*.")
    ensures KindOf(s) == "unknown" <==> !IsUrl(s) && !IsEvmAddress(s) && !IsDomain(s)
  {
    ClassesDisjoint(s);
  }

  /** `classify_target(raw, source)` as written. */
  function ClassifyTarget(raw: string, source: string): (t: ScopeTarget)
    ensures t.value == Clean(raw) && t.source == source
    ensures t.kind in {"url", "contract", "domain", "wildcard_domain", "unknown"}
    ensures t.kind == KindOf(t.value)
  {
    var s := Clean(raw);
    ScopeTarget(s, KindOf(s), source)
  }

  /** A text starting with a dot is of no class. */
  lemma UnknownDot(d: string)
    requires |d| > 0 && d[0] == '.'
    ensures KindOf(d) == "unknown"
  {
    NotUrl(d);
    assert !StartsWith(d, "*.");
    assert IndexOf(d, '.') == 0;
  }

  /** A text starting with a bullet is of no class. */
  lemma UnknownBullet(s: string)
    requires |s| > 0 && s[0] == '\U{2022}'
    ensures KindOf(s) == "unknown"
  {
    NotUrl(s);
    assert !StartsWith(s, "*.");
    if '.' in s {
      var i := IndexOf(s, '.');
      assert s[..i][0] == '\U{2022}';
    }
  }

  /** `*.` followed by a domain is a wildcard. */
  lemma KindWildcard(b: string)
    requires DomainBody(b)
    ensures KindOf("*." + b) == "wildcard_domain"
  {
    var s := "*." + b;
    NotUrl(s);
    assert StartsWith(s, "*.") && s[2..] == b;
  }

  /** A domain on its own is a domain. */
  lemma KindDomain(b: string)
    requires DomainBody(b)
    ensures KindOf(b) == "domain"
  {
    DomainBodyEnds(b);
    assert !StartsWith(b, "*.");
    ClassesDisjoint(b);
  }

  lemma CleanWildcard(b: string)
    requires |b| > 0 && !IsSpace(b[|b| - 1])
    ensures Clean("*." + b) == "." + b
  {
    var s := "*." + b;
    var d := "." + b;
    assert s[|s| - 1] == d[|d| - 1] == b[|b| - 1];
    assert s[1..] == d;
    StripIdentity(s);
    assert s[0] in StrippedChars;
    LStripCharsStep(s, StrippedChars);
    assert d[0] == '.';
    NotStripped('.');
    LStripCharsStop(d, StrippedChars);
    assert LStripChars(s, StrippedChars) == d;
    StripIdentity(d);
    assert Strip(d) == d;
  }

  /** The leading `*` of a wildcard is stripped as if it were a bullet: the
      wildcard entry `*.example.com` comes back as the unknown `.example.com`. */
  lemma WildcardLost(b: string, source: string)
    requires DomainBody(b)
    ensures ClassifyTarget("*." + b, source) == ScopeTarget("." + b, "unknown", source)
  {
    DomainBodyEnds(b);
    NotSpace(b[|b| - 1]);
    CleanWildcard(b);
    UnknownDot("." + b);
  }

  lemma CleanBullet(b: string)
    requires |b| > 0 && !IsSpace(b[|b| - 1])
    ensures Clean("\U{2022} " + b) == "\U{2022} " + b
  {
    var s := "\U{2022} " + b;
    assert s[|s| - 1] == b[|b| - 1];
    StripIdentity(s);
    LStripCharsStop(s, StrippedChars);
  }

  /** A real bullet is not stripped, so a bulleted domain line is unknown. */
  lemma BulletKept(b: string, source: string)
    requires DomainBody(b)
    ensures ClassifyTarget("\U{2022} " + b, source) == ScopeTarget("\U{2022} " + b, "unknown", source)
  {
    DomainBodyEnds(b);
    NotSpace(b[|b| - 1]);
    CleanBullet(b);
    UnknownBullet("\U{2022} " + b);
  }

  lemma CleanTabWildcard(b: string)
    requires |b| > 0 && !IsSpace(b[|b| - 1])
    ensures Clean("*\t*." + b) == "*." + b
  {
    var raw := "*\t*." + b;
    var t := "\t*." + b;
    var w := "*." + b;
    assert raw[|raw| - 1] == t[|t| - 1] == w[|w| - 1] == b[|b| - 1];
    assert raw[1..] == t && t[1..] == w;
    StripIdentity(raw);
    LStripCharsStep(raw, StrippedChars);
    NotStripped('\t');
    LStripCharsStop(t, StrippedChars);
    assert LStrip(t) == w;
    StripIdentity(w);
  }

  /** Even so, a wildcard can still reach the `wildcard_domain` branch when
      a character that `strip()` removes but `lstrip` keeps, a tab say,
      sits between the stripped star and the wildcard. */
  lemma WildcardBranchReachable(b: string, source: string)
    requires DomainBody(b)
    ensures ClassifyTarget("*\t*." + b, source) == ScopeTarget("*." + b, "wildcard_domain", source)
  {
    DomainBodyEnds(b);
    NotSpace(b[|b| - 1]);
    CleanTabWildcard(b);
    KindWildcard(b);
  }

  /** The bullets the strip was evidently meant to remove: `-`, `•`, `*`
      and space. */
  const Bullets: set<char> := {'-', '\U{2022}', '*', ' '}

  /** Leading bullets removed, but a wildcard's `*.` kept. */
  function LStripBullets(s: string): (r: string)
    ensures |r| <= |s| && r == s[|s| - |r|..]
    ensures |r| > 0 ==> r[0] !in Bullets || StartsWith(r, "*.")
    decreases |s|
  {
    if |s| > 0 && s[0] in Bullets && !StartsWith(s, "*.") then LStripBullets(s[1..]) else s
  }

  /** The text the corrected version classifies. */
  function CleanFixed(raw: string): (s: string)
    ensures |s| <= |raw|
  {
    Strip(LStripBullets(Strip(raw)))
  }

  /** `classify_target` with the bullet spelled right and wildcards kept. */
  function ClassifyTargetFixed(raw: string, source: string): (t: ScopeTarget)
    ensures t.value == CleanFixed(raw) && t.source == source
    ensures t.kind in {"url", "contract", "domain", "wildcard_domain", "unknown"}
    ensures t.kind == KindOf(t.value)
  {
    var s := CleanFixed(raw);
    ScopeTarget(s, KindOf(s), source)
  }

  lemma CleanFixedWildcard(b: string)
    requires |b| > 0 && !IsSpace(b[|b| - 1])
    ensures CleanFixed("*." + b) == "*." + b
  {
    var s := "*." + b;
    assert s[|s| - 1] == b[|b| - 1];
    StripIdentity(s);
    assert StartsWith(s, "*.");
  }

  /** The corrected version keeps a wildcard entry a wildcard. */
  lemma FixedKeepsWildcard(b: string, source: string)
    requires DomainBody(b)
    ensures ClassifyTargetFixed("*." + b, source) == ScopeTarget("*." + b, "wildcard_domain", source)
  {
    DomainBodyEnds(b);
    NotSpace(b[|b| - 1]);
    CleanFixedWildcard(b);
    KindWildcard(b);
  }

  lemma LStripBulletsStep(s: string)
    requires |s| > 0 && s[0] in Bullets && s[0] != '*'
    ensures LStripBullets(s) == LStripBullets(s[1..])
  {
    assert !StartsWith(s, "*.");
  }

  lemma LStripBulletsStop(s: string)
    requires |s| == 0 || s[0] !in Bullets
    ensures LStripBullets(s) == s
  {
  }

  lemma CleanFixedBullet(b: string)
    requires |b| > 0 && !IsSpace(b[0]) && !IsSpace(b[|b| - 1])
    requires b[0] !in Bullets
    ensures CleanFixed("\U{2022} " + b) == b
  {
    var s := "\U{2022} " + b;
    var t := " " + b;
    assert s[|s| - 1] == b[|b| - 1];
    StripIdentity(s);
    assert s[0] == '\U{2022}' && s[1..] == t;
    LStripBulletsStep(s);
    assert t[0] == ' ' && t[1..] == b;
    LStripBulletsStep(t);
    LStripBulletsStop(b);
    StripIdentity(b);
  }

  /** The corrected version removes a bullet in front of a domain. */
  lemma FixedStripsBullet(b: string, source: string)
    requires DomainBody(b)
    requires b[0] != '-'
    ensures ClassifyTargetFixed("\U{2022} " + b, source) == ScopeTarget(b, "domain", source)
  {
    DomainBodyEnds(b);
    NotSpace(b[0]);
    NotSpace(b[|b| - 1]);
    CleanFixedBullet(b);
    KindDomain(b);
  }

  lemma {:induction false} StripsAgree(t: string)
    requires DomainAlphabet(t)
    ensures LStripChars(t, StrippedChars) == LStripBullets(t)
    decreases |t|
  {
    if |t| > 0 {
      assert !StartsWith(t, "*.") by {
        assert IsLabelChar(t[0]) || t[0] == '.';
      }
      if t[0] == '-' {
        assert DomainAlphabet(t[1..]) by {
          assert forall i | 0 <= i < |t| - 1 :: t[1..][i] == t[i + 1];
        }
        StripsAgree(t[1..]);
      } else {
        assert t[0] !in StrippedChars && t[0] !in Bullets;
      }
    }
  }

  /** On domain-alphabet text without a wildcard, the form every
      non-wildcard token of the page scan has, the two versions agree. */
  lemma FixedAgrees(t: string, source: string)
    requires DomainAlphabet(t)
    ensures ClassifyTargetFixed(t, source) == ClassifyTarget(t, source)
  {
    if |t| > 0 {
      assert !IsSpace(t[0]) by { assert IsLabelChar(t[0]) || t[0] == '.'; }
      assert !IsSpace(t[|t| - 1]) by { assert IsLabelChar(t[|t| - 1]) || t[|t| - 1] == '.'; }
    }
    StripIdentity(t);
    StripsAgree(t);
  }

  // ---------------------------------------------------------------------
  // extract_rules_excerpt
  // ---------------------------------------------------------------------

  const RuleKeys: seq<string> :=
    ["rules", "policy", "scope", "out of scope", "in scope", "safe harbor", "automated", "rate limit"]

  /** `any(k in ln.lower() for k in keys)` */
  predicate MentionsRules(ln: string) {
    exists k | 0 <= k < |RuleKeys| :: Contains(Lower(ln), RuleKeys[k])
  }

  /** Whether stripped line `x` goes into the excerpt. */
  predicate Relevant(x: string) {
    x != "" && MentionsRules(x)
  }

  /** The stripped lines that `keep` accepts, in order. */
  function SelectLines(lines: seq<string>, keep: string -> bool): (r: seq<string>)
    ensures |r| <= |lines|
    decreases |lines|
  {
    if |lines| == 0 then []
    else
      var rest := SelectLines(lines[1..], keep);
      var x := Strip(lines[0]);
      if keep(x) then [x] + rest else rest
  }

  /** The stripped, non-blank lines that mention the rules, in order. */
  function RelevantLines(lines: seq<string>): seq<string> {
    SelectLines(lines, Relevant)
  }

  /** A line is selected exactly when it is the stripped form of an input
      line that `keep` accepts. */
  lemma {:induction false} SelectLinesMembers(lines: seq<string>, keep: string -> bool, x: string)
    ensures x in SelectLines(lines, keep) <==> exists j | 0 <= j < |lines| :: x == Strip(lines[j]) && keep(x)
    decreases |lines|
  {
    if |lines| > 0 {
      var tail := lines[1..];
      SelectLinesMembers(tail, keep, x);
      if x in SelectLines(lines, keep) {
        if x == Strip(lines[0]) && keep(x) {
          assert 0 < |lines|;
        } else {
          assert x in SelectLines(tail, keep);
          var j :| 0 <= j < |tail| && x == Strip(tail[j]) && keep(x);
          assert tail[j] == lines[j + 1];
        }
      }
      if exists j | 0 <= j < |lines| :: x == Strip(lines[j]) && keep(x) {
        var j :| 0 <= j < |lines| && x == Strip(lines[j]) && keep(x);
        if j > 0 {
          assert tail[j - 1] == lines[j];
        }
      }
    }
  }

  /** The excerpt's lines are exactly the stripped input lines that are not
      blank and mention the rules. */
  lemma RelevantLinesMembers(lines: seq<string>, x: string)
    ensures x in RelevantLines(lines) <==> exists j | 0 <= j < |lines| :: x == Strip(lines[j]) && x != "" && MentionsRules(x)
  {
    SelectLinesMembers(lines, Relevant, x);
  }

  /** The selection goes line by line: two runs of lines are selected
      separately and kept in order. */
  lemma {:induction false} SelectLinesConcat(a: seq<string>, b: seq<string>, keep: string -> bool)
    ensures SelectLines(a + b, keep) == SelectLines(a, keep) + SelectLines(b, keep)
    decreases |a|
  {
    if |a| == 0 {
      assert a + b == b;
    } else {
      var ab := a + b;
      assert ab[1..] == a[1..] + b;
      assert ab[0] == a[0];
      SelectLinesConcat(a[1..], b, keep);
    }
  }

  /** Python's `xs[:n]`: a negative `n` counts from the end. */
  function TakePrefix<T>(xs: seq<T>, n: int): (r: seq<T>)
    ensures |r| <= |xs| && r == xs[..|r|]
    ensures n >= 0 ==> |r| == if n < |xs| then n else |xs|
    ensures n < 0 ==> |r| == if |xs| + n > 0 then |xs| + n else 0
  {
    if n >= 0 then (if n < |xs| then xs[..n] else xs)
    else if |xs| + n > 0 then xs[..|xs| + n]
    else []
  }

  /** The lines `extract_rules_excerpt(text, limit_lines)` joins. */
  function ExcerptLines(text: Option<string>, limit: int): (out: seq<string>)
    ensures var rel := RelevantLines(SplitLines(text.GetOr("")));
      && |out| <= |rel|
      && out == rel[..|out|]
      && (limit >= 0 ==> |out| == if limit < |rel| then limit else |rel|)
  {
    TakePrefix(RelevantLines(SplitLines(text.GetOr(""))), limit)
  }

  /** `extract_rules_excerpt(text, limit_lines)`. */
  function ExtractRulesExcerpt(text: Option<string>, limit: int): (r: string)
    ensures ExcerptLines(text, limit) == [] ==> r == ""
    ensures |ExcerptLines(text, limit)| == 1 ==> r == ExcerptLines(text, limit)[0]
  {
    Join(ExcerptLines(text, limit), "\n")
  }

  /** One line of `SplitLines(s)` holds no line break. */
  lemma SplitLinesLine(s: string, k: nat)
    requires k < |SplitLines(s)|
    ensures forall m | 0 <= m < |SplitLines(s)[k]| :: !IsLineBreak(SplitLines(s)[k][m])
  {
  }

  /** Stripping a line without breaks leaves none. */
  lemma StrippedLineUnbroken(line: string)
    requires forall m | 0 <= m < |line| :: !IsLineBreak(line[m])
    ensures '\n' !in Strip(line)
  {
    var x := Strip(line);
    StripChars(line);
    forall i | 0 <= i < |x| ensures x[i] != '\n' {
      assert x[i] in line;
    }
  }

  /** No selected line holds a line break. */
  lemma ExcerptLinesUnbroken(text: Option<string>, limit: int)
    ensures forall k | 0 <= k < |ExcerptLines(text, limit)| :: '\n' !in ExcerptLines(text, limit)[k]
  {
    var lines := SplitLines(text.GetOr(""));
    var out := ExcerptLines(text, limit);
    forall k | 0 <= k < |out| ensures '\n' !in out[k] {
      assert out[k] in RelevantLines(lines);
      RelevantLinesMembers(lines, out[k]);
      var j :| 0 <= j < |lines| && out[k] == Strip(lines[j]);
      SplitLinesLine(text.GetOr(""), j);
      StrippedLineUnbroken(lines[j]);
    }
  }

  /** The excerpt splits back into the selected lines: joining with a line
      break loses nothing. */
  lemma ExcerptSplitsBack(text: Option<string>, limit: int)
    requires ExcerptLines(text, limit) != []
    ensures SplitOn(ExtractRulesExcerpt(text, limit), '\n') == ExcerptLines(text, limit)
  {
    ExcerptLinesUnbroken(text, limit);
    SplitOnJoin(ExcerptLines(text, limit), '\n');
  }

  // ---------------------------------------------------------------------
  // detect_constraints
  // ---------------------------------------------------------------------

  const NoScanPhrases: seq<string> := ["no automated", "do not scan", "no scanning", "do not use automated"]

  /** `detect_constraints(text)`: the two flags. */
  datatype Constraints = Constraints(noAutomatedScanning: bool, safeHarbor: bool)

  function DetectConstraints(text: Option<string>): (c: Constraints)
    ensures c.noAutomatedScanning <==>
      exists k | 0 <= k < |NoScanPhrases| :: Contains(Lower(text.GetOr("")), NoScanPhrases[k])
    ensures c.safeHarbor <==>
      Contains(Lower(text.GetOr("")), "safe harbor") || Contains(Lower(text.GetOr("")), "safe-harbor")
  {
    var t := Lower(text.GetOr(""));
    Constraints(AnyPhrase(t, NoScanPhrases), Contains(t, "safe harbor") || Contains(t, "safe-harbor"))
  }

  /** `any(k in t for k in phrases)` */
  function AnyPhrase(t: string, phrases: seq<string>): (r: bool)
    ensures r <==> exists k | 0 <= k < |phrases| :: Contains(t, phrases[k])
    decreases |phrases|
  {
    if |phrases| == 0 then false
    else
      var r := AnyPhrase(t, phrases[1..]);
      assert forall k | 1 <= k < |phrases| :: phrases[k] == phrases[1..][k - 1];
      Contains(t, phrases[0]) || r
  }

  /** Detection does not depend on letter case. */
  lemma DetectIgnoresCase(text: string)
    ensures DetectConstraints(Some(Lower(text))) == DetectConstraints(Some(text))
  {
    LowerIdempotent(text);
  }

  /** A missing text is read as the empty one, which mentions nothing. */
  lemma DetectNothingInEmpty()
    ensures DetectConstraints(None) == Constraints(false, false)
  {
    var t := Lower("");
    assert t == "";
    forall k | 0 <= k < |NoScanPhrases| ensures !Contains(t, NoScanPhrases[k]) {
      assert NoScanPhrases[k] in NoScanPhrases;
      assert "" !in NoScanPhrases;
    }
    assert !Contains(t, "safe harbor") by { assert |"safe harbor"| > 0; }
    assert !Contains(t, "safe-harbor") by { assert |"safe-harbor"| > 0; }
  }
}

=== FILE: passive_tools.dfy ===
/** `passive_tools.py`, `normalize_bandit_findings`: a Bandit JSON report
    turned into findings, one per element of its `results` list. Running
    Bandit (and the other tools of the file) is not modelled: the report is
    the input. */
module PassiveTools {
  import opened Wrappers
  import opened Json
  import opened Findings

  const BanditTool: string := "bandit"

  /** `item.get(k, default)` for a field the finding holds as text: any
      other JSON value has no place in the typed record. */
  function TextField(ms: seq<Member>, k: string, default: string): (r: Result<string, string>)
    ensures !HasKey(ms, k) ==> r == Ok(default)
    ensures r.Ok? <==> Get(ms, k, Str(default)).Str?
    ensures r.Ok? ==> Get(ms, k, Str(default)) == Str(r.value)
  {
    match Get(ms, k, Str(default))
    case Str(s) => Ok(s)
    case _ => Err("field " + k + " is not a string")
  }

  /** `item.get("filename")`: absent or `null` is `None`. */
  function PathField(ms: seq<Member>): (r: Result<Option<string>, string>)
    ensures !HasKey(ms, "filename") ==> r == Ok(None)
    ensures r == Ok(None) <==> Get(ms, "filename", Null) == Null
    ensures forall s :: r == Ok(Some(s)) <==> Get(ms, "filename", Null) == Str(s)
  {
    match Get(ms, "filename", Null)
    case Null => Ok(None)
    case Str(s) => Ok(Some(s))
    case _ => Err("field filename is not a string")
  }

  /** `item.get("line_number")`: absent or `null` is `None`. */
  function LineField(ms: seq<Member>): (r: Result<Option<int>, string>)
    ensures !HasKey(ms, "line_number") ==> r == Ok(None)
    ensures r == Ok(None) <==> Get(ms, "line_number", Null) == Null
    ensures forall n :: r == Ok(Some(n)) <==> Get(ms, "line_number", Null) == Int(n)
  {
    match Get(ms, "line_number", Null)
    case Null => Ok(None)
    case Int(n) => Ok(Some(n))
    case _ => Err("field line_number is not an integer")
  }

  /** The finding made from one element of `results`. An element that is
      not a dict has no `.get` and raises. */
  function ItemFinding(item: Json): (r: Result<Finding, string>)
    ensures r.Ok? ==> item.Obj?
    ensures r.Ok? ==> r.value.tool == BanditTool && r.value.evidence == item
    ensures r.Ok? ==> r.value.title == r.value.description && r.value.title.Some?
    ensures r.Ok? ==> TextField(item.members, "test_id", "") == Ok(r.value.ruleId)
    ensures r.Ok? ==> TextField(item.members, "issue_severity", "UNKNOWN") == Ok(r.value.severity)
    ensures r.Ok? ==> TextField(item.members, "issue_text", "") == Ok(r.value.title.value)
    ensures r.Ok? ==> Ok(r.value.filePath) == PathField(item.members)
    ensures r.Ok? ==> Ok(r.value.line) == LineField(item.members)
    ensures r.Ok? <==>
      && item.Obj?
      && TextField(item.members, "test_id", "").Ok?
      && TextField(item.members, "issue_severity", "UNKNOWN").Ok?
      && TextField(item.members, "issue_text", "").Ok?
      && PathField(item.members).Ok? && LineField(item.members).Ok?
  {
    match item
    case Obj(ms) =>
      var ruleId :- TextField(ms, "test_id", "");
      var severity :- TextField(ms, "issue_severity", "UNKNOWN");
      var text :- TextField(ms, "issue_text", "");
      var path :- PathField(ms);
      var line :- LineField(ms);
      Ok(Finding(BanditTool, ruleId, severity, Some(text), Some(text), path, line, item))
    case _ => Err("result item is not an object")
  }

  /** `f` applied to each element in order; the first failure ends the
      walk and is the result. */
  function Traverse<A, B>(xs: seq<A>, f: A -> Result<B, string>): (r: Result<seq<B>, string>)
    ensures r.Ok? <==> forall i | 0 <= i < |xs| :: f(xs[i]).Ok?
    ensures r.Ok? ==> |r.value| == |xs|
    ensures r.Ok? ==> forall i | 0 <= i < |xs| :: r.value[i] == f(xs[i]).value
    decreases |xs|
  {
    if |xs| == 0 then Ok([])
    else
      var y :- f(xs[0]);
      var rest :- Traverse(xs[1..], f);
      assert forall i | 1 <= i < |xs| :: xs[i] == xs[1..][i - 1];
      Ok([y] + rest)
  }

  /** The elements are read one at a time: the results of two runs of
      elements are the results of each, one after the other. */
  lemma TraverseConcat<A, B>(a: seq<A>, b: seq<A>, f: A -> Result<B, string>)
    requires Traverse(a, f).Ok? && Traverse(b, f).Ok?
    ensures Traverse(a + b, f) == Ok(Traverse(a, f).value + Traverse(b, f).value)
  {
    var ab := a + b;
    TraverseOkConcat(a, b, f);
    var r, fa, fb := Traverse(ab, f).value, Traverse(a, f).value, Traverse(b, f).value;
    assert r == fa + fb by {
      forall i | 0 <= i < |ab| ensures r[i] == (fa + fb)[i] {
        if i < |a| {
          assert ab[i] == a[i];
        } else {
          assert ab[i] == b[i - |a|];
        }
      }
    }
  }

  lemma TraverseOkConcat<A, B>(a: seq<A>, b: seq<A>, f: A -> Result<B, string>)
    requires Traverse(a, f).Ok? && Traverse(b, f).Ok?
    ensures Traverse(a + b, f).Ok?
  {
    var ab := a + b;
    forall i | 0 <= i < |ab| ensures f(ab[i]).Ok? {
      if i < |a| {
        assert ab[i] == a[i];
      } else {
        assert ab[i] == b[i - |a|];
      }
    }
  }

  /** The loop over the elements: one finding each, in order; the first
      element that raises ends the call. */
  function ItemFindings(items: seq<Json>): Result<seq<Finding>, string> {
    Traverse(items, ItemFinding)
  }

  /** `normalize_bandit_findings(data)`. `data.get("results", [])` is
      iterated: a list by its elements, a dict by its keys and a string by
      its characters (so an empty dict or string gives no findings and a
      non-empty one raises on the first `.get`); anything else is not
      iterable. */
  function NormalizeBandit(data: Json): (r: Result<seq<Finding>, string>)
    ensures !data.Obj? ==> r.Err?
    ensures data.Obj? && !HasKey(data.members, "results") ==> r == Ok([])
    ensures data.Obj? && Get(data.members, "results", Arr([])).Arr? ==>
      r == ItemFindings(Get(data.members, "results", Arr([])).items)
  {
    match data
    case Obj(ms) =>
      (match Get(ms, "results", Arr([]))
       case Arr(items) => ItemFindings(items)
       case Obj(keys) => if |keys| == 0 then Ok([]) else Err("result item is not an object")
       case Str(s) => if |s| == 0 then Ok([]) else Err("result item is not an object")
       case _ => Err("results is not iterable"))
    case _ => Err("report is not an object")
  }

  /** One finding per element of `results`, in order, each a Bandit finding
      whose title and description are both the issue text and whose evidence
      is the element itself. */
  lemma BanditPerItem(data: Json, i: nat)
    requires data.Obj? && Get(data.members, "results", Arr([])).Arr?
    requires NormalizeBandit(data).Ok?
    requires i < |Get(data.members, "results", Arr([])).items|
    ensures var items := Get(data.members, "results", Arr([])).items;
      var fs := NormalizeBandit(data).value;
      && |fs| == |items|
      && fs[i].tool == BanditTool && fs[i].title == fs[i].description
      && fs[i].evidence == items[i]
  {
  }

  /** A Bandit element written from a finding's fields. */
  function ItemOf(ruleId: string, severity: string, text: string, path: Option<string>, line: Option<int>): Json {
    Obj([Member("test_id", Str(ruleId)),
         Member("issue_severity", Str(severity)),
         Member("issue_text", Str(text)),
         Member("filename", match path case Some(p) => Str(p) case None => Null),
         Member("line_number", match line case Some(n) => Int(n) case None => Null)])
  }

  /** Each field of such an element reads back as written. */
  lemma ItemFieldsRead(ruleId: string, severity: string, text: string, path: Option<string>, line: Option<int>)
    ensures var ms := ItemOf(ruleId, severity, text, path, line).members;
      && TextField(ms, "test_id", "") == Ok(ruleId)
      && TextField(ms, "issue_severity", "UNKNOWN") == Ok(severity)
      && TextField(ms, "issue_text", "") == Ok(text)
      && PathField(ms) == Ok(path)
      && LineField(ms) == Ok(line)
  {
    var ms := ItemOf(ruleId, severity, text, path, line).members;
    assert UniqueKeys(ms) by {
      forall i, j | 0 <= i < j < |ms| ensures ms[i].key != ms[j].key {
        assert |ms[i].key| != |ms[j].key|;
      }
    }
    GetAt(ms, 0, Str(""));
    GetAt(ms, 1, Str("UNKNOWN"));
    GetAt(ms, 2, Str(""));
    GetAt(ms, 3, Null);
    GetAt(ms, 4, Null);
  }

  /** Reading back an element written from a finding's fields gives those
      fields unchanged. */
  lemma ItemRoundTrip(ruleId: string, severity: string, text: string, path: Option<string>, line: Option<int>)
    ensures var item := ItemOf(ruleId, severity, text, path, line);
      ItemFinding(item) == Ok(Finding(BanditTool, ruleId, severity, Some(text), Some(text), path, line, item))
  {
    ItemFieldsRead(ruleId, severity, text, path, line);
  }
}

=== FILE: policy.dfy ===
/** The records the policy layer passes around, shaped after the way the
    code builds and reads them. The declarations in `models.py` do not
    match the call sites: `NormalizedPolicy` declares required fields that
    the adapter's constructor call does not pass, and it has no
    `allowances`. `Action` is not declared there at all. Python's field
    name `type` is `kind` here, `type` being a Dafny keyword. */
module Policy {

  /** One scope entry: its text, its kind (`url`, `contract`, `domain`,
      `wildcard_domain`, `unknown`) and where it came from. */
  datatype ScopeTarget = ScopeTarget(value: string, kind: string, source: string)

  /** A program's policy, normalised from its page. */
  datatype NormalizedPolicy = NormalizedPolicy(
    programUrl: string,
    platformHint: string,
    programTitle: string,
    fetchedAtUtc: string,
    adapterUsed: string,
    sourceHtmlCachePath: string,
    rawTextFingerprint: string,
    rulesExcerpt: string,
    inScope: seq<ScopeTarget>,
    outOfScope: seq<ScopeTarget>,
    prohibitsAutomatedScanning: bool,    // constraints.prohibits_automated_scanning_language_detected
    requiresSafeHarbor: bool,            // constraints.requires_safe_harbor_language_detected
    automatedTestingAllowed: bool,       // allowances.automated_testing_allowed
    activeScanningAllowed: bool,         // allowances.active_scanning_allowed
    requiresHumanScopeConfirmation: bool,
    humanNotes: seq<string>)

  /** A planned step; `target` is empty and `metadata` empty unless given. */
  datatype Action = Action(
    name: string,
    description: string,
    category: string,
    requiresApproval: bool,
    target: string,
    metadata: map<string, string>)
}

=== FILE: receipts.dfy ===
/** `receipts.py`: signed scope receipts. Confirming a program's scope
    produces a receipt whose nine payload fields are signed, as their
    compact key-sorted JSON text, with an Ed25519 key kept in a key
    directory; the receipt carries the signature in base 64 and is checked
    later by rebuilding the payload from the receipt itself.

    Files are modelled by their contents: the key directory by the two keys
    it may hold, the receipt file by the JSON value it holds. The clock
    reading and a freshly generated private key are parameters. */
module Receipts {
  import opened Wrappers
  import opened Text
  import opened Json
  import opened Crypto
  import Base64

  const Schema: string := "scope_receipt/1"
  const PrivateKeyName: string := "scope_receipt_ed25519.pem"
  const PublicKeyName: string := "scope_receipt_ed25519.pub"

  /** `ScopeReceipt`. */
  datatype ScopeReceipt = ScopeReceipt(
    schema: string,
    programUrl: string,
    actor: string,
    role: string,
    justification: string,
    confirmedUtc: string,
    policyFingerprint: string,
    inScopeCount: int,
    outOfScopeCount: int,
    signatureB64: string)

  /** `_b64` and `_unb64`. */
  function B64(b: Bytes): string {
    Base64.Encode(b)
  }

  function Unb64(s: string): Result<Bytes, string> {
    Base64.Decode(s)
  }

  /** `_unb64(_b64(b)) == b`. */
  lemma Unb64B64(b: Bytes)
    ensures Unb64(B64(b)) == Ok(b)
  {
    Base64.DecodeEncode(b);
  }

  /** The nine signed fields, in the order the payload dict is built. */
  function SignedFields(schema: string, programUrl: string, actor: string, role: string,
                        justification: string, confirmedUtc: string, policyFingerprint: string,
                        inScopeCount: int, outOfScopeCount: int): (p: seq<Member>)
    ensures |p| == 9
  {
    [Member("schema", Str(schema)),
     Member("program_url", Str(programUrl)),
     Member("actor", Str(actor)),
     Member("role", Str(role)),
     Member("justification", Str(justification)),
     Member("confirmed_utc", Str(confirmedUtc)),
     Member("policy_fingerprint", Str(policyFingerprint)),
     Member("in_scope_count", Int(inScopeCount)),
     Member("out_of_scope_count", Int(outOfScopeCount))]
  }

  /** The fields of a receipt that its signature covers. */
  function Fields(r: ScopeReceipt): seq<Member> {
    SignedFields(r.schema, r.programUrl, r.actor, r.role, r.justification, r.confirmedUtc,
                 r.policyFingerprint, r.inScopeCount, r.outOfScopeCount)
  }

  /** `to_json()`: the ten fields, the signature last. */
  function ToJson(r: ScopeReceipt): (d: seq<Member>)
    ensures |d| == 10
    ensures Get(d, "signature_b64", Null) == Str(r.signatureB64)
  {
    var d := [Member("schema", Str(r.schema)),
              Member("program_url", Str(r.programUrl)),
              Member("actor", Str(r.actor)),
              Member("role", Str(r.role)),
              Member("justification", Str(r.justification)),
              Member("confirmed_utc", Str(r.confirmedUtc)),
              Member("policy_fingerprint", Str(r.policyFingerprint)),
              Member("in_scope_count", Int(r.inScopeCount)),
              Member("out_of_scope_count", Int(r.outOfScopeCount)),
              Member("signature_b64", Str(r.signatureB64))];
    assert forall i | 0 <= i < 9 :: d[i].key != "signature_b64";
    assert d[9].key == "signature_b64";
    d
  }

  /** `to_json()` without `signature_b64` is exactly the signed payload. */
  lemma ToJsonWithoutSignature(r: ScopeReceipt)
    ensures Without(ToJson(r), "signature_b64") == Fields(r)
  {
    var p := Fields(r);
    assert forall i | 0 <= i < 9 :: p[i].key != "signature_b64";
    assert ToJson(r) == p + [Member("signature_b64", Str(r.signatureB64))];
    WithoutLast(p, "signature_b64", Str(r.signatureB64));
  }

  /** The text that is signed: the compact, key-sorted, ASCII-escaped JSON
      of the payload. */
  function Message(payload: seq<Member>): string {
    Encode(true, Obj(payload))
  }

  // ---------------------------------------------------------------------
  // Keys
  // ---------------------------------------------------------------------

  /** The key directory: the private and the public key file, each present
      or not. */
  datatype KeyDir = KeyDir(privateKey: Option<Bytes>, publicKey: Option<Bytes>)

  predicate HasBoth(kd: KeyDir) {
    kd.privateKey.Some? && kd.publicKey.Some?
  }

  /** The public key file belongs to the private key file. */
  predicate Matching(s: SigScheme, kd: KeyDir) {
    HasBoth(kd) ==> kd.publicKey.value == s.derive(kd.privateKey.value)
  }

  /** `generate_keypair(key_dir)`, with `newKey` the key a new generation
      would produce: an existing pair is kept as it is, and otherwise a new
      pair is written over whichever file exists. */
  function GenerateKeypair(s: SigScheme, kd: KeyDir, newKey: Bytes): (out: KeyDir)
    ensures HasBoth(out)
    ensures HasBoth(kd) ==> out == kd
    ensures !HasBoth(kd) ==> out.privateKey == Some(newKey) && Matching(s, out)
  {
    if HasBoth(kd) then kd
    else KeyDir(Some(newKey), Some(s.derive(newKey)))
  }

  /** A second call returns what the first left, whatever key it would
      generate. */
  lemma GenerateKeypairIdempotent(s: SigScheme, kd: KeyDir, newKey: Bytes, newKey2: Bytes)
    ensures GenerateKeypair(s, GenerateKeypair(s, kd, newKey), newKey2) == GenerateKeypair(s, kd, newKey)
  {
  }

  /** A key directory never leaves `generate_keypair` with a mismatched pair
      unless it held one already. */
  lemma GenerateKeypairMatching(s: SigScheme, kd: KeyDir, newKey: Bytes)
    requires Matching(s, kd)
    ensures Matching(s, GenerateKeypair(s, kd, newKey))
  {
  }

  // ---------------------------------------------------------------------
  // Signing
  // ---------------------------------------------------------------------

  /** What `sign_scope_receipt` leaves behind. */
  datatype Signed = Signed(
    keys: KeyDir,            // the key directory afterwards
    receipt: ScopeReceipt,
    fileName: string,        // the receipt file's name in the receipts directory
    written: Json,           // what the receipt file holds
    publicCopy: Bytes)       // what `scope_receipt_ed25519.pub` in the receipts directory holds

  /** The receipt file's name: the confirmation time with every `:` and `-`
      removed. */
  function ReceiptFileName(confirmedUtc: string): (name: string)
    ensures |name| >= 19
    ensures var stamp := name[14..|name| - 5];
      && name == "scope_receipt_" + stamp + ".json"
      && stamp == RemoveChar(RemoveChar(confirmedUtc, ':'), '-')
      && ':' !in stamp && '-' !in stamp
      && forall c :: c in stamp <==> c in confirmedUtc && c != ':' && c != '-'
  {
    var stamp := RemoveChar(RemoveChar(confirmedUtc, ':'), '-');
    var name := "scope_receipt_" + stamp + ".json";
    assert name[14..|name| - 5] == stamp;
    name
  }

  /** A confirmation time in the usual ISO form keeps its digits and
      letters in order. */
  lemma ReceiptFileNameExample()
    ensures ReceiptFileName("2026-01-01T00:00:00Z") == "scope_receipt_20260101T000000Z.json"
  {
    ExampleColons();
    ExampleDashes();
    NameLiteral();
  }

  lemma NameLiteral()
    ensures "scope_receipt_" + "20260101T000000Z" + ".json" == "scope_receipt_20260101T000000Z.json"
  {
  }

  lemma ExampleColons()
    ensures RemoveChar("2026-01-01T00:00:00Z", ':') == "2026-01-01T000000Z"
  {
    assert "2026-01-01T00:00:00Z" == "2026-01-01T00" + [':'] + ("00" + [':'] + "00Z");
    RemoveCharSkip("2026-01-01T00", "00" + [':'] + "00Z", ':');
    RemoveCharSkip("00", "00Z", ':');
    RemoveCharAbsent("00Z", ':');
    assert "2026-01-01T00" + ("00" + "00Z") == "2026-01-01T000000Z";
  }

  lemma ExampleDashes()
    ensures RemoveChar("2026-01-01T000000Z", '-') == "20260101T000000Z"
  {
    assert "2026-01-01T000000Z" == "2026" + ['-'] + ("01" + ['-'] + "01T000000Z");
    RemoveCharSkip("2026", "01" + ['-'] + "01T000000Z", '-');
    RemoveCharSkip("01", "01T000000Z", '-');
    RemoveCharAbsent("01T000000Z", '-');
    DashesLiteral();
  }

  lemma DashesLiteral()
    ensures "2026" + ("01" + "01T000000Z") == "20260101T000000Z"
  {
  }

  /** `sign_scope_receipt(...)` at time `now`, `newKey` being the key
      `generate_keypair` would create. */
  function SignScopeReceipt(s: SigScheme, kd: KeyDir, newKey: Bytes, programUrl: string,
                            actor: string, role: string, justification: string,
                            policyFingerprint: string, inScopeCount: int, outOfScopeCount: int,
                            now: string): (o: Signed)
    ensures o.keys == GenerateKeypair(s, kd, newKey)
    ensures var r := o.receipt;
      && r.schema == Schema && r.programUrl == programUrl && r.actor == actor && r.role == role
      && r.justification == justification && r.confirmedUtc == now
      && r.policyFingerprint == policyFingerprint
      && r.inScopeCount == inScopeCount && r.outOfScopeCount == outOfScopeCount
    ensures Unb64(o.receipt.signatureB64)
            == Ok(s.sign(o.keys.privateKey.value,
                         Message(SignedFields(Schema, programUrl, actor, role, justification, now,
                                              policyFingerprint, inScopeCount, outOfScopeCount))))
    ensures o.fileName == ReceiptFileName(now)
    ensures o.written.Obj? && Without(o.written.members, "signature_b64") == Fields(o.receipt)
    ensures o.publicCopy == o.keys.publicKey.value
  {
    var keys := GenerateKeypair(s, kd, newKey);
    var payload := SignedFields(Schema, programUrl, actor, role, justification, now,
                                policyFingerprint, inScopeCount, outOfScopeCount);
    var sig := s.sign(keys.privateKey.value, Message(payload));
    var r := ScopeReceipt(Schema, programUrl, actor, role, justification, now,
                          policyFingerprint, inScopeCount, outOfScopeCount, B64(sig));
    Unb64B64(sig);
    ToJsonWithoutSignature(r);
    Signed(keys, r, ReceiptFileName(now), Obj(ToJson(r)), keys.publicKey.value)
  }

  // ---------------------------------------------------------------------
  // Verifying
  // ---------------------------------------------------------------------

  /** `verify_scope_receipt(receipt_path, pubkey_path)` with `pub` the loaded
      public key and `d` the parsed receipt file. Only a bad signature is
      caught and reported as `(False, "FAIL: ...")`; everything before the
      signature check raises. The library's `InvalidSignature` carries no
      message, so the text after "FAIL: " is empty. */
  function VerifyScopeReceipt(s: SigScheme, pub: Bytes, d: Json): (r: Result<(bool, string), string>)
    ensures r.Ok? ==> d.Obj? && HasKey(d.members, "signature_b64")
    ensures r.Ok? ==> r.value == (true, "OK") || r.value == (false, "FAIL: ")
    ensures r == Ok((true, "OK")) <==>
      && d.Obj? && Get(d.members, "signature_b64", Null).Str?
      && (forall i | 0 <= i < |Get(d.members, "signature_b64", Null).s| :: Get(d.members, "signature_b64", Null).s[i] as int < 128)
      && Unb64(Get(d.members, "signature_b64", Null).s).Ok?
      && s.verify(pub, Message(Without(d.members, "signature_b64")),
                  Unb64(Get(d.members, "signature_b64", Null).s).value)
  {
    if !d.Obj? then Err("TypeError: receipt is not subscriptable by key")
    else if !HasKey(d.members, "signature_b64") then Err("KeyError: 'signature_b64'")
    else
      var v := Get(d.members, "signature_b64", Null);
      if !v.Str? then Err("AttributeError: object has no attribute 'encode'")
      else if exists i | 0 <= i < |v.s| :: v.s[i] as int >= 128 then Err("UnicodeEncodeError")
      else match Unb64(v.s)
        case Err(e) => Err("binascii.Error: " + e)
        case Ok(sig) =>
          if s.verify(pub, Message(Without(d.members, "signature_b64")), sig) then Ok((true, "OK"))
          else Ok((false, "FAIL: "))
  }

  /** A receipt signed with a matching key pair verifies with the public key
      copied next to it. */
  lemma SignThenVerify(s: SigScheme, kd: KeyDir, newKey: Bytes, programUrl: string,
                       actor: string, role: string, justification: string,
                       policyFingerprint: string, inScopeCount: int, outOfScopeCount: int,
                       now: string)
    requires Sound(s)
    requires Matching(s, kd)
    ensures var o := SignScopeReceipt(s, kd, newKey, programUrl, actor, role, justification,
                                      policyFingerprint, inScopeCount, outOfScopeCount, now);
      VerifyScopeReceipt(s, o.publicCopy, o.written) == Ok((true, "OK"))
  {
    var o := SignScopeReceipt(s, kd, newKey, programUrl, actor, role, justification,
                              policyFingerprint, inScopeCount, outOfScopeCount, now);
    GenerateKeypairMatching(s, kd, newKey);
    var sk := o.keys.privateKey.value;
    var msg := Message(Fields(o.receipt));
    assert o.publicCopy == s.derive(sk);
    assert s.verify(s.derive(sk), msg, s.sign(sk, msg));
  }
}

=== FILE: safety.dfy ===
/** `safety.py`: the guard every planned action passes. Free text is refused
    when it mentions a scanning or exploitation keyword; an action is
    allowed by category, and a passive-intelligence action only with a
    loaded, human-confirmed policy, a whitelisted tool and an in-scope
    target. */
module Safety {
  import opened Wrappers
  import opened Text
  import opened Policy

  /** `_BANNED_KEYWORDS`, matched case-insensitively anywhere in the text. */
  const BannedKeywords: seq<string> := [
    "nmap", "masscan", "zmap", "sqlmap", "ffuf", "wfuzz", "hydra", "medusa",
    "metasploit", "msfconsole", "reverse shell", "bind shell", "payload", "exploit",
    "rce", "spray", "password spraying", "bruteforce", "brute force", "dos", "ddos",
    "slowloris", "botnet", "credential stuffing", "remote code execution",
    "command injection"]

  const PassiveToolWhitelist: set<string> := {"resolve_a_records", "whois"}

  datatype GuardDecision = GuardDecision(allowed: bool, reason: string)

  const TextBlocked: string := "Blocked: disallowed scanning/exploitation references."

  /** Some keyword of `ks` occurs in `t`: the alternation regex finds a
      match. */
  function FirstKeywordIn(t: string, ks: seq<string>): (r: Option<nat>)
    ensures r.Some? ==> r.value < |ks| && Contains(t, ks[r.value])
    ensures r.None? <==> forall i | 0 <= i < |ks| :: !Contains(t, ks[i])
    decreases |ks|
  {
    if |ks| == 0 then None
    else if Contains(t, ks[0]) then Some(0)
    else match FirstKeywordIn(t, ks[1..])
      case None => None
      case Some(i) => Some(i + 1)
  }

  /** `check_text(text)`; `None` stands for a missing text, read as "". */
  function CheckText(text: Option<string>): (d: GuardDecision)
    ensures !d.allowed <==> exists i | 0 <= i < |BannedKeywords| :: Contains(Lower(text.GetOr("")), BannedKeywords[i])
    ensures d.allowed ==> d.reason == "OK"
    ensures !d.allowed ==> d.reason == TextBlocked
  {
    if FirstKeywordIn(Lower(text.GetOr("")), BannedKeywords).Some? then GuardDecision(false, TextBlocked)
    else GuardDecision(true, "OK")
  }

  /** A missing or empty text is allowed. */
  lemma EmptyTextAllowed(text: Option<string>)
    requires text.None? || text == Some("")
    ensures CheckText(text).allowed
  {
    var t := Lower(text.GetOr(""));
    assert t == "";
    forall i | 0 <= i < |BannedKeywords| ensures !Contains(t, BannedKeywords[i]) {
      assert BannedKeywords[i] in BannedKeywords;
      assert "" !in BannedKeywords;
    }
  }

  /** A banned word is found whatever its case: any text holding a word
      whose lower-cased form is a keyword is blocked. */
  lemma KeywordBlocked(pre: string, k: string, post: string, i: nat)
    requires i < |BannedKeywords| && Lower(k) == BannedKeywords[i]
    ensures !CheckText(Some(pre + k + post)).allowed
  {
    var t := Lower(pre + k + post);
    assert t[|pre|..|pre| + |k|] == Lower(k);
    assert OccursAt(t, BannedKeywords[i], |pre|);
  }

  /** For instance, `NMAP` inside any text. */
  lemma NmapBlocked(pre: string, post: string)
    ensures !CheckText(Some(pre + "NMAP" + post)).allowed
  {
    assert Lower("NMAP") == BannedKeywords[0];
    KeywordBlocked(pre, "NMAP", post, 0);
  }

  // ---------------------------------------------------------------------
  // Scope
  // ---------------------------------------------------------------------

  /** `t == v or t.endswith("." + v)`: `t` is `v` or one of its subdomains. */
  predicate DomainMatches(t: string, v: string) {
    t == v || EndsWith(t, "." + v)
  }

  /** The entry's value as compared: `(value or "").strip().lower()`. */
  function EntryValue(st: ScopeTarget): string {
    Lower(Strip(st.value))
  }

  /** Entry `st` covers the normalised target `t`. */
  predicate EntryCovers(st: ScopeTarget, t: string) {
    var v := EntryValue(st);
    && v != ""
    && ((st.kind == "domain" && DomainMatches(t, v))
        || (st.kind == "wildcard_domain" && DomainMatches(t, RemoveAll(v, "*."))))
  }

  /** The loop of `_is_in_scope` over `entries`. */
  function ScanScope(entries: seq<ScopeTarget>, t: string): (r: bool)
    ensures r <==> exists i | 0 <= i < |entries| :: EntryCovers(entries[i], t)
    decreases |entries|
  {
    if |entries| == 0 then false
    else if EntryCovers(entries[0], t) then true
    else
      var r := ScanScope(entries[1..], t);
      ScopeScanStep(entries, t);
      r
  }

  /** Past an entry that does not cover `t`, the scan goes on with the rest. */
  lemma ScopeScanStep(entries: seq<ScopeTarget>, t: string)
    requires |entries| > 0 && !EntryCovers(entries[0], t)
    ensures (exists i | 0 <= i < |entries| :: EntryCovers(entries[i], t)) <==>
      (exists i | 0 <= i < |entries[1..]| :: EntryCovers(entries[1..][i], t))
  {
    if exists i | 0 <= i < |entries| :: EntryCovers(entries[i], t) {
      var i :| 0 <= i < |entries| && EntryCovers(entries[i], t);
      assert entries[1..][i - 1] == entries[i];
    }
    if exists i | 0 <= i < |entries[1..]| :: EntryCovers(entries[1..][i], t) {
      var i :| 0 <= i < |entries[1..]| && EntryCovers(entries[1..][i], t);
      assert entries[1..][i] == entries[i + 1];
    }
  }

  /** `_is_in_scope(target)`. */
  function IsInScope(policy: Option<NormalizedPolicy>, target: string): (r: bool)
    ensures policy.None? ==> !r
    ensures policy.Some? ==>
      (r <==> exists i | 0 <= i < |policy.value.inScope| :: EntryCovers(policy.value.inScope[i], Lower(Strip(target))))
  {
    match policy
    case None => false
    case Some(p) => ScanScope(p.inScope, Lower(Strip(target)))
  }

  /** A subdomain of a matching name matches. */
  lemma SubdomainMatches(t: string, v: string, sub: string)
    requires DomainMatches(t, v)
    ensures DomainMatches(sub + "." + t, v)
  {
    var u := sub + "." + t;
    if t == v {
      assert u[|u| - |"." + v|..] == "." + v;
    } else {
      assert u[|u| - |"." + v|..] == t[|t| - |"." + v|..];
    }
  }

  /** Subdomains of a covered name are covered too. */
  lemma SubdomainCovered(st: ScopeTarget, t: string, sub: string)
    requires EntryCovers(st, t)
    ensures EntryCovers(st, sub + "." + t)
  {
    var v := EntryValue(st);
    if st.kind == "domain" {
      SubdomainMatches(t, v, sub);
    } else {
      SubdomainMatches(t, RemoveAll(v, "*."), sub);
    }
  }

  /** A match needs a label boundary: a name that merely ends with the
      entry's text is not covered. */
  lemma LabelBoundary()
    ensures !DomainMatches("notexample.com", "example.com")
    ensures DomainMatches("www.example.com", "example.com")
  {
    assert "notexample.com"[2..] != ".example.com";
    assert "www.example.com"[3..] == ".example.com";
  }

  // ---------------------------------------------------------------------
  // Actions
  // ---------------------------------------------------------------------

  /** `(action.metadata.get("tool") or "").strip()` */
  function ToolOf(a: Action): string {
    Strip(if "tool" in a.metadata then a.metadata["tool"] else "")
  }

  /** `check_action(action)` under `policy`. */
  function CheckAction(policy: Option<NormalizedPolicy>, a: Action): (d: GuardDecision)
    ensures a.category == "policy_fetch" ==> d.allowed
    ensures a.category !in {"policy_fetch", "planning", "passive_intel", "reporting"} ==>
      d == GuardDecision(false, "Blocked: unknown category '" + a.category + "'.")
    ensures a.category in {"planning", "reporting"} ==> d == GuardDecision(true, "OK")
    ensures a.category == "passive_intel" ==>
      (d.allowed <==>
        && policy.Some? && !policy.value.requiresHumanScopeConfirmation
        && ToolOf(a) in PassiveToolWhitelist
        && (a.target == "" || IsInScope(policy, a.target)))
  {
    if a.category == "policy_fetch" then GuardDecision(true, "OK: policy fetch allowed.")
    else if a.category !in {"planning", "passive_intel", "reporting"} then
      GuardDecision(false, "Blocked: unknown category '" + a.category + "'.")
    else if a.category == "passive_intel" then
      if policy.None? then GuardDecision(false, "Blocked: no policy loaded.")
      else if policy.value.requiresHumanScopeConfirmation then
        GuardDecision(false, "Blocked: scope not confirmed by human.")
      else if ToolOf(a) !in PassiveToolWhitelist then
        GuardDecision(false, "Blocked: tool '" + ToolOf(a) + "' not in passive whitelist.")
      else if a.target != "" && !IsInScope(policy, a.target) then
        GuardDecision(false, "Blocked: target out of scope: " + a.target)
      else GuardDecision(true, "OK: passive intel allowed (with approval).")
    else GuardDecision(true, "OK")
  }

  /** A refused passive action names the first check it failed, in the
      order: policy loaded, scope confirmed, tool whitelisted, target in
      scope. */
  lemma PassiveRefusalReason(policy: Option<NormalizedPolicy>, a: Action)
    requires a.category == "passive_intel"
    ensures policy.None? ==> CheckAction(policy, a).reason == "Blocked: no policy loaded."
    ensures policy.Some? && policy.value.requiresHumanScopeConfirmation ==>
      CheckAction(policy, a).reason == "Blocked: scope not confirmed by human."
    ensures policy.Some? && !policy.value.requiresHumanScopeConfirmation && ToolOf(a) !in PassiveToolWhitelist ==>
      CheckAction(policy, a).reason == "Blocked: tool '" + ToolOf(a) + "' not in passive whitelist."
    ensures policy.Some? && !policy.value.requiresHumanScopeConfirmation && ToolOf(a) in PassiveToolWhitelist
            && a.target != "" && !IsInScope(policy, a.target) ==>
      CheckAction(policy, a).reason == "Blocked: target out of scope: " + a.target
  {
  }

  /** A policy still awaiting human confirmation refuses every passive
      action, whatever its tool and target. */
  lemma UnconfirmedBlocksPassive(p: NormalizedPolicy, a: Action)
    requires p.requiresHumanScopeConfirmation
    requires a.category == "passive_intel"
    ensures !CheckAction(Some(p), a).allowed
  {
  }
}

=== FILE: sarif.dfy ===
/** `reporting/sarif.py`: findings as a SARIF 2.1.0 log (the OASIS Static
    Analysis Results Interchange Format). One rule per rule id, one result
    per finding, both in a fixed order so that equal inputs give equal
    documents. */
module Sarif {
  import opened Wrappers
  import opened Text
  import opened Json
  import opened Crypto
  import opened Findings
  import opened Dedupe
  import Sorting

  /** The values section 3.27.10 of SARIF 2.1.0 allows for a result's
      `level`. */
  const SarifLevels: set<string> := {"none", "note", "warning", "error"}

  const LevelMap: map<string, string> :=
    map["LOW" := "note", "MEDIUM" := "warning", "HIGH" := "error", "CRITICAL" := "error"]

  const ToolName: string := "bounty-hive"
  const ToolVersion: string := "0.1.0"
  const ToolUri: string := "https://github.com/your-org/bounty-hive"
  const SchemaUri: string := "https://schemastore.azurewebsites.net/schemas/json/sarif-2.1.0.json"
  const SarifVersion: string := "2.1.0"

  /** `_sarif_level(severity)`: looked up upper-cased, `warning` when
      unknown. */
  function SarifLevel(severity: string): (l: string)
    ensures l in SarifLevels
    ensures l == "note" <==> Upper(severity) == "LOW"
    ensures l == "error" <==> Upper(severity) == "HIGH" || Upper(severity) == "CRITICAL"
    ensures l == "warning" <==> Upper(severity) !in {"LOW", "HIGH", "CRITICAL"}
  {
    var u := Upper(severity);
    if u in LevelMap then LevelMap[u] else "warning"
  }

  /** The level does not depend on letter case. */
  lemma SarifLevelIgnoresCase(severity: string)
    ensures SarifLevel(Lower(severity)) == SarifLevel(severity)
  {
    UpperOfLower(severity);
  }

  /** `_location_fingerprint(path, line)`: the SHA-256 of the path (empty
      when missing) fed in, then the decimal line when there is one. Two
      `update` calls hash the concatenation. */
  function LocationFingerprint(H: Hash, path: Option<string>, line: Option<int>): string {
    H(path.GetOr("") + (if line.Some? then IntToString(line.value) else ""))
  }

  /** The fingerprint material is ambiguous: a file whose name ends in
      digits and no line gives the same fingerprint as the shorter name with
      those digits as its line. */
  lemma FingerprintAmbiguous(H: Hash, path: string, n: nat)
    ensures LocationFingerprint(H, Some(path + NatToString(n)), None)
         == LocationFingerprint(H, Some(path), Some(n))
  {
    assert IntToString(n) == NatToString(n);
    assert path + NatToString(n) + "" == path + NatToString(n);
  }


  // ---------------------------------------------------------------------
  // Rules and results
  // ---------------------------------------------------------------------

  /** A rule entry: `id` (also its name and short description) and its
      default level. */
  datatype SarifRule = SarifRule(id: string, level: string)

  /** A result entry, before it is written as JSON. */
  datatype SarifResult = SarifResult(
    ruleId: string,
    level: string,
    message: string,
    uri: string,
    startLine: Option<int>,
    fingerprint: string)

  function RuleFrom(f: Finding): SarifRule {
    SarifRule(f.ruleId, SarifLevel(f.severity))
  }

  function RuleId(r: SarifRule): string {
    r.id
  }

  /** `f.file_path or "N/A"` */
  function Uri(f: Finding): (u: string)
    ensures u == "N/A" <==> f.filePath.None? || f.filePath == Some("") || f.filePath == Some("N/A")
    ensures u != "N/A" ==> Some(u) == f.filePath
  {
    match f.filePath
    case Some(p) => if p == "" then "N/A" else p
    case None => "N/A"
  }

  function ResultFrom(H: Hash, f: Finding): (r: SarifResult)
    ensures r.ruleId == f.ruleId && r.level == SarifLevel(f.severity)
    ensures r.uri == Uri(f) && r.startLine == f.line
    ensures r.fingerprint == LocationFingerprint(H, f.filePath, f.line)
  {
    SarifResult(f.ruleId, SarifLevel(f.severity), f.tool + ": " + f.ruleId, Uri(f), f.line,
                LocationFingerprint(H, f.filePath, f.line))
  }

  /** The sort key of a result: `(ruleId, uri)`. */
  function ResultKey(r: SarifResult): (string, string) {
    (r.ruleId, r.uri)
  }

  /** Python's order on pairs of strings: by the first, then the second. */
  predicate PairLt(a: (string, string), b: (string, string)) {
    StrLt(a.0, b.0) || (a.0 == b.0 && StrLt(a.1, b.1))
  }

  lemma PairLtOrder()
    ensures Sorting.StrictTotalOrder(PairLt)
  {
    forall a: (string, string) ensures !PairLt(a, a) {
      StrLtIrreflexive(a.0);
      StrLtIrreflexive(a.1);
    }
    forall a: (string, string), b: (string, string), c: (string, string) | PairLt(a, b) && PairLt(b, c)
      ensures PairLt(a, c)
    {
      if StrLt(a.0, b.0) && StrLt(b.0, c.0) {
        StrLtTransitive(a.0, b.0, c.0);
      } else if StrLt(a.1, b.1) && StrLt(b.1, c.1) {
        StrLtTransitive(a.1, b.1, c.1);
      }
    }
    forall a: (string, string), b: (string, string) | a != b ensures PairLt(a, b) || PairLt(b, a) {
      if a.0 != b.0 {
        StrLtTotal(a.0, b.0);
      } else {
        StrLtTotal(a.1, b.1);
      }
    }
  }

  /** The rule of each rule id, from the first finding that carries it, in
      first-appearance order (the `OrderedDict`). */
  function FirstRules(fs: seq<Finding>): (rs: seq<SarifRule>)
    ensures |rs| == |DedupeBy(fs, RuleOf)|
    ensures forall k | 0 <= k < |rs| :: rs[k] == RuleFrom(DedupeBy(fs, RuleOf)[k])
  {
    var firsts := DedupeBy(fs, RuleOf);
    seq(|firsts|, k requires 0 <= k < |firsts| => RuleFrom(firsts[k]))
  }

  /** `sorted(rules.values(), key=lambda r: r["id"])` */
  function Rules(fs: seq<Finding>): seq<SarifRule> {
    Sorting.Sort(FirstRules(fs), RuleId, StrLt)
  }

  /** One result per finding, in input order. */
  function ResultsInOrder(H: Hash, fs: seq<Finding>): (rs: seq<SarifResult>)
    ensures |rs| == |fs| && forall k | 0 <= k < |fs| :: rs[k] == ResultFrom(H, fs[k])
  {
    seq(|fs|, k requires 0 <= k < |fs| => ResultFrom(H, fs[k]))
  }

  /** `sorted(results, key=lambda r: (ruleId, uri))`, a stable sort. */
  function Results(H: Hash, fs: seq<Finding>): seq<SarifResult> {
    Sorting.Sort(ResultsInOrder(H, fs), ResultKey, PairLt)
  }

  /** The first-appearance rules carry distinct ids. */
  lemma FirstRulesDistinct(fs: seq<Finding>)
    ensures Sorting.DistinctKeys(FirstRules(fs), RuleId)
  {
    var firsts, fr := DedupeBy(fs, RuleOf), FirstRules(fs);
    DedupeSpec(fs, RuleOf);
    forall a, b | 0 <= a < b < |fr| ensures RuleId(fr[a]) != RuleId(fr[b]) {
      assert fr[a].id == RuleOf(firsts[a]) && fr[b].id == RuleOf(firsts[b]);
    }
  }

  /** Every rule id of the findings has a first-appearance rule. */
  lemma FirstRulesCover(fs: seq<Finding>, j: nat) returns (m: nat)
    requires j < |fs|
    ensures m < |FirstRules(fs)| && FirstRules(fs)[m].id == fs[j].ruleId
  {
    var firsts := DedupeBy(fs, RuleOf);
    DedupeSpec(fs, RuleOf);
    assert RuleOf(fs[j]) in Keys(fs, RuleOf);
    assert RuleOf(fs[j]) in Keys(firsts, RuleOf);
    m :| 0 <= m < |firsts| && RuleOf(firsts[m]) == RuleOf(fs[j]);
  }

  /** Each first-appearance rule is the rule of a finding that is first of
      its rule id. */
  lemma FirstRulesFrom(fs: seq<Finding>, m: nat) returns (i: nat)
    requires m < |FirstRules(fs)|
    ensures i < |fs| && FirstOfKey(fs, RuleOf, i) && FirstRules(fs)[m] == RuleFrom(fs[i])
  {
    var firsts := DedupeBy(fs, RuleOf);
    DedupeSpec(fs, RuleOf);
    assert firsts[m] in firsts;
    i :| 0 <= i < |fs| && fs[i] == firsts[m] && FirstOfKey(fs, RuleOf, i);
  }

  /** Sorted rule ids are strictly ascending once they are distinct. */
  lemma RulesAscending(fs: seq<Finding>)
    ensures var rs := Rules(fs);
      forall a, b | 0 <= a < b < |rs| :: StrLt(rs[a].id, rs[b].id)
  {
    var fr, rs := FirstRules(fs), Rules(fs);
    FirstRulesDistinct(fs);
    StrLtOrder();
    Sorting.SortSorted(fr, RuleId, StrLt);
    Sorting.SortDistinct(fr, RuleId, StrLt);
    forall a, b | 0 <= a < b < |rs| ensures StrLt(rs[a].id, rs[b].id) {
      assert RuleId(rs[a]) != RuleId(rs[b]);
      assert !StrLt(RuleId(rs[b]), RuleId(rs[a]));
      StrLtTotal(rs[a].id, rs[b].id);
    }
  }

  /** Every rule id of the findings has a rule. */
  lemma RulesCover(fs: seq<Finding>, j: nat) returns (k: nat)
    requires j < |fs|
    ensures k < |Rules(fs)| && Rules(fs)[k].id == fs[j].ruleId
  {
    var fr, rs := FirstRules(fs), Rules(fs);
    Sorting.SortPermutes(fr, RuleId, StrLt);
    var m := FirstRulesCover(fs, j);
    assert fr[m] in multiset(rs);
    k := Sorting.IndexOf(fr[m], rs);
  }

  /** Every rule is the rule of a finding that is first of its rule id. */
  lemma RulesFrom(fs: seq<Finding>, k: nat) returns (i: nat)
    requires k < |Rules(fs)|
    ensures i < |fs| && FirstOfKey(fs, RuleOf, i) && Rules(fs)[k] == RuleFrom(fs[i])
  {
    var fr, rs := FirstRules(fs), Rules(fs);
    Sorting.SortPermutes(fr, RuleId, StrLt);
    assert rs[k] in multiset(fr);
    var m := Sorting.IndexOf(rs[k], fr);
    i := FirstRulesFrom(fs, m);
  }

  /** One result per finding: the results are the findings' results,
      reordered by `(ruleId, uri)`; results with the same key keep the
      order of their findings. */
  lemma ResultsSpec(H: Hash, fs: seq<Finding>)
    ensures var rs := Results(H, fs);
      && |rs| == |fs|
      && multiset(rs) == multiset(ResultsInOrder(H, fs))
      && Sorting.Sorted(rs, ResultKey, PairLt)
      && forall key :: Sorting.WithKey(rs, ResultKey, key) == Sorting.WithKey(ResultsInOrder(H, fs), ResultKey, key)
  {
    var ro := ResultsInOrder(H, fs);
    PairLtOrder();
    Sorting.SortPermutes(ro, ResultKey, PairLt);
    Sorting.SortSorted(ro, ResultKey, PairLt);
    forall key ensures Sorting.WithKey(Results(H, fs), ResultKey, key) == Sorting.WithKey(ro, ResultKey, key) {
      Sorting.SortStable(ro, ResultKey, PairLt, key);
    }
    assert |multiset(Results(H, fs))| == |multiset(ro)|;
  }

  // ---------------------------------------------------------------------
  // The document
  // ---------------------------------------------------------------------

  function RuleJson(r: SarifRule): Json {
    Obj([Member("id", Str(r.id)),
         Member("name", Str(r.id)),
         Member("shortDescription", Obj([Member("text", Str(r.id))])),
         Member("defaultConfiguration", Obj([Member("level", Str(r.level))]))])
  }

  /** The physical location: the region is there only with a line. */
  function LocationJson(r: SarifResult): Json {
    var artifact := Member("artifactLocation", Obj([Member("uri", Str(r.uri))]));
    match r.startLine
    case None => Obj([Member("physicalLocation", Obj([artifact]))])
    case Some(n) => Obj([Member("physicalLocation",
                        Obj([artifact, Member("region", Obj([Member("startLine", Int(n))]))]))])
  }

  function ResultJson(r: SarifResult): Json {
    Obj([Member("ruleId", Str(r.ruleId)),
         Member("level", Str(r.level)),
         Member("message", Obj([Member("text", Str(r.message))])),
         Member("locations", Arr([LocationJson(r)])),
         Member("partialFingerprints", Obj([Member("primaryLocationLineHash", Str(r.fingerprint))]))])
  }

  /** The single run: the tool with its sorted rules, and the results. */
  function RunJson(rules: seq<SarifRule>, results: seq<SarifResult>): Json {
    var driver := Obj([Member("name", Str(ToolName)),
                       Member("semanticVersion", Str(ToolVersion)),
                       Member("informationUri", Str(ToolUri)),
                       Member("rules", Arr(seq(|rules|, k requires 0 <= k < |rules| => RuleJson(rules[k]))))]);
    Obj([Member("tool", Obj([Member("driver", driver)])),
         Member("invocations", Arr([Obj([Member("executionSuccessful", Bool(true))])])),
         Member("results", Arr(seq(|results|, k requires 0 <= k < |results| => ResultJson(results[k]))))])
  }

  /** Looking up the key of the third of three members. */
  lemma GetThird(a: Member, b: Member, c: Member, k: string, d: Json)
    requires a.key != k && b.key != k && c.key == k
    ensures Get([a, b, c], k, d) == c.value
  {
    assert [a, b, c][1..] == [b, c];
    assert [b, c][1..] == [c];
    assert Get([a, b, c], k, d) == Get([b, c], k, d);
    assert Get([b, c], k, d) == Get([c], k, d);
  }

  /** `findings_to_sarif(findings)`. */
  function FindingsToSarif(H: Hash, fs: seq<Finding>): (doc: Json)
    ensures doc.Obj? && Get(doc.members, "version", Null) == Str(SarifVersion)
    ensures HasKey(doc.members, "$schema")
    ensures Get(doc.members, "runs", Null) == Arr([RunJson(Rules(fs), Results(H, fs))])
  {
    var version, schema := Member("version", Str(SarifVersion)), Member("$schema", Str(SchemaUri));
    var runs := Member("runs", Arr([RunJson(Rules(fs), Results(H, fs))]));
    assert version.key != "runs" && schema.key != "runs";
    var ms := [version, schema, runs];
    GetThird(version, schema, runs, "runs", Null);
    assert ms[1].key == "$schema";
    assert HasKey(ms, "$schema");
    Obj(ms)
  }

  /** The run's `results` array holds one entry per finding, each the
      JSON form of the result at that position. */
  lemma DocumentResults(H: Hash, fs: seq<Finding>)
    ensures var run := RunJson(Rules(fs), Results(H, fs));
      && run.Obj? && Get(run.members, "results", Null).Arr?
      && |Get(run.members, "results", Null).items| == |fs|
      && forall k | 0 <= k < |fs| :: Get(run.members, "results", Null).items[k] == ResultJson(Results(H, fs)[k])
  {
    var run := RunJson(Rules(fs), Results(H, fs));
    ResultsSpec(H, fs);
    assert run.members[0].key != "results" && run.members[1].key != "results";
    GetThird(run.members[0], run.members[1], run.members[2], "results", Null);
    assert run.members == [run.members[0], run.members[1], run.members[2]];
  }

  /** A result's location names the finding's file, or `N/A`, and has a
      region exactly when the finding has a line. */
  lemma LocationShape(H: Hash, f: Finding)
    ensures var loc := LocationJson(ResultFrom(H, f));
      var phys := Get(loc.members, "physicalLocation", Null);
      && phys.Obj?
      && Get(phys.members, "artifactLocation", Null) == Obj([Member("uri", Str(Uri(f)))])
      && (HasKey(phys.members, "region") <==> f.line.Some?)
  {
    var phys := Get(LocationJson(ResultFrom(H, f)).members, "physicalLocation", Null);
    assert phys.members[0].key == "artifactLocation" != "region";
    if f.line.Some? {
      assert phys.members[1].key == "region";
    }
  }
}

=== FILE: sorting.dfy ===
/** A stable insertion sort by key, the model of Python's `sorted(xs, key=...)`
    (which is stable), and the facts about it the encoders and the SARIF
    builder need. */
module Sorting {

  /** `lt` is a strict total order on keys. */
  ghost predicate StrictTotalOrder<K(!new)>(lt: (K, K) -> bool) {
    && (forall a :: !lt(a, a))
    && (forall a, b, c :: lt(a, b) && lt(b, c) ==> lt(a, c))
    && (forall a, b :: a != b ==> lt(a, b) || lt(b, a))
  }

  /** Insert `x` before the first element whose key is not smaller than its own. */
  function Insert<T, K>(x: T, s: seq<T>, key: T -> K, lt: (K, K) -> bool): seq<T>
    decreases |s|
  {
    if |s| == 0 then [x]
    else if lt(key(s[0]), key(x)) then [s[0]] + Insert(x, s[1..], key, lt)
    else [x] + s
  }

  function Sort<T, K>(s: seq<T>, key: T -> K, lt: (K, K) -> bool): seq<T>
    decreases |s|
  {
    if |s| == 0 then [] else Insert(s[0], Sort(s[1..], key, lt), key, lt)
  }

  /** Keys never decrease along `s`. */
  ghost predicate Sorted<T, K>(s: seq<T>, key: T -> K, lt: (K, K) -> bool) {
    forall i, j :: 0 <= i < j < |s| ==> !lt(key(s[j]), key(s[i]))
  }

  /** No two elements of `s` share a key. */
  ghost predicate DistinctKeys<T, K>(s: seq<T>, key: T -> K) {
    forall i, j :: 0 <= i < j < |s| ==> key(s[i]) != key(s[j])
  }

  /** The elements of `s` whose key is `k`, in order. */
  function WithKey<T, K(==)>(s: seq<T>, key: T -> K, k: K): seq<T>
    decreases |s|
  {
    if |s| == 0 then []
    else if key(s[0]) == k then [s[0]] + WithKey(s[1..], key, k)
    else WithKey(s[1..], key, k)
  }

  /** Picking the elements of one key distributes over concatenation. */
  lemma {:induction false} WithKeyConcat<T, K>(a: seq<T>, b: seq<T>, key: T -> K, k: K)
    ensures WithKey(a + b, key, k) == WithKey(a, key, k) + WithKey(b, key, k)
    decreases |a|
  {
    if |a| == 0 {
      assert a + b == b;
    } else {
      assert (a + b)[1..] == a[1..] + b;
      WithKeyConcat(a[1..], b, key, k);
    }
  }

  lemma {:induction false} InsertPermutes<T, K>(x: T, s: seq<T>, key: T -> K, lt: (K, K) -> bool)
    ensures multiset(Insert(x, s, key, lt)) == multiset(s) + multiset{x}
    decreases |s|
  {
    if |s| > 0 && lt(key(s[0]), key(x)) {
      InsertPermutes(x, s[1..], key, lt);
      assert s == [s[0]] + s[1..];
    }
  }

  /** Sorting permutes: every element is kept, as often as it occurs. */
  lemma {:induction false} SortPermutes<T, K>(s: seq<T>, key: T -> K, lt: (K, K) -> bool)
    ensures multiset(Sort(s, key, lt)) == multiset(s)
    decreases |s|
  {
    if |s| > 0 {
      SortPermutes(s[1..], key, lt);
      InsertPermutes(s[0], Sort(s[1..], key, lt), key, lt);
      assert s == [s[0]] + s[1..];
    }
  }

  lemma {:induction false} InsertSorted<T, K(!new)>(x: T, s: seq<T>, key: T -> K, lt: (K, K) -> bool)
    requires StrictTotalOrder(lt)
    requires Sorted(s, key, lt)
    ensures Sorted(Insert(x, s, key, lt), key, lt)
    decreases |s|
  {
    if |s| > 0 && lt(key(s[0]), key(x)) {
      InsertSorted(x, s[1..], key, lt);
      InsertPermutes(x, s[1..], key, lt);
      var r := Insert(x, s[1..], key, lt);
      forall j | 0 <= j < |r| ensures !lt(key(r[j]), key(s[0])) {
        assert r[j] in multiset(r);
        if r[j] != x {
          assert r[j] in multiset(s[1..]);
          var m :| 0 <= m < |s[1..]| && s[1..][m] == r[j];
          assert s[1 + m] == r[j];
        }
      }
    }
  }

  /** The result of sorting is sorted. */
  lemma {:induction false} SortSorted<T, K(!new)>(s: seq<T>, key: T -> K, lt: (K, K) -> bool)
    requires StrictTotalOrder(lt)
    ensures Sorted(Sort(s, key, lt), key, lt)
    decreases |s|
  {
    if |s| > 0 {
      SortSorted(s[1..], key, lt);
      InsertSorted(s[0], Sort(s[1..], key, lt), key, lt);
    }
  }

  lemma {:induction false} InsertWithKey<T, K(!new)>(x: T, s: seq<T>, key: T -> K, lt: (K, K) -> bool, k: K)
    requires StrictTotalOrder(lt)
    requires Sorted(s, key, lt)
    ensures WithKey(Insert(x, s, key, lt), key, k)
         == if key(x) == k then [x] + WithKey(s, key, k) else WithKey(s, key, k)
    decreases |s|
  {
    if |s| > 0 && lt(key(s[0]), key(x)) {
      InsertWithKey(x, s[1..], key, lt, k);
      assert key(x) == k ==> key(s[0]) != k;
    }
  }

  /** Stability: among elements with the same key, sorting keeps input order. */
  lemma {:induction false} SortStable<T, K(!new)>(s: seq<T>, key: T -> K, lt: (K, K) -> bool, k: K)
    requires StrictTotalOrder(lt)
    ensures WithKey(Sort(s, key, lt), key, k) == WithKey(s, key, k)
    decreases |s|
  {
    if |s| > 0 {
      SortStable(s[1..], key, lt, k);
      SortSorted(s[1..], key, lt);
      InsertWithKey(s[0], Sort(s[1..], key, lt), key, lt, k);
    }
  }

  /** An element of a multiset drawn from `s` sits at some index of `s`. */
  lemma IndexOf<T>(x: T, s: seq<T>) returns (k: nat)
    requires x in multiset(s)
    ensures k < |s| && s[k] == x
  {
    assert x in s;
    k :| 0 <= k < |s| && s[k] == x;
  }

  /** Removing one element keeps the keys distinct. */
  lemma DistinctKeysRemove<T, K>(s: seq<T>, k: nat, key: T -> K)
    requires k < |s| && DistinctKeys(s, key)
    ensures DistinctKeys(s[..k] + s[k + 1..], key)
  {
    var r := s[..k] + s[k + 1..];
    forall i, j | 0 <= i < j < |r| ensures key(r[i]) != key(r[j]) {
      var i', j' := if i < k then i else i + 1, if j < k then j else j + 1;
      assert r[i] == s[i'] && r[j] == s[j'];
    }
  }

  /** An element after the head of `s` is not the head, so it survives
      removing the head from `t`. */
  lemma TailInRest<T, K>(s: seq<T>, t: seq<T>, k: nat, key: T -> K, x: T)
    requires |s| > 0 && k < |t| && t[k] == s[0]
    requires DistinctKeys(s, key)
    requires x in s[1..] && x in t
    ensures x in t[..k] + t[k + 1..]
  {
    var m :| 0 <= m < |s[1..]| && s[1..][m] == x;
    assert key(s[m + 1]) != key(s[0]);
    var n :| 0 <= n < |t| && t[n] == x;
    var rest := t[..k] + t[k + 1..];
    if n < k {
      assert rest[n] == x;
    } else {
      assert n != k;
      assert rest[n - 1] == x;
    }
  }

  /** An element left after removing the head of `s` from `t` is not that
      head. */
  lemma RestNotHead<T, K>(t: seq<T>, k: nat, key: T -> K, x: T)
    requires k < |t| && DistinctKeys(t, key)
    requires x in t[..k] + t[k + 1..]
    ensures x in t && x != t[k]
  {
    var rest := t[..k] + t[k + 1..];
    var m :| 0 <= m < |rest| && rest[m] == x;
    var n := if m < k then m else m + 1;
    assert t[n] == x && n != k;
    assert key(t[n]) != key(t[k]);
  }

  lemma NotHeadInTail<T>(s: seq<T>, x: T)
    requires x in s && |s| > 0 && x != s[0]
    ensures x in s[1..]
  {
    var i :| 0 <= i < |s| && s[i] == x;
    assert s[1..][i - 1] == x;
  }

  lemma MultisetRemove<T>(s: seq<T>, t: seq<T>, k: nat)
    requires |s| > 0 && k < |t| && t[k] == s[0]
    requires multiset(s[1..]) == multiset(t[..k] + t[k + 1..])
    ensures multiset(s) == multiset(t)
  {
    assert s == [s[0]] + s[1..];
    assert t == t[..k] + [t[k]] + t[k + 1..];
    assert multiset(t) == multiset(t[..k]) + multiset{t[k]} + multiset(t[k + 1..]);
  }

  lemma HeadIn<T>(t: seq<T>)
    ensures |t| > 0 ==> t[0] in t
  {
  }

  /** Two sequences with distinct keys holding the same elements are
      rearrangements of each other. */
  lemma {:induction false} SameElements<T, K>(s: seq<T>, t: seq<T>, key: T -> K)
    requires DistinctKeys(s, key) && DistinctKeys(t, key)
    requires forall x :: x in s <==> x in t
    ensures multiset(s) == multiset(t)
    decreases |s|
  {
    if |s| == 0 {
      HeadIn(t);
    } else {
      assert s[0] in s;
      var k :| 0 <= k < |t| && t[k] == s[0];
      var rest := t[..k] + t[k + 1..];
      DistinctKeysRemove(t, k, key);
      forall x ensures x in s[1..] <==> x in rest {
        if x in s[1..] {
          assert x in s;
          TailInRest(s, t, k, key, x);
        }
        if x in rest {
          RestNotHead(t, k, key, x);
          NotHeadInTail(s, x);
        }
      }
      assert DistinctKeys(s[1..], key);
      SameElements(s[1..], rest, key);
      MultisetRemove(s, t, k);
    }
  }

  /** In two sorted arrangements of the same elements with distinct keys,
      the first elements agree. */
  lemma SortedHeads<T, K(!new)>(s: seq<T>, t: seq<T>, key: T -> K, lt: (K, K) -> bool)
    requires StrictTotalOrder(lt)
    requires Sorted(s, key, lt) && Sorted(t, key, lt)
    requires DistinctKeys(s, key)
    requires |s| > 0 && |t| > 0
    requires s[0] in multiset(t) && t[0] in multiset(s)
    ensures s[0] == t[0]
  {
    var k := IndexOf(s[0], t);
    var m := IndexOf(t[0], s);
    if k > 0 && m > 0 {
      assert false;
    }
  }

  /** Two sorted arrangements of the same elements with distinct keys are
      identical: sorting by key erases the original order. */
  lemma {:induction false} SortedUnique<T, K(!new)>(s: seq<T>, t: seq<T>, key: T -> K, lt: (K, K) -> bool)
    requires StrictTotalOrder(lt)
    requires Sorted(s, key, lt) && Sorted(t, key, lt)
    requires DistinctKeys(s, key)
    requires multiset(s) == multiset(t)
    ensures s == t
    decreases |s|
  {
    assert |s| == |multiset(s)| == |multiset(t)| == |t|;
    if |s| > 0 {
      assert s[0] in multiset(t) && t[0] in multiset(s) by {
        assert s[0] in multiset(s) && t[0] in multiset(t);
      }
      SortedHeads(s, t, key, lt);
      assert s == [s[0]] + s[1..] && t == [t[0]] + t[1..];
      assert multiset(s[1..]) == multiset(s) - multiset{s[0]};
      assert multiset(t[1..]) == multiset(t) - multiset{t[0]};
      SortedUnique(s[1..], t[1..], key, lt);
    }
  }

  lemma {:induction false} InsertDistinct<T, K>(x: T, s: seq<T>, key: T -> K, lt: (K, K) -> bool)
    requires DistinctKeys(s, key)
    requires forall i :: 0 <= i < |s| ==> key(s[i]) != key(x)
    ensures DistinctKeys(Insert(x, s, key, lt), key)
    decreases |s|
  {
    if |s| > 0 && lt(key(s[0]), key(x)) {
      InsertDistinct(x, s[1..], key, lt);
      InsertPermutes(x, s[1..], key, lt);
      var r := Insert(x, s[1..], key, lt);
      forall j | 0 <= j < |r| ensures key(s[0]) != key(r[j]) {
        assert r[j] in multiset(r);
        if r[j] != x {
          assert r[j] in multiset(s[1..]);
          var m :| 0 <= m < |s[1..]| && s[1..][m] == r[j];
          assert s[1 + m] == r[j];
        }
      }
    }
  }

  /** Sorting keeps keys distinct. */
  lemma {:induction false} SortDistinct<T, K>(s: seq<T>, key: T -> K, lt: (K, K) -> bool)
    requires DistinctKeys(s, key)
    ensures DistinctKeys(Sort(s, key, lt), key)
    decreases |s|
  {
    if |s| > 0 {
      SortDistinct(s[1..], key, lt);
      SortPermutes(s[1..], key, lt);
      var r := Sort(s[1..], key, lt);
      forall i | 0 <= i < |r| ensures key(r[i]) != key(s[0]) {
        assert r[i] in multiset(r);
        assert r[i] in multiset(s[1..]);
        var m :| 0 <= m < |s[1..]| && s[1..][m] == r[i];
        assert s[1 + m] == r[i];
      }
      InsertDistinct(s[0], r, key, lt);
    }
  }

  /** `s` and `t` have equal keys position by position, and `R` relates
      the elements at each position. */
  ghost predicate Related<T, K>(s: seq<T>, t: seq<T>, key: T -> K, R: (T, T) -> bool) {
    |s| == |t| && forall i :: 0 <= i < |s| ==> key(s[i]) == key(t[i]) && R(s[i], t[i])
  }

  lemma {:induction false} InsertRelated<T, K>(x: T, y: T, s: seq<T>, t: seq<T>, key: T -> K, lt: (K, K) -> bool, R: (T, T) -> bool)
    requires key(x) == key(y) && R(x, y)
    requires Related(s, t, key, R)
    ensures Related(Insert(x, s, key, lt), Insert(y, t, key, lt), key, R)
    decreases |s|
  {
    if |s| > 0 && lt(key(s[0]), key(x)) {
      InsertRelated(x, y, s[1..], t[1..], key, lt, R);
    }
  }

  /** Sorting looks only at keys: sequences with the same keys position by
      position are rearranged the same way, so any relation that held
      position by position still holds after sorting. */
  lemma {:induction false} SortRelated<T, K>(s: seq<T>, t: seq<T>, key: T -> K, lt: (K, K) -> bool, R: (T, T) -> bool)
    requires Related(s, t, key, R)
    ensures Related(Sort(s, key, lt), Sort(t, key, lt), key, R)
    decreases |s|
  {
    if |s| > 0 {
      SortRelated(s[1..], t[1..], key, lt, R);
      InsertRelated(s[0], t[0], Sort(s[1..], key, lt), Sort(t[1..], key, lt), key, lt, R);
    }
  }
}

=== FILE: text.dfy ===
/** Python `str` operations the core relies on: `strip`, `lower`/`upper`,
    `startswith`/`endswith`, `in`, `replace(old, "")`, `splitlines`,
    `"sep".join` and `str(int)`.  Case mapping is ASCII only. */
module Text {

  /** Python's `str.isspace`: the characters `str.strip()` removes. */
  predicate IsSpace(c: char) {
    || c == ' '
    || ('\t' <= c <= '\r')
    || ('\U{1C}' <= c <= '\U{1F}')
    || c == '\U{85}' || c == '\U{A0}' || c == '\U{1680}'
    || ('\U{2000}' <= c <= '\U{200A}')
    || c == '\U{2028}' || c == '\U{2029}' || c == '\U{202F}'
    || c == '\U{205F}' || c == '\U{3000}'
  }

  /** `s.lstrip()`: the longest suffix of `s` that does not start with whitespace. */
  function LStrip(s: string): (r: string)
    ensures |r| <= |s| && r == s[|s| - |r|..]
    ensures forall i :: 0 <= i < |s| - |r| ==> IsSpace(s[i])
    ensures |r| > 0 ==> !IsSpace(r[0])
    decreases |s|
  {
    if |s| > 0 && IsSpace(s[0]) then LStrip(s[1..]) else s
  }

  /** `s.rstrip()`: the longest prefix of `s` that does not end with whitespace. */
  function RStrip(s: string): (r: string)
    ensures |r| <= |s| && r == s[..|r|]
    ensures forall i :: |r| <= i < |s| ==> IsSpace(s[i])
    ensures |r| > 0 ==> !IsSpace(r[|r| - 1])
    decreases |s|
  {
    if |s| > 0 && IsSpace(s[|s| - 1]) then RStrip(s[..|s| - 1]) else s
  }

  /** `s.strip()`. */
  function Strip(s: string): (r: string)
    ensures |r| <= |s|
    ensures |r| > 0 ==> !IsSpace(r[0]) && !IsSpace(r[|r| - 1])
    ensures |r| == 0 <==> forall i :: 0 <= i < |s| ==> IsSpace(s[i])
  {
    var l := LStrip(s);
    var r := RStrip(l);
    r
  }

  /** A text that neither starts nor ends with whitespace is its own
      `strip()`. */
  lemma StripIdentity(s: string)
    requires |s| > 0 ==> !IsSpace(s[0]) && !IsSpace(s[|s| - 1])
    ensures Strip(s) == s
  {
  }

  /** `strip()` only removes characters. */
  lemma StripChars(s: string)
    ensures forall i | 0 <= i < |Strip(s)| :: Strip(s)[i] in s
  {
    var l := LStrip(s);
    var r := RStrip(l);
    assert forall i | 0 <= i < |r| :: r[i] == l[i] == s[|s| - |l| + i];
  }

  /** `s.lstrip(chars)`: drop leading characters that belong to `chars`. */
  function LStripChars(s: string, chars: set<char>): (r: string)
    ensures |r| <= |s| && r == s[|s| - |r|..]
    ensures forall i :: 0 <= i < |s| - |r| ==> s[i] in chars
    ensures |r| > 0 ==> r[0] !in chars
    decreases |s|
  {
    if |s| > 0 && s[0] in chars then LStripChars(s[1..], chars) else s
  }

  /** `lstrip(chars)` stops at the first character outside `chars`. */
  lemma LStripCharsStop(s: string, chars: set<char>)
    requires |s| == 0 || s[0] !in chars
    ensures LStripChars(s, chars) == s
  {
  }

  lemma LStripCharsStep(s: string, chars: set<char>)
    requires |s| > 0 && s[0] in chars
    ensures LStripChars(s, chars) == LStripChars(s[1..], chars)
  {
  }

  function LowerChar(c: char): char {
    if 'A' <= c <= 'Z' then (c as int + 32) as char else c
  }

  function UpperChar(c: char): char {
    if 'a' <= c <= 'z' then (c as int - 32) as char else c
  }

  /** `s.lower()`, for ASCII letters. */
  function Lower(s: string): (r: string)
    ensures |r| == |s| && forall i :: 0 <= i < |s| ==> r[i] == LowerChar(s[i])
  {
    seq(|s|, i requires 0 <= i < |s| => LowerChar(s[i]))
  }

  /** Lower-casing twice is lower-casing once. */
  lemma LowerIdempotent(s: string)
    ensures Lower(Lower(s)) == Lower(s)
  {
  }

  /** `s.upper()`, for ASCII letters. */
  function Upper(s: string): (r: string)
    ensures |r| == |s| && forall i :: 0 <= i < |s| ==> r[i] == UpperChar(s[i])
  {
    seq(|s|, i requires 0 <= i < |s| => UpperChar(s[i]))
  }

  /** Upper-casing ignores an earlier lower-casing. */
  lemma UpperOfLower(s: string)
    ensures Upper(Lower(s)) == Upper(s)
  {
    forall i | 0 <= i < |s| ensures UpperChar(LowerChar(s[i])) == UpperChar(s[i]) {
    }
  }

  predicate StartsWith(s: string, prefix: string) {
    |prefix| <= |s| && s[..|prefix|] == prefix
  }

  predicate EndsWith(s: string, suffix: string) {
    |suffix| <= |s| && s[|s| - |suffix|..] == suffix
  }

  /** `sub` occurs in `s` starting at index `i`. */
  predicate OccursAt(s: string, sub: string, i: nat) {
    i + |sub| <= |s| && s[i..i + |sub|] == sub
  }

  /** Python's `sub in s`. */
  predicate Contains(s: string, sub: string) {
    exists i | 0 <= i <= |s| :: OccursAt(s, sub, i)
  }

  /** `s.replace(pat, "")`: remove the non-overlapping occurrences of `pat`,
      scanning left to right without rescanning what the removal joins. */
  function RemoveAll(s: string, pat: string): (r: string)
    requires |pat| > 0
    ensures |r| <= |s|
    decreases |s|
  {
    if |s| == 0 then ""
    else if StartsWith(s, pat) then RemoveAll(s[|pat|..], pat)
    else [s[0]] + RemoveAll(s[1..], pat)
  }

  /** `s.replace(c, "")` for a one-character `c`. */
  function RemoveChar(s: string, c: char): (r: string)
    ensures c !in r
    ensures forall x :: x in r <==> x in s && x != c
    decreases |s|
  {
    if |s| == 0 then ""
    else if s[0] == c then RemoveChar(s[1..], c)
    else [s[0]] + RemoveChar(s[1..], c)
  }

  /** `replace` works character by character: a single character is dropped
      when it is `c` and kept otherwise... */
  lemma RemoveCharOne(x: char, c: char)
    ensures RemoveChar([x], c) == if x == c then "" else [x]
  {
    assert [x][1..] == "";
  }

  /** ... and the result for a concatenation is the results for its parts,
      in order. Together the two fix `RemoveChar` as the order-preserving
      filter that drops `c`. */
  lemma {:induction false} RemoveCharConcat(a: string, b: string, c: char)
    ensures RemoveChar(a + b, c) == RemoveChar(a, c) + RemoveChar(b, c)
    decreases |a|
  {
    if |a| > 0 {
      assert (a + b)[0] == a[0];
      assert (a + b)[1..] == a[1..] + b;
      RemoveCharConcat(a[1..], b, c);
    } else {
      assert a + b == b;
    }
  }

  /** A text without `c` is left as it is. */
  lemma {:induction false} RemoveCharAbsent(s: string, c: char)
    requires c !in s
    ensures RemoveChar(s, c) == s
    decreases |s|
  {
    if |s| > 0 {
      assert s == [s[0]] + s[1..];
      RemoveCharAbsent(s[1..], c);
    }
  }

  /** Up to the first `c`, the text is kept; that `c` is dropped. */
  lemma RemoveCharSkip(a: string, b: string, c: char)
    requires c !in a
    ensures RemoveChar(a + [c] + b, c) == a + RemoveChar(b, c)
  {
    RemoveCharConcat(a + [c], b, c);
    RemoveCharConcat(a, [c], c);
    RemoveCharOne(c, c);
    RemoveCharAbsent(a, c);
  }

  /** The characters `str.splitlines()` treats as line boundaries. */
  predicate IsLineBreak(c: char) {
    || c == '\n' || c == '\r' || c == '\U{0B}' || c == '\U{0C}'
    || ('\U{1C}' <= c <= '\U{1E}')
    || c == '\U{85}' || c == '\U{2028}' || c == '\U{2029}'
  }

  /** Index of the first line boundary in `s`, or `|s|`. */
  function FirstBreak(s: string): (i: nat)
    ensures i <= |s|
    ensures forall k :: 0 <= k < i ==> !IsLineBreak(s[k])
    ensures i < |s| ==> IsLineBreak(s[i])
    decreases |s|
  {
    if |s| == 0 then 0
    else if IsLineBreak(s[0]) then 0
    else 1 + FirstBreak(s[1..])
  }

  /** `s.splitlines()`: "\r\n" is one boundary; a final boundary does not
      start an extra empty line. */
  function SplitLines(s: string): (lines: seq<string>)
    ensures forall k, j :: 0 <= k < |lines| && 0 <= j < |lines[k]| ==> !IsLineBreak(lines[k][j])
    decreases |s|
  {
    if |s| == 0 then []
    else
      var i := FirstBreak(s);
      if i == |s| then [s]
      else
        var w := if s[i] == '\r' && i + 1 < |s| && s[i + 1] == '\n' then 2 else 1;
        [s[..i]] + SplitLines(s[i + w..])
  }

  /** `sep.join(parts)`. */
  function Join(parts: seq<string>, sep: string): string
    decreases |parts|
  {
    if |parts| == 0 then ""
    else if |parts| == 1 then parts[0]
    else parts[0] + sep + Join(parts[1..], sep)
  }

  /** Every character of `s` satisfies `P`. */
  ghost predicate AllChars(s: string, P: char -> bool) {
    forall i :: 0 <= i < |s| ==> P(s[i])
  }

  lemma AllCharsConcat(a: string, b: string, P: char -> bool)
    requires AllChars(a, P) && AllChars(b, P)
    ensures AllChars(a + b, P)
  {
    forall i | 0 <= i < |a + b| ensures P((a + b)[i]) {
      if i >= |a| {
        assert (a + b)[i] == b[i - |a|];
      }
    }
  }

  /** A joined text is made of the parts and the separators between them. */
  lemma {:induction false} JoinAllChars(parts: seq<string>, sep: string, P: char -> bool)
    requires AllChars(sep, P)
    requires forall k :: 0 <= k < |parts| ==> AllChars(parts[k], P)
    ensures AllChars(Join(parts, sep), P)
    decreases |parts|
  {
    if |parts| > 1 {
      JoinAllChars(parts[1..], sep, P);
      AllCharsConcat(parts[0], sep, P);
      AllCharsConcat(parts[0] + sep, Join(parts[1..], sep), P);
    }
  }

  /** `sep.join(parts)` seen around its `q`-th part. */
  lemma {:induction false} JoinSplit(parts: seq<string>, q: nat, sep: string)
    requires q < |parts|
    ensures Join(parts, sep)
         == Join(parts[..q], sep) + (if q > 0 then sep else "") + parts[q]
          + (if q + 1 < |parts| then sep else "") + Join(parts[q + 1..], sep)
    decreases q
  {
    if q > 0 {
      JoinSplit(parts[1..], q - 1, sep);
      assert parts[1..][..q - 1] == parts[1..q];
      assert parts[1..][q - 1 + 1..] == parts[q + 1..];
      if q > 1 {
        assert parts[..q][1..] == parts[1..q];
      }
    }
  }

  /** Joins of part lists that differ in exactly one place differ: a text
      built with `join` commits to each of its parts. */
  lemma JoinOneDifference(a: seq<string>, b: seq<string>, q: nat, sep: string)
    requires |a| == |b| && q < |a|
    requires forall k :: 0 <= k < |a| && k != q ==> a[k] == b[k]
    requires a[q] != b[q]
    ensures Join(a, sep) != Join(b, sep)
  {
    JoinSplit(a, q, sep);
    JoinSplit(b, q, sep);
    assert a[..q] == b[..q];
    assert a[q + 1..] == b[q + 1..];
    var pre := Join(a[..q], sep) + (if q > 0 then sep else "");
    var mid := if q + 1 < |a| then sep else "";
    MiddleDiffers(pre, a[q], b[q], mid, Join(a[q + 1..], sep));
  }

  /** Texts with the same surroundings and different middles differ. */
  lemma MiddleDiffers(pre: string, x: string, y: string, s: string, post: string)
    requires x != y
    ensures pre + x + s + post != pre + y + s + post
  {
    var u, v := pre + x + s + post, pre + y + s + post;
    if |x| == |y| {
      assert u[|pre|..|pre| + |x|] == x;
      assert v[|pre|..|pre| + |y|] == y;
    } else {
      assert |u| != |v|;
    }
  }

  /** Splitting on `c`: the inverse of joining with `[c]`. */
  function SplitOn(s: string, c: char): (parts: seq<string>)
    ensures |parts| >= 1
    decreases |s|
  {
    if c !in s then [s]
    else
      var i := IndexOf(s, c);
      [s[..i]] + SplitOn(s[i + 1..], c)
  }

  function IndexOf(s: string, c: char): (i: nat)
    requires c in s
    ensures i < |s| && s[i] == c && c !in s[..i]
    decreases |s|
  {
    if s[0] == c then 0 else 1 + IndexOf(s[1..], c)
  }

  /** Joining lines that hold no `c` with `[c]` and splitting on `c` gives
      the lines back. */
  lemma {:induction false} SplitOnJoin(parts: seq<string>, c: char)
    requires |parts| >= 1
    requires forall k :: 0 <= k < |parts| ==> c !in parts[k]
    ensures SplitOn(Join(parts, [c]), c) == parts
    decreases |parts|
  {
    if |parts| == 1 {
    } else {
      var rest := Join(parts[1..], [c]);
      var s := parts[0] + [c] + rest;
      assert Join(parts, [c]) == s;
      assert s[|parts[0]|] == c;
      assert c in s;
      var i := IndexOf(s, c);
      assert i == |parts[0]|;
      assert s[..i] == parts[0];
      assert s[i + 1..] == rest;
      SplitOnJoin(parts[1..], c);
    }
  }

  function DigitChar(d: nat): char
    requires d < 10
  {
    "0123456789"[d]
  }

  /** `str(n)` for a natural number: decimal, no leading zeros. */
  function NatToString(n: nat): (r: string)
    ensures |r| >= 1
    ensures forall i :: 0 <= i < |r| ==> '0' <= r[i] <= '9'
    ensures r[0] == '0' ==> n == 0
    decreases n
  {
    if n < 10 then [DigitChar(n)] else NatToString(n / 10) + [DigitChar(n % 10)]
  }

  /** `str(i)` for a Python int. */
  function IntToString(i: int): (r: string)
    ensures |r| >= 1
    ensures forall k :: 0 <= k < |r| ==> r[k] == '-' || '0' <= r[k] <= '9'
  {
    if i < 0 then "-" + NatToString(-i) else NatToString(i)
  }

  /** Python's `<` on strings: lexicographic by code point. */
  predicate StrLt(a: string, b: string)
    decreases |a|
  {
    |b| > 0 && (|a| == 0 || a[0] < b[0] || (a[0] == b[0] && StrLt(a[1..], b[1..])))
  }

  lemma StrLtIrreflexive(a: string)
    ensures !StrLt(a, a)
  {
  }

  lemma StrLtTransitive(a: string, b: string, c: string)
    requires StrLt(a, b) && StrLt(b, c)
    ensures StrLt(a, c)
    decreases |a|
  {
    if |a| > 0 && a[0] == b[0] && b[0] == c[0] {
      StrLtTransitive(a[1..], b[1..], c[1..]);
    }
  }

  lemma StrLtTotal(a: string, b: string)
    requires a != b
    ensures StrLt(a, b) || StrLt(b, a)
    decreases |a|
  {
    if |a| > 0 && |b| > 0 && a[0] == b[0] {
      StrLtTotal(a[1..], b[1..]);
    }
  }
}

=== FILE: wrappers.dfy ===
/** Option and Result, the failure-carrying values used throughout the model.
    A Python `None` becomes `None`; a Python exception that escapes a call
    becomes `Err` carrying a description of the exception. */
module Wrappers {

  datatype Option<+T> = None | Some(value: T) {

    /** The value, or `default` when there is none (Python's `x or default`
        for an optional argument). */
    function GetOr(default: T): T {
      match this
      case Some(v) => v
      case None => default
    }
  }

  datatype Result<+T, +E> = Ok(value: T) | Err(error: E) {

    predicate IsFailure() {
      Err?
    }

    function PropagateFailure<U>(): Result<U, E>
      requires Err?
    {
      Err(error)
    }

    function Extract(): T
      requires Ok?
    {
      value
    }
  }
}
